=== FILE: README.md ===
# venv-pack relocation and filtering, in Dafny

venv-pack packs a Python virtual environment (`venv` or `virtualenv`) into a
`tar`/`zip` archive that can be unpacked elsewhere. This project models the
parts of `venv_pack/core.py` and `venv_pack/formats.py` that decide what goes
into the archive and how, and proves properties of them.

- **Detection.** This covers `check_prefix`, `check_venv`, `check_virtualenv`, `find_python_lib_include` and the editable-install check.
  - The disk is a value: file texts, existing directories and `glob` results.
- **Manifest.** This is the listing and drop filter of `load_environment`.
  - Each directory walk is a given sequence of `(root, dirs, files)` steps.
  - Each step carries its root relative to the walked directory (`.` for that directory itself). The listing re-roots it under the entry's name (`Manifest.RootUnder`), which gives the `relpath(root, prefix)` the source lists.
- **Filters.** These are `Env.exclude`, `Env.include` and the ordered `filters` fold of `pack`.
  - `fnmatch` is an uninterpreted parameter.
- **Output path and format inference.** This is `_output_and_format`, plus the existing-output check of `Env.pack`.
- **Relocation.**
  - `rewrite_shebang` is a hand-written scanner over bytes that mirrors `SHEBANG_REGEX`.
  - `check_python_prefix` builds the link-rewrite rules.
  - `Packer` is a class. The archive it writes to is its recorded sequence of `Add | AddBytes | AddLink` calls.
- **Archive backends.**
  - The format-to-mode table and backend selection.
  - `TarArchive` and `ZipArchive` are classes holding the entries they write.
  - The zip symlink fallback, the external-attribute bits and `zipinfo_from_file`.

Files:
- `common.dfy`: bytes, errors, `startswith`, `endswith`, `replace` and `count`.
- `paths.dfy`: POSIX `os.path` and `str` helpers.
- `fs.dfy`: the stat and link oracle.
- `environment.dfy`: `Env` and the filters.
- `output_format.dfy`: output path and format inference.
- `discovery.dfy`: detection.
- `editable.dfy`: the `.pth` scan and `sorted`.
- `manifest.dfy`: `load_environment`.
- `shebang.dfy`: `rewrite_shebang`.
- `relocation.dfy`: `check_python_prefix` and `Packer`.
- `formats.dfy`: the backends.

Behaviour kept exactly as written, and stated as lemmas:
- `replace` rewrites every copy of the pattern, not only the leading one (`RelinkEveryCopy`).
- The `venv` rule matches by prefix. So a link to `/usr/bin/python3.6` becomes `<new>/bin/python3.63.6` (`VenvRelinkKeepsSuffix`, `VenvRelinkVersioned`), and `Packer.add` archives the link that way (`VenvLinkRecorded`).
- The absolute entries of the `remove` set never equal a relative listed path (`AbsoluteRemovalsNeverMatch`). The `pyvenv.cfg` or `orig-prefix.txt` therefore stays in the manifest (`VenvConfigKept`, `VirtualenvOriginKept`). `finish` then adds it a second time.
- A malformed `pyvenv.cfg` line raises `ValueError`, which is not caught by `check_prefix` (`MalformedCfgEscapes`).

## Model

| member | source | states |
|---|---|---|
| `Environment.Exclude` | venv_pack/core.py:144-153 | the loop's result is `ExcludeOf`: active = the non-matching active files in order; excluded = the old excluded list followed by the matching active files |
| `Environment.Include` | venv_pack/core.py:173-182 | the loop's result is `IncludeOf`: active = the old active list followed by the matching excluded files; excluded = the non-matching rest |
| `Environment.ExcludeOf` | venv_pack/core.py:144-153 | `exclude` keeps the context; the excluded list only grows, with the old excluded files kept in front |
| `Environment.IncludeOf` | venv_pack/core.py:173-182 | `include` keeps the context; the active list only grows, with the old active files kept in front |
| `Environment.SplitMembers` | venv_pack/core.py:148-152 | a file is selected iff it is in the list and matches; it is rejected iff it is in the list and does not match |
| `Environment.SplitPreserves` | venv_pack/core.py:148-152 | the selected and rejected parts together are the original list as a multiset, and their lengths add up |
| `Environment.SelectedAppend` | venv_pack/core.py:148-152 | selecting distributes over concatenation |
| `Environment.RejectedAppend` | venv_pack/core.py:148-152 | rejecting distributes over concatenation |
| `Environment.SelectedTwice` | venv_pack/core.py:148-152 | selecting or rejecting twice with one pattern changes nothing; the other split of a split is empty |
| `Environment.ExcludePreservesFiles` | venv_pack/core.py:144-153 | `exclude` keeps the context and the multiset of active plus excluded files; no remaining active file matches |
| `Environment.IncludePreservesFiles` | venv_pack/core.py:173-182 | `include` keeps the context and the multiset of all files; no remaining excluded file matches |
| `Environment.FiltersIdempotent` | venv_pack/core.py:144-182 | repeating the same `exclude` or `include` changes nothing |
| `Environment.ExcludeIncludeRoundTrip` | venv_pack/core.py:144-182 | `exclude(P).include(P)`: active = the old active files plus the matching excluded files (multiset); excluded = the non-matching excluded files |
| `Environment.ExcludeIncludeRestores` | venv_pack/core.py:144-182 | with nothing excluded, `exclude(P).include(P)` has the same length and multiset of files and nothing excluded |
| `Environment.ExcludeDisjointCounts` | venv_pack/core.py:144-153 | two excludes whose patterns match no common file leave the active count less by the number of files each pattern matches |
| `Environment.SelectedOfRejected` | venv_pack/core.py:148-152 | under disjointness, removing the A matches first does not change which files match B |
| `Environment.ApplyFilters` | venv_pack/core.py:356-363 | the filter loop's result is the ordered fold `Filtered` |
| `Environment.Filtered` | venv_pack/core.py:356-363 | a successful fold keeps the context; a failed one is a `VenvPackException` |
| `Environment.FilteredPreservesFiles` | venv_pack/core.py:356-363 | whatever the filters, the active and excluded lists together hold the same multiset of files as before |
| `Environment.FilteredAppend` | venv_pack/core.py:356-363 | folding `a + b` is folding `a` and then `b` |
| `Environment.FilteredFailsIffUnknownKind` | venv_pack/core.py:356-363 | the fold fails iff some entry's kind is neither `exclude` nor `include` |
| `Environment.FilteredChain` | venv_pack/core.py:356-363 | `exclude A, exclude B, include C` equals the chained calls |
| `OutputFormat.OutputAndFormat` | venv_pack/core.py:184-204 | the format is always a supported one; an explicit valid format is kept whatever the extension; an unknown format fails; the default output is the name plus `.` plus the format; no output and `infer` give `name.tar.gz` |
| `OutputFormat.InferFromExtension` | venv_pack/core.py:187-199 | with `infer`, each extension of the table yields its format |
| `OutputFormat.InferUnknownExtension` | venv_pack/core.py:196-197 | with `infer`, an output with no known extension is refused |
| `OutputFormat.DefaultNameRoundTrip` | venv_pack/core.py:184-204 | the default output name of a format is inferred back as that format |
| `OutputFormat.PackTarget` | venv_pack/core.py:250-253 | `Env.pack` proceeds iff the output and format are valid and the output does not exist or `force` is set; otherwise `File ... already exists` |
| `Discovery.FirstLineShape` | venv_pack/core.py:399 | the first line of a text ends at its first `\n` or at the end |
| `Discovery.LinesRoundTrip` | venv_pack/core.py:399 | the lines `for line in fil` yields concatenate back to the text |
| `Discovery.LinesShape` | venv_pack/core.py:399 | no line is empty; all but the last end in `\n`; no line has another `\n` |
| `Discovery.EqualsAt` | venv_pack/core.py:400 | the index is that of the first `=`, or the length when there is none |
| `Discovery.Classify` | venv_pack/core.py:400-403 | a line is malformed (`ValueError`) iff it does not hold exactly one `=`; it is a home line iff its stripped, lowered key is `home`, and then its value is the text after the `=` |
| `Discovery.UnpackError` | venv_pack/core.py:400 | unpacking a wrong split raises `ValueError` |
| `Discovery.ClassifyAll` | venv_pack/core.py:399-403 | every line is classified, in order |
| `Discovery.HomeValue` | venv_pack/core.py:399-406 | a value found is that of a home line of the file; an error is "not a valid virtual environment" or the error of a malformed line |
| `Discovery.CfgHome` | venv_pack/core.py:398-406 | reading `pyvenv.cfg` fails only with "not a valid virtual environment" or a `ValueError`; a value means the file has a home line |
| `Discovery.HomeValueFirstLine` | venv_pack/core.py:399-406 | the first line that is not an ordinary `key = value` line decides: a home line gives its value, a malformed line its `ValueError` |
| `Discovery.HomeValueNoHomeLine` | venv_pack/core.py:404-406 | no home line and no malformed line gives "not a valid virtual environment" |
| `Discovery.FindPythonLibInclude` | venv_pack/core.py:441-456 | succeeds iff the glob found exactly one entry, giving `lib/<v>` and `include/<v>` for its basename; otherwise `VenvPackException` |
| `Discovery.CheckVenv` | venv_pack/core.py:393-418 | succeeds iff `pyvenv.cfg` is readable, has a home line and one Python is found; the original prefix is the dirname of the stripped home value; a missing `pyvenv.cfg` is "not a valid virtual environment", an unreadable one its `OSError`, a malformed or home-less one `CfgHome`'s error, a wrong Python count the `VenvPackException` of `find_python_lib_include` |
| `Discovery.CheckVirtualenv` | venv_pack/core.py:421-438 | succeeds iff one Python is found and `<lib>/orig-prefix.txt` is readable; the original prefix is its stripped text; a wrong Python count is the `VenvPackException` of `find_python_lib_include`, a missing `orig-prefix.txt` "not a valid virtual environment", an unreadable one its `OSError` |
| `Discovery.TryChecks` | venv_pack/core.py:384-390 | the result is "not valid" or one of the check outcomes |
| `Discovery.CheckPrefix` | venv_pack/core.py:372-390 | no prefix and no `$VIRTUAL_ENV` is a `VenvPackException`; a path that does not exist gives "Environment path ... doesn't exist"; a detected prefix exists and has the one-Python library layout |
| `Discovery.FirstDecisiveCheckWins` | venv_pack/core.py:384-388 | the first check that succeeds or raises something other than `VenvPackException` decides |
| `Discovery.NoCheckSucceeds` | venv_pack/core.py:384-390 | when every check raises `VenvPackException`, the prefix is not valid |
| `Discovery.TwoChecks` | venv_pack/core.py:384-390 | the search over two checks, spelled out |
| `Discovery.CheckPrefixOrder` | venv_pack/core.py:372-390 | on an existing path, `venv` wins when decisive (success or `ValueError`), then `virtualenv`, else "not valid" |
| `Discovery.NoCfgFallsBack` | venv_pack/core.py:384-396 | with no `pyvenv.cfg`, a prefix that `check_virtualenv` accepts is detected as a `virtualenv` with that check's context |
| `Discovery.MalformedCfgEscapes` | venv_pack/core.py:384-402 | a malformed `pyvenv.cfg` line before the home line makes `check_prefix` raise that `ValueError` |
| `Discovery.NotAnEnvironment` | venv_pack/core.py:384-390 | with no `pyvenv.cfg`, and no single Python or no `orig-prefix.txt`, the prefix is "not a valid virtual environment" |
| `Discovery.ContextLayout` | venv_pack/core.py:441-456 | every detected context has `lib/<v>` and `include/<v>` for one slash-free `v` |
| `Editable.LexIrreflexive` | venv_pack/core.py:480 | Python string order is irreflexive |
| `Editable.LexTransitive` | venv_pack/core.py:480 | Python string order is transitive |
| `Editable.LexTotal` | venv_pack/core.py:480 | Python string order is total on distinct strings |
| `Editable.LexAsymmetric` | venv_pack/core.py:480 | Python string order is asymmetric |
| `Editable.Insert` | venv_pack/core.py:480 | insertion adds exactly the element (multiset) |
| `Editable.InsertSorted` | venv_pack/core.py:480 | insertion keeps a list strictly sorted |
| `Editable.SortStrings` | venv_pack/core.py:480 | `sorted(set)`: strictly increasing, exactly the set's elements, same size |
| `Editable.EmptyListing` | venv_pack/core.py:476 | a sorted listing is empty iff its set is |
| `Editable.HeadIsLeast` | venv_pack/core.py:480 | the head of a sorted listing is the least element |
| `Editable.SortedListingUnique` | venv_pack/core.py:480 | a set has only one sorted listing, so the message is determined |
| `Editable.EditableLinesMembers` | venv_pack/core.py:468-475 | a `.pth` file contributes exactly its right-stripped non-comment, non-blank lines whose location does not start with the prefix |
| `Editable.ScanPth` | venv_pack/core.py:468-475 | the per-file loop computes `EditableLines` |
| `Editable.ScanFilesFails` | venv_pack/core.py:465-467 | the scan fails iff some `.pth` file is unreadable, with the `OSError` of the first one |
| `Editable.ScanFilesMembers` | venv_pack/core.py:465-475 | on success every file was read, and a line is found iff it is found in one file |
| `Editable.EditableAllMembers` | venv_pack/core.py:459-475 | a line is reported iff it is an offending line of one of the glob's `.pth` files |
| `Editable.Bulleted` | venv_pack/core.py:480 | each listed line is prefixed with `- `, in order |
| `Editable.ScanAll` | venv_pack/core.py:465-475 | the outer loop computes the specification scan, stopping at the first unreadable file |
| `Editable.CheckNoEditablePackages` | venv_pack/core.py:459-481 | passes iff no offending line exists; otherwise fails with the message over the sorted listing, or with the read error |
| `Editable.ScanFilesErrorPersists` | venv_pack/core.py:465-467 | an unreadable file stops the scan for good |
| `Manifest.CollectFiles` | venv_pack/core.py:517 | the files of a walk step are listed under the step's relative root |
| `Manifest.CollectLinks` | venv_pack/core.py:519-522 | only the linked sub-directories are listed |
| `Manifest.CollectStep` | venv_pack/core.py:509-522 | a step with root `root2` (relative to the prefix) lists `root2` when empty; otherwise its files, then its linked sub-directories, each joined to `root2` |
| `Manifest.CollectWalk` | venv_pack/core.py:508-522 | the walk of top-level directory `name` lists the concatenation of its steps, each under `relpath(root, prefix)`: `name` for the top, `name/rel` below it |
| `Manifest.CollectAll` | venv_pack/core.py:503-522 | a top-level file or link is listed by name; a directory by its walk |
| `Manifest.LoadEnvironment` | venv_pack/core.py:484-528 | detection errors and `.pth` read errors propagate; editable lines fail with the message over their sorted listing; otherwise the files are the drop-filtered listing, each with its absolute source |
| `Manifest.NewEnv` | venv_pack/core.py:75-80 | an `Env` exists iff detection succeeds and no editable line is found; it holds the loaded files and nothing excluded; a `.pth` read error or the editable message over the sorted listing is passed on |
| `Manifest.FlatMapMembers` | venv_pack/core.py:503-522 | an element of a flattened listing comes from exactly one of its parts |
| `Manifest.StepListing` | venv_pack/core.py:509-522 | a step lists its root relative to the prefix when empty; otherwise exactly its files and its linked sub-directories, joined to that root |
| `Manifest.CollectedListing` | venv_pack/core.py:503-522 | a path is listed iff a top-level file or link has that name, or some step of the walk of top-level directory `name` lists it under its prefix-relative root |
| `Manifest.EmptyDirectoryListed` | venv_pack/core.py:505-516 | an empty top-level directory is listed by its own name; an empty directory below it as `name/rel` |
| `Manifest.ManifestMembers` | venv_pack/core.py:524-526 | a record is in the manifest iff its target is listed and kept, and its source is the prefix joined with the target |
| `Manifest.ManifestAppend` | venv_pack/core.py:524-526 | the drop filter keeps the listing order |
| `Manifest.RemoveSet` | venv_pack/core.py:492-498 | the three activation scripts plus one path, ending in `orig-prefix.txt` for a `virtualenv` and in `pyvenv.cfg` for a `venv` |
| `Manifest.ManifestOf` | venv_pack/core.py:524-526 | the manifest is never longer than the listing, and exactly as long when every listed path is kept |
| `Manifest.AbsoluteRemovalsNeverMatch` | venv_pack/core.py:492-498 | for an absolute prefix, a relative path is removed iff it is an activation script |
| `Manifest.VenvConfigKept` | venv_pack/core.py:497-498 | a `venv`'s `pyvenv.cfg` survives the drop filter |
| `Manifest.VirtualenvOriginKept` | venv_pack/core.py:495-496 | a `virtualenv`'s `<lib>/orig-prefix.txt` survives the drop filter |
| `Shebang.SpacesEnd` | venv_pack/core.py:33 | `[ ]*` stops at the first non-space |
| `Shebang.ExecEnd` | venv_pack/core.py:36 | the executable run ends at the end of the data or at a stop byte (space, `\n`, `\r`, `\t`) |
| `Shebang.LineEnd` | venv_pack/core.py:38 | `.*` stops at the first `\n` |
| `Shebang.MatchShebang` | venv_pack/core.py:29-40 | a match needs data starting with `#!`; its executable is non-empty and starts with `/`; its shebang holds `#!`, the executable and the options and lies within the data |
| `Shebang.MatchIffShebangStart` | venv_pack/core.py:29-40 | the pattern matches iff the data starts with `#!`, spaces and `/` |
| `Shebang.ExecSpacesEscaped` | venv_pack/core.py:36 | the executable holds no `\n`, `\r` or `\t`, and each of its spaces follows a backslash |
| `Shebang.MatchIsFirstLine` | venv_pack/core.py:29-40 | the shebang group is the whole first line |
| `Shebang.MatchParts` | venv_pack/core.py:29-40 | shebang = `#!` + spaces + executable + options |
| `Shebang.MatchExecutable` | venv_pack/core.py:36-38 | the executable is absolute with only escaped spaces; the options start with a stop byte |
| `Shebang.LastComponent` | venv_pack/core.py:552 | the name after the last `/` holds no `/` and ends the executable |
| `Shebang.RewriteShebang` | venv_pack/core.py:531-559 | no match gives `(data, False)`; a prefix counted more than once gives `(data, False)`; otherwise `fixed`; the data changes only when the executable starts with the prefix |
| `Shebang.RewriteTouchesFirstLineOnly` | venv_pack/core.py:550-557 | with the interpreter inside the environment, the result is the `#!/usr/bin/env <name><options>` line followed by the rest of the data, byte for byte |
| `Shebang.LeadingLineUnique` | venv_pack/core.py:544-555 | when the first line holds the only copy of the prefix, that line occurs nowhere after itself, so `replace` touches it alone |
| `Common.ReplaceAbsent` | venv_pack/core.py:555 | `replace` leaves data without the pattern unchanged |
| `Common.CountTwo` | venv_pack/core.py:544 | `count` counts two disjoint occurrences as at least two |
| `Common.ReplaceLeading` | venv_pack/core.py:555 | `replace` of a unique leading copy replaces just that copy |
| `Relocation.RewriteRules` | venv_pack/core.py:572-588 | one rule for a `venv`, two for a `virtualenv`; the `venv` rule's original ends in `python` and its replacement in the basename of `py_lib`; the `virtualenv` include rule ends in the include directory on both sides and, for a relative include directory, runs from the old interpreter prefix to the new one |
| `Relocation.CheckPythonPrefix` | venv_pack/core.py:562-590 | `None` gives no rules; fails iff relative, with the exact message; otherwise the normalised prefix and exactly the rules `RewriteRules` gives for it, one (`venv`) or two (`virtualenv`) |
| `Relocation.VenvRuleShape` | venv_pack/core.py:572-581 | a `venv` has one rule; its original starts with the original prefix and ends in `python`; its replacement starts with the new prefix and ends with the basename of `py_lib` |
| `Relocation.VirtualenvRulesShape` | venv_pack/core.py:582-588 | the `virtualenv` rules: lib with a trailing slash on both sides, then include |
| `Relocation.VenvRules` | venv_pack/core.py:572-581 | for prefixes without a trailing slash, the `venv` rule is exactly `<orig>/bin/python` to `<new>/bin/<basename of py_lib>` |
| `Relocation.VirtualenvRules` | venv_pack/core.py:582-588 | for prefixes without a trailing slash and a relative `py_lib` and include directory, the rules are exactly `<orig>/<lib>/` to `<new>/<lib>/`, then `<orig>/<include>` to `<new>/<include>` |
| `Relocation.FirstRule` | venv_pack/core.py:606-611 | the rule found is one whose `orig` prefixes the link; none found means none does |
| `Relocation.FirstRuleIsFirst` | venv_pack/core.py:606-611 | the first matching rule wins |
| `Relocation.AddCall` | venv_pack/core.py:603-620 | the call made for a file keeps its source and target; a link call is made only for a link some rule matches, and points at the link text with the first matching rule's original replaced by its replacement; only reading a `bin` file can fail, with that file's `OSError` |
| `Relocation.RelinkLeading` | venv_pack/core.py:609 | a link holding `orig` only at its start is re-pointed to the replacement plus the rest |
| `Relocation.RelinkEveryCopy` | venv_pack/core.py:609 | `replace` re-points every copy of `orig`, not only the leading one |
| `Relocation.VenvRelinkKeepsSuffix` | venv_pack/core.py:574-580 | a link `<orig>/bin/python` + suffix, where the suffix holds no copy of the rule's original, matches the rule and becomes the new versioned interpreter + the same suffix |
| `Relocation.VenvRelinkVersioned` | venv_pack/core.py:572-581 | the rule `/usr/bin/python` to `/opt/bin/python3.6` turns a link to `/usr/bin/python3.6` into `/opt/bin/python3.63.6` |
| `Relocation.VenvLinkRecorded` | venv_pack/core.py:604-611 | a link to `<orig>/bin/python` + a suffix holding no copy of the rule's original is archived by `Packer.add` as a link to the new versioned interpreter + the same suffix |
| `Relocation.Packer.Open` | venv_pack/core.py:594-601 | `Packer.__init__` fails as `check_python_prefix` does; otherwise an empty archive with the checked prefix and rules |
| `Relocation.Packer.AddFile` | venv_pack/core.py:603-620 | exactly one archive call per file (`AddCall`), unless the script to rewrite cannot be read |
| `Relocation.Packer.AddScripts` | venv_pack/core.py:627-632 | every shipped script is added to `bin/<name>`, in listing order |
| `Relocation.OriginCall` | venv_pack/core.py:634-655 | fails iff a `venv` with a new prefix has no readable `pyvenv.cfg`, with its `OSError`; the file is copied as is iff there is no new prefix; it is read from `<prefix>/pyvenv.cfg` or `<prefix>/<lib>/orig-prefix.txt` and goes to `pyvenv.cfg` or `<lib>/orig-prefix.txt`; with a new prefix, a `venv`'s `pyvenv.cfg` is its text with every copy of the old prefix replaced by the new one, encoded, and a `virtualenv`'s content is the new prefix |
| `Relocation.Packer.Finish` | venv_pack/core.py:622-655 | the scripts, then the `pyvenv.cfg` (rewritten for a new prefix) or `orig-prefix.txt` (replaced by the new prefix) |
| `Relocation.Packer.PackAll` | venv_pack/core.py:266-271 | every file in order, then `finish`; the first failure stops it with the calls so far |
| `Relocation.AddAllOnePerFile` | venv_pack/core.py:603-620 | a completed loop records one call per file, in order, at the file's source and target |
| `Relocation.AddAllFails` | venv_pack/core.py:269-270 | the loop fails iff some file's call fails, with the first such error and one call per earlier file |
| `Relocation.AddAllStops` | venv_pack/core.py:269-270 | once a file fails, the rest is skipped |
| `Relocation.AddDispatch` | venv_pack/core.py:603-620 | re-link iff rules exist and one matches the link, and then exactly `AddLink(source, link.replace(orig, new), target)` for the first matching rule; shebang rewrite iff a readable regular file under `bin`, with the rewritten bytes; read error iff such a file is unreadable |
| `Formats.TarMode` | venv_pack/formats.py:9-13 | defined iff the format is one of the five tar formats; a miss is a `KeyError` |
| `Formats.ArchiveBackend` | venv_pack/formats.py:16-20 | a zip backend iff the format is `zip`; otherwise tar iff the mode table has it |
| `Formats.TarOpenCompressLevel` | venv_pack/formats.py:29-36 | `compresslevel` is passed iff the mode is not `w` |
| `Formats.TarModes` | venv_pack/formats.py:9-37 | `w:gz`, `w:bz2` and `w` for their formats; only plain `tar` opens without a level |
| `Formats.TarArchive.constructor` | venv_pack/formats.py:24-27 | the archive keeps its mode and level and starts with no entries |
| `Formats.TarArchive.Add` | venv_pack/formats.py:42-43 | one entry copying the source to the target, non-recursively |
| `Formats.TarArchive.AddBytes` | venv_pack/formats.py:45-48 | one entry at the target whose size is the byte count and whose content is the bytes |
| `Formats.TarArchive.AddLink` | venv_pack/formats.py:50-53 | one entry whose link name is the given link |
| `Formats.ExternalAttrLayout` | venv_pack/formats.py:83-85 | the high half of the attributes is the mode's low half; the low half is `0x10` for a directory, else 0 |
| `Formats.LStripSlashes` | venv_pack/formats.py:131-132 | all leading `/` are dropped and nothing else |
| `Formats.ZipInfoOf` | venv_pack/formats.py:122-143 | fails only with the file's `OSError` or an `IndexError`; a header name is non-empty with no leading `/` |
| `Formats.ZipInfoFails` | venv_pack/formats.py:122-132 | fails iff the file cannot be stat'ed or the arcname is all separators |
| `Formats.ZipInfoName` | venv_pack/formats.py:130-134 | the name has no leading `/` and is the stripped arcname, plus `/` exactly for a directory |
| `Formats.ZipInfoAttributes` | venv_pack/formats.py:136-141 | the attributes carry the mode and the directory flag; a directory has size 0, a file its size |
| `Formats.ZipInfoFromFile` | venv_pack/formats.py:122-143 | the stripping loop computes `ZipInfoOf` |
| `Formats.ZipArchive.constructor` | venv_pack/formats.py:57-60 | the archive keeps its `zip_symlinks` and `zip_64` flags and starts with no entries |
| `Formats.ZipArchive.Write` | venv_pack/formats.py:103-111 | one entry with the header and content of the path, or nothing and the error |
| `Formats.ZipArchive.WriteAll` | venv_pack/formats.py:100-107 | the writes in order, stopping at the first failure |
| `Formats.ZipArchive.WriteLink` | venv_pack/formats.py:79-86 | one entry at the target holding the link text, with the link's mode and the directory flag |
| `Formats.ZipArchive.Add` | venv_pack/formats.py:88-111 | a link is kept when links are enabled; a link to a directory becomes its walk's writes; anything else is written once |
| `Formats.ZipAddOf` | venv_pack/formats.py:88-111 | a linked directory without link support writes exactly the walk's writes (`WriteAllOf` of `WalkPairs`); a kept link's entry is named after the target and holds the link text; anything else writes at most one entry, exactly one on success, and that entry is the source's own `WriteEntry` |
| `Formats.ZipArchive.AddLink` | venv_pack/formats.py:71-86 | without link support it is exactly `add`; with it, the link's own entry |
| `Formats.ZipArchive.AddBytes` | venv_pack/formats.py:113-115 | the header of the source named after the target, with the given bytes as content and size |
| `Formats.CollectStepPairs` | venv_pack/formats.py:101-107 | a step writes its files under `target/<rel>`, or the empty directory itself |
| `Formats.CollectWalkPairs` | venv_pack/formats.py:100-107 | the walk writes its steps in order |
| `Formats.WriteAllStops` | venv_pack/formats.py:100-107 | once a write fails, the rest are skipped |
| `Formats.WriteAllOnePerPair` | venv_pack/formats.py:100-107 | a completed run writes one entry per pair, in order, each the pair's own entry |
| `Formats.EachMembers` | venv_pack/formats.py:102-104 | the mapped list holds exactly the images of the elements |
| `Formats.FilePairsMembers` | venv_pack/formats.py:102-104 | a step's file writes are each file read under the root and written under the target root |
| `Formats.FlattenMembers` | venv_pack/formats.py:100-107 | an element of a flattened list comes from one of its parts |
| `Formats.WalkPairsMembers` | venv_pack/formats.py:100-107 | a linked directory's writes are exactly those of its steps |
| `Formats.StepPairsMembers` | venv_pack/formats.py:101-107 | a step writes its empty directory itself, or exactly its files |
| `Formats.ZipLinkKept` | venv_pack/formats.py:95-97 | with links kept, adding a link writes exactly its link entry and cannot fail |
| `Formats.LinkEntryShape` | venv_pack/formats.py:81-86 | the link entry is named after the target, holds the link text and its length, with `create_system` 3 and the link's attributes |
| `Fs.ReadBytes` | venv_pack/core.py:615-616 | reading succeeds iff the path resolves to a regular file |
| `Paths.Join` | venv_pack/core.py:524 | a relative second part keeps the first as a prefix; the result ends with the second part |
| `Paths.Basename` | venv_pack/core.py:111-113 | holds no `/` and ends the path |
| `Paths.Dirname` | venv_pack/core.py:466 | starts the path |
| `Paths.RStripRemovesSpaces` | venv_pack/core.py:471 | `rstrip` removes white space only |
| `Paths.Encode` | venv_pack/core.py:541 | UTF-8 never shortens a string |

## Left out

- I/O in `Env.pack` is not modelled: the temporary file, `shutil.move`, the cleanup on failure and the verbose printing. Only the existing-output check is kept, as `PackTarget`.
- The `LargeZipFile` to `VenvPackException` translation and ZIP64 limit detection belong to `zipfile` internals. `zip64` is kept as a field of the zip backend and is not otherwise used.
- Compression and the on-disk archive layout are left out. So are the `tarfile.gettarinfo` header fields other than name, size, content and link name, and the `date_time` of zip entries. A tar `add` records the source and target only.
- The `__enter__`/`__exit__` opening and closing of the archives is left out. `TarOpenCompressLevel` states the one decision `TarArchive.__enter__` makes.
- `fnmatch`, `os.path.normpath`, `glob.glob`, `os.listdir`, `os.walk`, `os.lstat`/`os.stat` and `os.readlink` are inputs, not definitions.
  - Matching and normalisation are function parameters.
  - Globs, listings and walks are given sequences.
  - Stat and link results come from a map. The walk order is whatever those sequences say.
- The `on_win` branches (`Scripts`, `Lib`/`Include`, the `nt` scripts) are left out. Only the POSIX layout is modelled.
- Text decoding is left out: the model does not capture UTF-8 decode errors, universal newlines, or the case folding of `lower()` beyond ASCII. `Encode` is UTF-8 encoding and does not reject surrogates.
- Python's `%r` escaping is simplified to quoting. `Repr` does not escape quotes or control characters.
- `Relocation.OriginCall`: the `virtualenv` target `os.path.relpath(<prefix>/<py_lib>/orig-prefix.txt, prefix)` is modelled as `<py_lib>/orig-prefix.txt`, which is what `relpath` gives for the relative `py_lib` that detection produces.
- `Relocation.Packer.AddScripts`: the calls for the shipped scripts are gathered and appended in one step. The final archive is the same as with one append per script.
- `Relocation.Packer.Finish`: `files` holds the text that reading `pyvenv.cfg` returns. A missing file becomes an `OSError`.
- `Env.__repr__`, `__len__`, `__iter__` and the `prefix`/`kind`/`orig_prefix` properties are plain field reads of the datatypes and have no members of their own.
- `rewrite_shebang` takes a `target` argument it never uses, so `RewriteShebang` has no such parameter.
- The progress bar and the command-line interface are not part of this model.

=== FILE: common.dfy ===
/** Values shared by every part of the model: bytes, paths, the failure
    wrappers that stand for Python exceptions, and the sequence operations
    (prefix and suffix tests, `replace`, `count`) with Python's semantics. */
module Common {

  /** One octet of a `bytes` object. */
  newtype byte = x: int | 0 <= x < 256

  type Bytes = seq<byte>

  /** POSIX paths and Python `str` values are sequences of code points. */
  type Path = string

  datatype Option<+T> = None | Some(value: T)

  /** The exception classes the core can raise. Only `VenvPackError`
      (`VenvPackException`) is caught by environment detection; the others
      escape it. */
  datatype Error =
    | VenvPackError(msg: string)   // VenvPackException: a user-facing error
    | ValueError(msg: string)      // unpacking a `split` of the wrong length
    | OSError(path: Path)          // a path that cannot be stat'ed, opened or read
    | IndexError                   // indexing an empty string
    | KeyError(key: string)        // a dictionary lookup that misses

  datatype Result<+T> = Ok(value: T) | Err(error: Error)

  /** The outcome of a call that returns nothing but may raise. */
  datatype Outcome = Pass | Fail(error: Error)

  /** `s.startswith(p)` */
  predicate StartsWith<T(==)>(s: seq<T>, p: seq<T>) {
    |p| <= |s| && s[..|p|] == p
  }

  /** `s.endswith(p)` */
  predicate EndsWith<T(==)>(s: seq<T>, p: seq<T>) {
    |p| <= |s| && s[|s| - |p|..] == p
  }

  /** `p` occurs in `s` at position `i`. */
  predicate OccursAt<T(==)>(s: seq<T>, p: seq<T>, i: int) {
    0 <= i && i + |p| <= |s| && s[i..i + |p|] == p
  }

  /** Python's `s.replace(pat, rep)`: every non-overlapping occurrence of
      `pat`, scanned left to right, is replaced by `rep`; an empty `pat` inserts `rep`
      before every element and at the end. */
  function ReplaceAll<T(==)>(s: seq<T>, pat: seq<T>, rep: seq<T>): (r: seq<T>)
    ensures StartsWith(s, pat) ==> StartsWith(r, rep)
    decreases |s|
  {
    if |pat| == 0 then
      if s == [] then rep else rep + [s[0]] + ReplaceAll(s[1..], pat, rep)
    else if |s| < |pat| then s
    else if s[..|pat|] == pat then rep + ReplaceAll(s[|pat|..], pat, rep)
    else [s[0]] + ReplaceAll(s[1..], pat, rep)
  }

  /** Python's `s.count(sub)`: the number of non-overlapping occurrences,
      scanned left to right; an empty `sub` is counted `|s| + 1` times. */
  function Count<T(==)>(s: seq<T>, sub: seq<T>): nat
    decreases |s|
  {
    if |sub| == 0 then |s| + 1
    else if |s| < |sub| then 0
    else if s[..|sub|] == sub then 1 + Count(s[|sub|..], sub)
    else Count(s[1..], sub)
  }

  /** A string without any occurrence of `pat` is left alone by `replace`. */
  lemma {:induction false} ReplaceAbsent<T>(s: seq<T>, pat: seq<T>, rep: seq<T>)
    requires |pat| > 0
    requires forall i :: !OccursAt(s, pat, i)
    ensures ReplaceAll(s, pat, rep) == s
    decreases |s|
  {
    if |s| >= |pat| {
      assert !OccursAt(s, pat, 0);
      forall i ensures !OccursAt(s[1..], pat, i) {
        if OccursAt(s[1..], pat, i) {
          assert s[1..][i..i + |pat|] == s[i + 1..i + 1 + |pat|];
          assert OccursAt(s, pat, i + 1);
        }
      }
      ReplaceAbsent(s[1..], pat, rep);
    }
  }

  /** An occurrence at any position is counted at least once. */
  lemma {:induction false} CountPositive<T>(s: seq<T>, sub: seq<T>, a: int)
    requires |sub| > 0 && OccursAt(s, sub, a)
    ensures Count(s, sub) >= 1
    decreases |s|
  {
    if s[..|sub|] != sub {
      assert s[1..][a - 1..a - 1 + |sub|] == s[a..a + |sub|];
      CountPositive(s[1..], sub, a - 1);
    }
  }

  /** Two occurrences that do not overlap are counted as two: the greedy
      left-to-right count never misses a later, disjoint occurrence. */
  lemma {:induction false} CountTwo<T>(s: seq<T>, sub: seq<T>, a: int, b: int)
    requires |sub| > 0 && OccursAt(s, sub, a) && OccursAt(s, sub, b)
    requires a + |sub| <= b
    ensures Count(s, sub) >= 2
    decreases |s|
  {
    if s[..|sub|] == sub {
      var rest := s[|sub|..];
      assert rest[b - |sub|..b] == s[b..b + |sub|];
      CountPositive(rest, sub, b - |sub|);
    } else {
      assert s[1..][a - 1..a - 1 + |sub|] == s[a..a + |sub|];
      assert s[1..][b - 1..b - 1 + |sub|] == s[b..b + |sub|];
      CountTwo(s[1..], sub, a - 1, b - 1);
    }
  }

  /** `replace` of a leading copy of `pat` that occurs nowhere else
      replaces just that copy. */
  lemma ReplaceLeading<T>(s: seq<T>, pat: seq<T>, rep: seq<T>)
    requires |pat| > 0 && StartsWith(s, pat)
    requires forall i :: !OccursAt(s[|pat|..], pat, i)
    ensures ReplaceAll(s, pat, rep) == rep + s[|pat|..]
  {
    ReplaceAbsent(s[|pat|..], pat, rep);
  }

  /** A prefix of a prefix is a prefix. */
  lemma StartsWithTrans<T>(s: seq<T>, t: seq<T>, u: seq<T>)
    requires StartsWith(s, t) && StartsWith(t, u)
    ensures StartsWith(s, u)
  {
    assert s[..|u|] == s[..|t|][..|u|];
  }
}

=== FILE: discovery.dfy ===
/** Environment detection of venv_pack/core.py: `check_prefix` resolves the
    candidate prefix and tries the `venv` check, then the `virtualenv`
    check, keeping the first that succeeds; `check_venv` reads the `home`
    key of `pyvenv.cfg`; `check_virtualenv` reads
    `<py_lib>/orig-prefix.txt`; `find_python_lib_include` wants exactly
    one `lib/python*` entry. The disk is a value: the text of the files
    that are read, the directories that exist, and what `glob.glob`
    returns for each pattern. */
module Discovery {
  import opened Common
  import opened Paths
  import opened Environment

  /** The part of the disk that detection reads. */
  datatype Disk = Disk(files: map<Path, string>, dirs: set<Path>, globs: map<string, seq<Path>>)

  /** The process context: working directory, `$VIRTUAL_ENV`, and
      `os.path.normpath`. */
  datatype Host = Host(cwd: Path, virtualEnv: Option<Path>, normpath: Path -> Path)

  /** `os.path.exists` */
  predicate Exists(disk: Disk, p: Path) {
    p in disk.files || p in disk.dirs
  }

  /** `glob.glob(pattern)` */
  function Glob(disk: Disk, pattern: string): seq<Path> {
    if pattern in disk.globs then disk.globs[pattern] else []
  }

  /** `os.path.abspath` */
  function AbsPath(host: Host, p: Path): Path {
    host.normpath(if IsAbs(p) then p else Join(host.cwd, p))
  }

  function NotValid(prefix: Path): Error {
    VenvPackError(Repr(prefix) + " is not a valid virtual environment")
  }

  // ---------------------------------------------------------------------
  // Text files read line by line

  /** The length of the first line of `text`, its `\n` included. */
  function FirstLineLength(text: string): (k: nat)
    requires text != []
    ensures 1 <= k <= |text|
  {
    if text[0] == '\n' || |text| == 1 then 1 else 1 + FirstLineLength(text[1..])
  }

  /** The first line ends at the first `\n`, or at the end of the text. */
  lemma {:induction false} FirstLineShape(text: string)
    requires text != []
    ensures var k := FirstLineLength(text);
      (forall i :: 0 <= i < k - 1 ==> text[i] != '\n') && (k < |text| ==> text[k - 1] == '\n')
  {
    if text[0] != '\n' && |text| > 1 {
      FirstLineShape(text[1..]);
    }
  }

  /** The lines `for line in fil` yields: each keeps its `\n`; only the last
      one may lack it. */
  function Lines(text: string): seq<string>
    decreases |text|
  {
    if text == [] then [] else
      var k := FirstLineLength(text);
      [text[..k]] + Lines(text[k..])
  }

  function Concat(lines: seq<string>): string {
    if lines == [] then [] else lines[0] + Concat(lines[1..])
  }

  /** Splitting into lines loses nothing: the lines put back together are
      the text. */
  lemma {:induction false} LinesRoundTrip(text: string)
    ensures Concat(Lines(text)) == text
    decreases |text|
  {
    if text != [] {
      var k := FirstLineLength(text);
      var ls := Lines(text);
      LinesRoundTrip(text[k..]);
      assert ls == [text[..k]] + Lines(text[k..]);
      assert ls[0] == text[..k];
      assert ls[1..] == Lines(text[k..]);
      assert Concat(ls) == ls[0] + Concat(ls[1..]);
      assert text[..k] + text[k..] == text;
    }
  }

  /** No line is empty, every line but the last ends with a `\n`, and no
      line has a `\n` anywhere else. */
  lemma {:induction false} LinesShape(text: string)
    ensures forall j :: 0 <= j < |Lines(text)| ==> Lines(text)[j] != []
    ensures forall j :: 0 <= j < |Lines(text)| - 1 ==> Lines(text)[j][|Lines(text)[j]| - 1] == '\n'
    ensures forall j, i :: 0 <= j < |Lines(text)| && 0 <= i < |Lines(text)[j]| - 1 ==> Lines(text)[j][i] != '\n'
    decreases |text|
  {
    if text != [] {
      var k := FirstLineLength(text);
      FirstLineShape(text);
      LinesShape(text[k..]);
      var ls := Lines(text);
      var rest := Lines(text[k..]);
      assert ls == [text[..k]] + rest;
      assert forall j :: 1 <= j < |ls| ==> ls[j] == rest[j - 1];
      if |ls| > 1 {
        assert rest != [];
        assert k < |text|;
      }
    }
  }

  // ---------------------------------------------------------------------
  // check_venv

  /** `key, val = line.split('=')` succeeds: exactly one `=`. */
  predicate Splittable(line: string) {
    Count(line, "=") == 1
  }

  /** Index of the first `=` of `line` (|line| when there is none). */
  function EqualsAt(line: string): (i: nat)
    ensures i <= |line|
    ensures i < |line| ==> line[i] == '='
    ensures forall k :: 0 <= k < i ==> line[k] != '='
  {
    if line == [] then 0 else if line[0] == '=' then 0 else 1 + EqualsAt(line[1..])
  }

  function KeyOf(line: string): string {
    line[..EqualsAt(line)]
  }

  function ValueOf(line: string): string {
    if EqualsAt(line) < |line| then line[EqualsAt(line) + 1..] else []
  }

  /** A `home = ...` line, in any case and with any surrounding blanks. */
  predicate IsHomeLine(line: string) {
    Splittable(line) && LowerAscii(Strip(KeyOf(line))) == "home"
  }

  /** How the loop of `check_venv` treats one line of `pyvenv.cfg`. */
  datatype LineKind = HomeLine(value: string) | OtherLine | Malformed(error: Error)

  /** A line without exactly one `=` makes `key, val = line.split('=')`
      raise `ValueError`; a `home` line ends the loop with its value;
      any other line is skipped. */
  function Classify(line: string): (k: LineKind)
    ensures k.Malformed? <==> !Splittable(line)
    ensures k.HomeLine? <==> IsHomeLine(line)
    ensures k.Malformed? ==> k.error.ValueError?
    ensures k.HomeLine? ==> k.value == ValueOf(line)
  {
    if !Splittable(line) then Malformed(UnpackError(line))
    else if IsHomeLine(line) then HomeLine(ValueOf(line))
    else OtherLine
  }

  /** What unpacking `line.split('=')` into two names raises. */
  function UnpackError(line: string): (e: Error)
    ensures e.ValueError?
  {
    if Count(line, "=") == 0 then ValueError("not enough values to unpack (expected 2, got 1)")
    else ValueError("too many values to unpack (expected 2)")
  }

  /** Every line of a file, classified. */
  function ClassifyAll(lines: seq<string>): (r: seq<LineKind>)
    ensures |r| == |lines|
    ensures forall i :: 0 <= i < |lines| ==> r[i] == Classify(lines[i])
  {
    if lines == [] then [] else [Classify(lines[0])] + ClassifyAll(lines[1..])
  }

  /** The loop of `check_venv` over the classified lines of `pyvenv.cfg`:
      the value of the first `home` line; a malformed line met before it
      raises `ValueError`, which is not a `VenvPackException`; no `home`
      line at all is a `VenvPackException`. */
  function HomeValue(prefix: Path, kinds: seq<LineKind>): (r: Result<string>)
    ensures r.Ok? ==> HomeLine(r.value) in kinds
    ensures r.Err? ==> r.error == NotValid(prefix) || Malformed(r.error) in kinds
  {
    if kinds == [] then Err(NotValid(prefix))
    else match kinds[0]
      case HomeLine(v) => Ok(v)
      case Malformed(e) => Err(e)
      case OtherLine => HomeValue(prefix, kinds[1..])
  }

  /** The first line that is not an ordinary `key = value` line decides
      the outcome: a `home` line gives its value, a malformed line gives
      its `ValueError`. */
  lemma {:induction false} HomeValueFirstLine(prefix: Path, kinds: seq<LineKind>, i: nat)
    requires i < |kinds| && !kinds[i].OtherLine?
    requires forall j :: 0 <= j < i ==> kinds[j].OtherLine?
    ensures kinds[i].HomeLine? ==> HomeValue(prefix, kinds) == Ok(kinds[i].value)
    ensures kinds[i].Malformed? ==> HomeValue(prefix, kinds) == Err(kinds[i].error)
  {
    if i > 0 {
      assert kinds[0].OtherLine?;
      HomeValueFirstLine(prefix, kinds[1..], i - 1);
    }
  }

  /** With no `home` line and no malformed line, the prefix is reported as
      not a valid environment. */
  lemma {:induction false} HomeValueNoHomeLine(prefix: Path, kinds: seq<LineKind>)
    requires forall j :: 0 <= j < |kinds| ==> kinds[j].OtherLine?
    ensures HomeValue(prefix, kinds) == Err(NotValid(prefix))
  {
    if kinds != [] {
      assert kinds[0].OtherLine?;
      HomeValueNoHomeLine(prefix, kinds[1..]);
    }
  }

  /** `check_venv`'s verdict on a `pyvenv.cfg` text. */
  function CfgHome(prefix: Path, text: string): (r: Result<string>)
    ensures r.Err? ==> r.error == NotValid(prefix) || r.error.ValueError?
    ensures r.Ok? ==> exists line :: line in Lines(text) && IsHomeLine(line)
  {
    var kinds := ClassifyAll(Lines(text));
    var r := HomeValue(prefix, kinds);
    assert r.Err? && r.error != NotValid(prefix) ==> r.error.ValueError? by {
      if r.Err? && r.error != NotValid(prefix) {
        var i :| 0 <= i < |kinds| && kinds[i] == Malformed(r.error);
      }
    }
    assert r.Ok? ==> exists line :: line in Lines(text) && IsHomeLine(line) by {
      if r.Ok? {
        var i :| 0 <= i < |kinds| && kinds[i] == HomeLine(r.value);
        assert Lines(text)[i] in Lines(text);
      }
    }
    r
  }

  // ---------------------------------------------------------------------
  // find_python_lib_include, check_venv, check_virtualenv

  /** `find_python_lib_include` on POSIX, given what
      `glob(join(prefix, 'lib', 'python*'))` returned. */
  function FindPythonLibInclude(prefix: Path, pythons: seq<Path>): (r: Result<(Path, Path)>)
    ensures r.Ok? <==> |pythons| == 1
    ensures r.Ok? ==> r.value == ("lib/" + Basename(pythons[0]), "include/" + Basename(pythons[0]))
    ensures r.Err? ==> r.error.VenvPackError?
  {
    if |pythons| > 1 then
      Err(VenvPackError("Unexpected failure, multiple versions of python found in prefix " + Repr(prefix)))
    else if pythons == [] then
      Err(VenvPackError("Unexpected failure, no version of python found in prefix " + Repr(prefix)))
    else
      var version := Basename(pythons[0]);
      assert !IsAbs(version) by { if version != [] { assert version[0] in version; } }
      assert !EndsWith("lib", "/") && !EndsWith("include", "/");
      assert "lib" + "/" + version == "lib/" + version;
      assert "include" + "/" + version == "include/" + version;
      Ok((Join("lib", version), Join("include", version)))
  }

  function PythonGlob(prefix: Path): string {
    Join(Join(prefix, "lib"), "python*")
  }

  /** The library directories of a context come from the one entry the
      `lib/python*` glob found. */
  predicate LibLayout(ctx: Context, pythons: seq<Path>) {
    |pythons| == 1
    && ctx.pyLib == "lib/" + Basename(pythons[0])
    && ctx.pyInclude == "include/" + Basename(pythons[0])
  }

  /** `check_venv` */
  function CheckVenv(prefix: Path, disk: Disk): (r: Result<Context>)
    ensures r.Ok? ==> r.value.kind == Venv && r.value.prefix == prefix
    ensures r.Ok? <==> (Join(prefix, "pyvenv.cfg") in disk.files
                        && CfgHome(prefix, disk.files[Join(prefix, "pyvenv.cfg")]).Ok?
                        && |Glob(disk, PythonGlob(prefix))| == 1)
    ensures r.Ok? ==> r.value.origPrefix == Dirname(Strip(CfgHome(prefix, disk.files[Join(prefix, "pyvenv.cfg")]).value))
    ensures r.Ok? ==> LibLayout(r.value, Glob(disk, PythonGlob(prefix)))
    ensures !Exists(disk, Join(prefix, "pyvenv.cfg")) ==> r == Err(NotValid(prefix))
    ensures Exists(disk, Join(prefix, "pyvenv.cfg")) && Join(prefix, "pyvenv.cfg") !in disk.files ==>
      r == Err(OSError(Join(prefix, "pyvenv.cfg")))
    ensures Join(prefix, "pyvenv.cfg") in disk.files && CfgHome(prefix, disk.files[Join(prefix, "pyvenv.cfg")]).Err? ==>
      r == Err(CfgHome(prefix, disk.files[Join(prefix, "pyvenv.cfg")]).error)
    ensures (Join(prefix, "pyvenv.cfg") in disk.files && CfgHome(prefix, disk.files[Join(prefix, "pyvenv.cfg")]).Ok?
             && |Glob(disk, PythonGlob(prefix))| != 1) ==>
      r == Err(FindPythonLibInclude(prefix, Glob(disk, PythonGlob(prefix))).error) && r.error.VenvPackError?
  {
    var cfg := Join(prefix, "pyvenv.cfg");
    if !Exists(disk, cfg) then Err(NotValid(prefix))
    else if cfg !in disk.files then Err(OSError(cfg))
    else match CfgHome(prefix, disk.files[cfg])
      case Err(e) => Err(e)
      case Ok(home) =>
        var origPrefix := Dirname(Strip(home));
        match FindPythonLibInclude(prefix, Glob(disk, PythonGlob(prefix)))
        case Err(e) => Err(e)
        case Ok((lib, incl)) => Ok(Context(Venv, prefix, origPrefix, lib, incl))
  }

  /** `check_virtualenv` */
  function CheckVirtualenv(prefix: Path, disk: Disk): (r: Result<Context>)
    ensures r.Ok? ==> r.value.kind == Virtualenv && r.value.prefix == prefix
    ensures r.Ok? <==> (|Glob(disk, PythonGlob(prefix))| == 1
      && Join(Join(prefix, FindPythonLibInclude(prefix, Glob(disk, PythonGlob(prefix))).value.0), "orig-prefix.txt") in disk.files)
    ensures r.Ok? ==> (Join(Join(prefix, r.value.pyLib), "orig-prefix.txt") in disk.files
      && r.value.origPrefix == Strip(disk.files[Join(Join(prefix, r.value.pyLib), "orig-prefix.txt")]))
    ensures r.Ok? ==> LibLayout(r.value, Glob(disk, PythonGlob(prefix)))
    ensures |Glob(disk, PythonGlob(prefix))| != 1 ==>
      r == Err(FindPythonLibInclude(prefix, Glob(disk, PythonGlob(prefix))).error) && r.error.VenvPackError?
    ensures |Glob(disk, PythonGlob(prefix))| == 1 ==>
      var txt := Join(Join(prefix, FindPythonLibInclude(prefix, Glob(disk, PythonGlob(prefix))).value.0), "orig-prefix.txt");
      (!Exists(disk, txt) ==> r == Err(NotValid(prefix)))
      && (Exists(disk, txt) && txt !in disk.files ==> r == Err(OSError(txt)))
  {
    match FindPythonLibInclude(prefix, Glob(disk, PythonGlob(prefix)))
    case Err(e) => Err(e)
    case Ok((lib, incl)) =>
      var txt := Join(Join(prefix, lib), "orig-prefix.txt");
      if !Exists(disk, txt) then Err(NotValid(prefix))
      else if txt !in disk.files then Err(OSError(txt))
      else Ok(Context(Virtualenv, prefix, Strip(disk.files[txt]), lib, incl))
  }

  /** A check outcome that ends the search: a success, or an exception
      other than `VenvPackException`. */
  predicate Decisive(r: Result<Context>) {
    !(r.Err? && r.error.VenvPackError?)
  }

  /** The `for check in (...): try: return check(prefix) except
      VenvPackException: pass` loop, over the outcomes of the checks in
      order (the checks only read, so evaluating them up front changes
      nothing). */
  function TryChecks(prefix: Path, outcomes: seq<Result<Context>>): (r: Result<Context>)
    ensures r == Err(NotValid(prefix)) || r in outcomes
  {
    if outcomes == [] then Err(NotValid(prefix))
    else if Decisive(outcomes[0]) then outcomes[0]
    else TryChecks(prefix, outcomes[1..])
  }

  /** The outcomes of the layout checks of `check_prefix`, `venv` first. */
  function LayoutOutcomes(prefix: Path, disk: Disk): seq<Result<Context>> {
    [CheckVenv(prefix, disk), CheckVirtualenv(prefix, disk)]
  }

  /** `check_prefix` */
  function CheckPrefix(prefix: Option<Path>, host: Host, disk: Disk): (r: Result<Context>)
    ensures prefix.None? && host.virtualEnv.None? ==> r.Err? && r.error.VenvPackError?
    ensures r.Ok? ==> Exists(disk, r.value.prefix)
    ensures r.Ok? ==> LibLayout(r.value, Glob(disk, PythonGlob(r.value.prefix)))
    ensures var candidate := if prefix.Some? then prefix else host.virtualEnv;
      candidate.Some? && !Exists(disk, AbsPath(host, candidate.value)) ==>
      r == Err(VenvPackError("Environment path " + Repr(AbsPath(host, candidate.value)) + " doesn't exist"))
  {
    var candidate := if prefix.Some? then prefix else host.virtualEnv;
    if candidate.None? then Err(VenvPackError("Current environment is not a virtual environment"))
    else
      var abs := AbsPath(host, candidate.value);
      if !Exists(disk, abs) then Err(VenvPackError("Environment path " + Repr(abs) + " doesn't exist"))
      else
        var outcomes := LayoutOutcomes(abs, disk);
        var r := TryChecks(abs, outcomes);
        assert r.Ok? ==> r == CheckVenv(abs, disk) || r == CheckVirtualenv(abs, disk);
        r
  }

  /** The first decisive check wins: later checks are not consulted. */
  lemma {:induction false} FirstDecisiveCheckWins(prefix: Path, outcomes: seq<Result<Context>>, i: nat)
    requires i < |outcomes| && Decisive(outcomes[i])
    requires forall j :: 0 <= j < i ==> !Decisive(outcomes[j])
    ensures TryChecks(prefix, outcomes) == outcomes[i]
  {
    if i > 0 {
      assert !Decisive(outcomes[0]);
      FirstDecisiveCheckWins(prefix, outcomes[1..], i - 1);
    }
  }

  /** When every check raises `VenvPackException`, the prefix is reported
      as not a valid environment. */
  lemma {:induction false} NoCheckSucceeds(prefix: Path, outcomes: seq<Result<Context>>)
    requires forall j :: 0 <= j < |outcomes| ==> !Decisive(outcomes[j])
    ensures TryChecks(prefix, outcomes) == Err(NotValid(prefix))
  {
    if outcomes != [] {
      assert !Decisive(outcomes[0]);
      NoCheckSucceeds(prefix, outcomes[1..]);
    }
  }

  /** The search over two checks, spelled out. */
  lemma TwoChecks(prefix: Path, first: Result<Context>, second: Result<Context>)
    ensures TryChecks(prefix, [first, second]) ==
      if Decisive(first) then first else if Decisive(second) then second else Err(NotValid(prefix))
  {
    if !Decisive(first) {
      assert [first, second][1..] == [second];
      assert [second][1..] == [];
    }
  }

  /** `check_prefix` on an existing path: a valid `venv` layout is always
      reported as `venv`, even if it also has a `virtualenv` marker; a
      `ValueError` from a malformed `pyvenv.cfg` escapes instead of falling
      back; the `virtualenv` layout is consulted only when the `venv` check
      raised `VenvPackException`. */
  lemma CheckPrefixOrder(p: Path, host: Host, disk: Disk)
    requires Exists(disk, AbsPath(host, p))
    ensures var abs := AbsPath(host, p);
      var venv := CheckVenv(abs, disk);
      var virt := CheckVirtualenv(abs, disk);
      CheckPrefix(Some(p), host, disk) ==
        if Decisive(venv) then venv else if Decisive(virt) then virt else Err(NotValid(abs))
  {
    var abs := AbsPath(host, p);
    TwoChecks(abs, CheckVenv(abs, disk), CheckVirtualenv(abs, disk));
  }

  /** A `virtualenv` has no `pyvenv.cfg`, so the `venv` check raises
      `VenvPackException` and the environment is detected as a
      `virtualenv`. */
  lemma NoCfgFallsBack(p: Path, host: Host, disk: Disk)
    requires Exists(disk, AbsPath(host, p))
    requires !Exists(disk, Join(AbsPath(host, p), "pyvenv.cfg"))
    requires CheckVirtualenv(AbsPath(host, p), disk).Ok?
    ensures CheckPrefix(Some(p), host, disk) == CheckVirtualenv(AbsPath(host, p), disk)
    ensures CheckPrefix(Some(p), host, disk).value.kind == Virtualenv
  {
    CheckPrefixOrder(p, host, disk);
  }

  /** A `ValueError` from a malformed `pyvenv.cfg` line is not a
      `VenvPackException`, so it escapes `check_prefix` instead of falling
      back to the `virtualenv` check. */
  lemma MalformedCfgEscapes(p: Path, host: Host, disk: Disk)
    requires var cfg := Join(AbsPath(host, p), "pyvenv.cfg");
      Exists(disk, AbsPath(host, p)) && cfg in disk.files
      && CfgHome(AbsPath(host, p), disk.files[cfg]).Err?
      && CfgHome(AbsPath(host, p), disk.files[cfg]).error.ValueError?
    ensures CheckPrefix(Some(p), host, disk)
      == Err(CfgHome(AbsPath(host, p), disk.files[Join(AbsPath(host, p), "pyvenv.cfg")]).error)
  {
    CheckPrefixOrder(p, host, disk);
  }

  /** An existing directory with neither marker (no `pyvenv.cfg`, and no
      single `lib/python*` with an `orig-prefix.txt`) is not a valid
      environment. */
  lemma NotAnEnvironment(p: Path, host: Host, disk: Disk)
    requires var abs := AbsPath(host, p);
      Exists(disk, abs) && !Exists(disk, Join(abs, "pyvenv.cfg"))
      && (|Glob(disk, PythonGlob(abs))| != 1
          || !Exists(disk, Join(Join(abs, FindPythonLibInclude(abs, Glob(disk, PythonGlob(abs))).value.0), "orig-prefix.txt")))
    ensures CheckPrefix(Some(p), host, disk) == Err(NotValid(AbsPath(host, p)))
  {
    CheckPrefixOrder(p, host, disk);
  }

  /** Every detected context has the POSIX library layout
      `lib/<version>` and `include/<version>` for one version name. */
  lemma ContextLayout(prefix: Option<Path>, host: Host, disk: Disk)
    ensures var r := CheckPrefix(prefix, host, disk);
      r.Ok? ==> exists v :: '/' !in v && r.value.pyLib == "lib/" + v && r.value.pyInclude == "include/" + v
  {
    var r := CheckPrefix(prefix, host, disk);
    if r.Ok? {
      var v := Basename(Glob(disk, PythonGlob(r.value.prefix))[0]);
      assert r.value.pyLib == "lib/" + v && r.value.pyInclude == "include/" + v;
    }
  }
}

=== FILE: editable.dfy ===
/** `check_no_editable_packages` of venv_pack/core.py: every non-comment
    line of every `*.pth` file in the environment's `site-packages` names a
    location; a location that, once joined to the `.pth` file's directory
    and normalised, does not start with the environment prefix marks an
    editable install, and packing is refused with the sorted list of such
    lines. */
module Editable {
  import opened Common
  import opened Paths
  import opened Environment
  import opened Discovery

  // ---------------------------------------------------------------------
  // Python's ordering of `str` values, used by `sorted`

  /** `a < b` on Python strings: the first differing code point decides,
      and a proper prefix comes first. */
  predicate LexLess(a: string, b: string) {
    if a == [] then b != []
    else if b == [] then false
    else if a[0] != b[0] then a[0] < b[0]
    else LexLess(a[1..], b[1..])
  }

  lemma {:induction false} LexIrreflexive(a: string)
    ensures !LexLess(a, a)
  {
    if a != [] {
      LexIrreflexive(a[1..]);
    }
  }

  lemma {:induction false} LexTransitive(a: string, b: string, c: string)
    requires LexLess(a, b) && LexLess(b, c)
    ensures LexLess(a, c)
  {
    if a != [] && a[0] == b[0] && b[0] == c[0] {
      LexTransitive(a[1..], b[1..], c[1..]);
    }
  }

  lemma {:induction false} LexTotal(a: string, b: string)
    requires a != b
    ensures LexLess(a, b) || LexLess(b, a)
  {
    if a != [] && b != [] && a[0] == b[0] {
      assert a == [a[0]] + a[1..] && b == [b[0]] + b[1..];
      LexTotal(a[1..], b[1..]);
    }
  }

  /** Strictly increasing: sorted and without repetitions. */
  predicate StrictlySorted(s: seq<string>) {
    forall i, j :: 0 <= i < j < |s| ==> LexLess(s[i], s[j])
  }

  /** Inserts `x` in front of the first element it is below. */
  function Insert(s: seq<string>, x: string): (r: seq<string>)
    ensures multiset(r) == multiset(s) + multiset{x}
  {
    if s == [] || LexLess(x, s[0]) then [x] + s
    else
      assert s == [s[0]] + s[1..];
      [s[0]] + Insert(s[1..], x)
  }

  /** Insertion keeps a sequence strictly sorted. */
  lemma {:induction false} InsertSorted(s: seq<string>, x: string)
    requires StrictlySorted(s) && x !in s
    ensures StrictlySorted(Insert(s, x))
  {
    if s == [] {
    } else if LexLess(x, s[0]) {
      forall j | 0 < j < |s| ensures LexLess(x, s[j]) {
        LexTransitive(x, s[0], s[j]);
      }
    } else {
      LexTotal(x, s[0]);
      assert StrictlySorted(s[1..]);
      InsertSorted(s[1..], x);
      var rest := Insert(s[1..], x);
      forall y | y in rest ensures LexLess(s[0], y) {
        assert y in multiset(rest);
        if y != x {
          assert y in multiset(s[1..]);
        }
      }
    }
  }

  /** The elements of `s` are exactly those of `e`, in increasing order:
      what `sorted(e)` returns. */
  ghost predicate SortedListing(s: seq<string>, e: set<string>) {
    StrictlySorted(s) && (forall x :: x in s <==> x in e)
  }

  /** `sorted` of a set of strings. */
  method SortStrings(e: set<string>) returns (s: seq<string>)
    ensures SortedListing(s, e)
    ensures |s| == |e|
  {
    s := [];
    var rest := e;
    while rest != {}
      invariant StrictlySorted(s)
      invariant forall x :: x in s <==> x in e && x !in rest
      invariant rest <= e
      invariant |s| + |rest| == |e|
      decreases |rest|
    {
      var x :| x in rest;
      InsertSorted(s, x);
      var t := Insert(s, x);
      assert forall y :: y in t <==> y in s || y == x by {
        forall y ensures y in t <==> y in s || y == x {
          assert y in t <==> y in multiset(t);
        }
      }
      assert |t| == |s| + 1 by { assert |multiset(t)| == |multiset(s)| + 1; }
      s := t;
      rest := rest - {x};
    }
  }

  lemma {:induction false} LexAsymmetric(a: string, b: string)
    ensures LexLess(a, b) ==> !LexLess(b, a)
  {
    if LexLess(a, b) && LexLess(b, a) {
      LexTransitive(a, b, a);
      LexIrreflexive(a);
    }
  }

  /** A sorted listing is empty iff its set is. */
  lemma EmptyListing(s: seq<string>, e: set<string>)
    requires SortedListing(s, e)
    ensures s == [] <==> e == {}
  {
    if s != [] {
      assert s[0] in e;
    }
  }

  /** The head of a sorted listing is the least element of its set. */
  lemma HeadIsLeast(s: seq<string>, e: set<string>)
    requires SortedListing(s, e) && s != []
    ensures forall x :: x in e ==> x == s[0] || LexLess(s[0], x)
  {
    forall x | x in e ensures x == s[0] || LexLess(s[0], x) {
      var k :| 0 <= k < |s| && s[k] == x;
    }
  }

  /** There is only one sorted listing of a set. */
  lemma {:induction false} SortedListingUnique(s: seq<string>, t: seq<string>, e: set<string>)
    requires SortedListing(s, e) && SortedListing(t, e)
    ensures s == t
    decreases |s|
  {
    EmptyListing(s, e);
    EmptyListing(t, e);
    if s != [] && t != [] {
      assert s[0] in e && t[0] in e;
      HeadIsLeast(s, e);
      HeadIsLeast(t, e);
      LexAsymmetric(s[0], t[0]);
      assert s[0] == t[0];
      var e' := e - {s[0]};
      forall x ensures x in s[1..] <==> x in e' {
        if x in s[1..] {
          var k :| 1 <= k < |s| && s[k] == x;
          LexIrreflexive(x);
        }
        if x in e' {
          var k :| 0 <= k < |s| && s[k] == x;
        }
      }
      forall x ensures x in t[1..] <==> x in e' {
        if x in t[1..] {
          var k :| 1 <= k < |t| && t[k] == x;
          LexIrreflexive(x);
        }
        if x in e' {
          var k :| 0 <= k < |t| && t[k] == x;
        }
      }
      SortedListingUnique(s[1..], t[1..], e');
      assert s == [s[0]] + s[1..] && t == [t[0]] + t[1..];
    }
  }

  // ---------------------------------------------------------------------
  // The scan of the `.pth` files

  /** The pattern `glob` is given: the `.pth` files of `<prefix>/<py_lib>/site-packages`. */
  function PthPattern(ctx: Context): string {
    Join(Join(Join(ctx.prefix, ctx.pyLib), "site-packages"), "*.pth")
  }

  /** A `.pth` line that names a location outside the environment: not a
      comment, not blank once right-stripped, and resolving (relative to
      the `.pth` file's directory) to a path that does not start with the
      prefix as a plain string. */
  predicate Offending(prefix: Path, dir: Path, line: string, normpath: Path -> Path) {
    !StartsWith(line, "#") && RStrip(line) != []
    && !StartsWith(normpath(Join(dir, RStrip(line))), prefix)
  }

  /** The right-stripped offending lines of one `.pth` file. */
  function EditableLines(prefix: Path, dir: Path, lines: seq<string>, normpath: Path -> Path): set<string> {
    if lines == [] then {}
    else
      EditableLines(prefix, dir, lines[..|lines| - 1], normpath)
      + (if Offending(prefix, dir, lines[|lines| - 1], normpath) then {RStrip(lines[|lines| - 1])} else {})
  }

  /** A `.pth` file contributes exactly its offending lines, stripped. */
  lemma {:induction false} EditableLinesMembers(prefix: Path, dir: Path, lines: seq<string>, normpath: Path -> Path, x: string)
    ensures x in EditableLines(prefix, dir, lines, normpath) <==>
      exists i :: 0 <= i < |lines| && Offending(prefix, dir, lines[i], normpath) && x == RStrip(lines[i])
  {
    if lines != [] {
      var init := lines[..|lines| - 1];
      EditableLinesMembers(prefix, dir, init, normpath, x);
      assert forall i :: 0 <= i < |init| ==> init[i] == lines[i];
    }
  }

  /** The offending lines of a `.pth` file, from its path and its text. */
  function PthScan(prefix: Path, normpath: Path -> Path): (Path, string) -> set<string> {
    (pth: Path, text: string) => EditableLines(prefix, Dirname(pth), Lines(text), normpath)
  }

  /** The outer loop of the scan: the union of what `scan` finds in each
      file, read in order, or the `OSError` of the first file that cannot
      be read. */
  function ScanFiles(pths: seq<Path>, files: map<Path, string>, scan: (Path, string) -> set<string>): Result<set<string>> {
    if pths == [] then Ok({})
    else
      var last := pths[|pths| - 1];
      match ScanFiles(pths[..|pths| - 1], files, scan)
      case Err(e) => Err(e)
      case Ok(found) =>
        if last !in files then Err(OSError(last))
        else Ok(found + scan(last, files[last]))
  }

  /** The offending lines of all the `.pth` files of the environment. */
  function EditableAll(ctx: Context, disk: Disk, pths: seq<Path>, normpath: Path -> Path): Result<set<string>> {
    ScanFiles(pths, disk.files, PthScan(ctx.prefix, normpath))
  }

  /** The scan fails iff some file cannot be read, and then with the
      `OSError` of the first such file. */
  lemma {:induction false} ScanFilesFails(pths: seq<Path>, files: map<Path, string>, scan: (Path, string) -> set<string>)
    ensures var r := ScanFiles(pths, files, scan);
      (r.Err? <==> exists k :: 0 <= k < |pths| && pths[k] !in files)
      && (r.Err? ==> exists k :: 0 <= k < |pths| && pths[k] !in files && r.error == OSError(pths[k])
                       && forall j :: 0 <= j < k ==> pths[j] in files)
  {
    if pths != [] {
      var init := pths[..|pths| - 1];
      ScanFilesFails(init, files, scan);
      assert forall i :: 0 <= i < |init| ==> init[i] == pths[i];
    }
  }

  /** On success every file was read, and an element is found iff `scan`
      finds it in one of them. */
  lemma {:induction false} ScanFilesMembers(pths: seq<Path>, files: map<Path, string>, scan: (Path, string) -> set<string>, x: string)
    requires ScanFiles(pths, files, scan).Ok?
    ensures forall k :: 0 <= k < |pths| ==> pths[k] in files
    ensures x in ScanFiles(pths, files, scan).value <==>
      exists k :: 0 <= k < |pths| && pths[k] in files && x in scan(pths[k], files[pths[k]])
  {
    if pths != [] {
      var init := pths[..|pths| - 1];
      var last := pths[|pths| - 1];
      ScanFilesMembers(init, files, scan, x);
      assert forall i :: 0 <= i < |init| ==> init[i] == pths[i];
      if exists k :: 0 <= k < |pths| && pths[k] in files && x in scan(pths[k], files[pths[k]]) {
        var k :| 0 <= k < |pths| && pths[k] in files && x in scan(pths[k], files[pths[k]]);
        if k < |init| {
          assert init[k] == pths[k];
        }
      }
    }
  }

  /** A line is reported iff every `.pth` file could be read and the line
      is reported for one of them (`EditableLinesMembers` says which lines
      of a file are). */
  lemma EditableAllMembers(ctx: Context, disk: Disk, pths: seq<Path>, normpath: Path -> Path, x: string)
    requires EditableAll(ctx, disk, pths, normpath).Ok?
    ensures forall k :: 0 <= k < |pths| ==> pths[k] in disk.files
    ensures x in EditableAll(ctx, disk, pths, normpath).value <==>
      exists k :: 0 <= k < |pths| && pths[k] in disk.files
        && x in EditableLines(ctx.prefix, Dirname(pths[k]), Lines(disk.files[pths[k]]), normpath)
  {
    var scan := PthScan(ctx.prefix, normpath);
    ScanFilesMembers(pths, disk.files, scan, x);
    assert forall p, t :: scan(p, t) == EditableLines(ctx.prefix, Dirname(p), Lines(t), normpath);
  }

  /** The text of the refusal, listing `sorted` offending lines. */
  function EditableMessage(listing: seq<string>): string {
    "Cannot pack an environment with editable packages\n"
    + "installed (e.g. from `python setup.py develop` or\n "
    + "`pip install -e`). Editable packages found:\n\n"
    + JoinLines(Bulleted(listing))
  }

  /** `'- %s' % p` for each `p`. */
  function Bulleted(listing: seq<string>): (r: seq<string>)
    ensures |r| == |listing|
    ensures forall i :: 0 <= i < |r| ==> r[i] == "- " + listing[i]
  {
    if listing == [] then [] else Bulleted(listing[..|listing| - 1]) + ["- " + listing[|listing| - 1]]
  }

  /** `'\n'.join(lines)` */
  function JoinLines(lines: seq<string>): string {
    if lines == [] then []
    else if |lines| == 1 then lines[0]
    else JoinLines(lines[..|lines| - 1]) + "\n" + lines[|lines| - 1]
  }

  /** The inner loop of `check_no_editable_packages` over the lines of one
      `.pth` file in directory `dir`: comment lines are skipped, the others
      right-stripped, and a non-blank line whose location does not start
      with `prefix` is collected. */
  method ScanPth(prefix: Path, dir: Path, lines: seq<string>, normpath: Path -> Path) returns (found: set<string>)
    ensures found == EditableLines(prefix, dir, lines, normpath)
  {
    found := {};
    for k := 0 to |lines|
      invariant found == EditableLines(prefix, dir, lines[..k], normpath)
    {
      EditableLinesStep(prefix, dir, lines, k, normpath);
      var line := lines[k];
      if StartsWith(line, "#") {
        continue;
      }
      line := RStrip(line);
      if line != [] {
        var location := normpath(Join(dir, line));
        if !StartsWith(location, prefix) {
          found := found + {line};
        }
      }
    }
    assert lines[..|lines|] == lines;
  }

  /** `check_no_editable_packages`: passes iff no `.pth` line points
      outside the environment; otherwise fails with the sorted listing of
      the offending lines, or with the `OSError` of an unreadable `.pth`
      file. */
  method CheckNoEditablePackages(ctx: Context, disk: Disk, normpath: Path -> Path) returns (r: Outcome)
    ensures var spec := EditableAll(ctx, disk, Glob(disk, PthPattern(ctx)), normpath);
      (spec.Err? ==> r == Fail(spec.error))
      && (spec.Ok? && spec.value == {} ==> r == Pass)
      && (spec.Ok? && spec.value != {} ==>
            exists s :: SortedListing(s, spec.value) && r == Fail(VenvPackError(EditableMessage(s))))
  {
    var scanned := ScanAll(ctx, disk, Glob(disk, PthPattern(ctx)), normpath);
    if scanned.Err? {
      return Fail(scanned.error);
    }
    var editable := scanned.value;
    if editable != {} {
      var listing := SortStrings(editable);
      return Fail(VenvPackError(EditableMessage(listing)));
    }
    return Pass;
  }

  /** The loop of `check_no_editable_packages` over the `.pth` files. */
  method ScanAll(ctx: Context, disk: Disk, pthFiles: seq<Path>, normpath: Path -> Path) returns (r: Result<set<string>>)
    ensures r == EditableAll(ctx, disk, pthFiles, normpath)
  {
    ghost var scan := PthScan(ctx.prefix, normpath);
    var editable: set<string> := {};
    for i := 0 to |pthFiles|
      invariant ScanFiles(pthFiles[..i], disk.files, scan) == Ok(editable)
    {
      var pth := pthFiles[i];
      ScanFilesStep(pthFiles, disk.files, scan, i);
      if pth !in disk.files {
        ScanFilesErrorPersists(pthFiles, disk.files, scan, i + 1);
        return Err(OSError(pth));
      }
      var found := ScanPth(ctx.prefix, Dirname(pth), Lines(disk.files[pth]), normpath);
      assert found == scan(pth, disk.files[pth]);
      editable := editable + found;
    }
    assert pthFiles[..|pthFiles|] == pthFiles;
    return Ok(editable);
  }

  lemma EditableLinesStep(prefix: Path, dir: Path, lines: seq<string>, k: nat, normpath: Path -> Path)
    requires k < |lines|
    ensures EditableLines(prefix, dir, lines[..k + 1], normpath) ==
      EditableLines(prefix, dir, lines[..k], normpath)
      + (if Offending(prefix, dir, lines[k], normpath) then {RStrip(lines[k])} else {})
  {
    assert lines[..k + 1][..k] == lines[..k];
  }

  lemma ScanFilesStep(pths: seq<Path>, files: map<Path, string>, scan: (Path, string) -> set<string>, i: nat)
    requires i < |pths|
    ensures ScanFiles(pths[..i + 1], files, scan) ==
      match ScanFiles(pths[..i], files, scan)
      case Err(e) => Err(e)
      case Ok(found) =>
        if pths[i] !in files then Err(OSError(pths[i])) else Ok(found + scan(pths[i], files[pths[i]]))
  {
    assert pths[..i + 1][..i] == pths[..i];
  }

  /** An unreadable `.pth` file among the first `n` decides the outcome of
      the whole scan. */
  lemma {:induction false} ScanFilesErrorPersists(pths: seq<Path>, files: map<Path, string>, scan: (Path, string) -> set<string>, n: nat)
    requires n <= |pths| && ScanFiles(pths[..n], files, scan).Err?
    ensures ScanFiles(pths, files, scan) == ScanFiles(pths[..n], files, scan)
    decreases |pths| - n
  {
    if n < |pths| {
      assert pths[..n + 1][..n] == pths[..n];
      ScanFilesErrorPersists(pths, files, scan, n + 1);
    } else {
      assert pths[..n] == pths;
    }
  }
}

=== FILE: environment.dfy ===
/** The packaging session of venv_pack/core.py: the `Env` value with its
    active and excluded file lists, the `exclude`/`include` filters that
    return a new `Env` each time, and the ordered `(kind, pattern)` filter
    fold of `pack`. Glob matching (`fnmatch`) is a parameter: no property
    here depends on what a pattern means. */
module Environment {
  import opened Common
  import opened Paths

  /** `BIN_DIR` on POSIX: where scripts and interpreters live. */
  const BinDir: Path := "bin"

  /** `fnmatch(target, pattern)` */
  type Matcher = (Path, string) -> bool

  /** A single archive record: an absolute source path and the path it
      takes inside the archive, relative to the environment root. */
  datatype File = File(source: Path, target: Path)

  /** The two supported layouts: `venv` records its interpreter in
      `pyvenv.cfg`, `virtualenv` in `<py_lib>/orig-prefix.txt`. */
  datatype Kind = Venv | Virtualenv

  /** The detected environment (the `context` dictionary). */
  datatype Context = Context(kind: Kind, prefix: Path, origPrefix: Path, pyLib: Path, pyInclude: Path)

  /** `Env`: never updated after construction; every filter builds a new
      one. */
  datatype Env = Env(context: Context, files: seq<File>, excluded: seq<File>)

  /** One `(kind, pattern)` entry of the `filters` argument of `pack`. */
  datatype Filter = Filter(kind: string, pattern: string)

  /** `Env.name`: the last component of the environment prefix. */
  function Name(env: Env): Path {
    Basename(env.context.prefix)
  }

  /** `Env._copy_with_files`: same context, the given lists. */
  function CopyWithFiles(env: Env, files: seq<File>, excluded: seq<File>): Env {
    Env(env.context, files, excluded)
  }

  /** The entries of `fs` whose target matches `pattern`, in order. */
  function Selected(fs: seq<File>, pattern: string, fnmatch: Matcher): seq<File> {
    if fs == [] then []
    else
      var last := fs[|fs| - 1];
      Selected(fs[..|fs| - 1], pattern, fnmatch) + (if fnmatch(last.target, pattern) then [last] else [])
  }

  /** The entries of `fs` whose target does not match `pattern`, in order. */
  function Rejected(fs: seq<File>, pattern: string, fnmatch: Matcher): seq<File> {
    if fs == [] then []
    else
      var last := fs[|fs| - 1];
      Rejected(fs[..|fs| - 1], pattern, fnmatch) + (if fnmatch(last.target, pattern) then [] else [last])
  }

  /** The value `Env.exclude(pattern)` returns. */
  function ExcludeOf(env: Env, pattern: string, fnmatch: Matcher): (r: Env)
    ensures r.context == env.context
    ensures |r.excluded| >= |env.excluded| && r.excluded[..|env.excluded|] == env.excluded
  {
    CopyWithFiles(env, Rejected(env.files, pattern, fnmatch),
                  env.excluded + Selected(env.files, pattern, fnmatch))
  }

  /** The value `Env.include(pattern)` returns. */
  function IncludeOf(env: Env, pattern: string, fnmatch: Matcher): (r: Env)
    ensures r.context == env.context
    ensures |r.files| >= |env.files| && r.files[..|env.files|] == env.files
  {
    CopyWithFiles(env, env.files + Selected(env.excluded, pattern, fnmatch),
                  Rejected(env.excluded, pattern, fnmatch))
  }

  /** `Env.exclude`: one pass over the active files, appending each to the
      new active list or to a copy of the excluded list. */
  method Exclude(env: Env, pattern: string, fnmatch: Matcher) returns (r: Env)
    ensures r == ExcludeOf(env, pattern, fnmatch)
  {
    var files: seq<File> := [];
    var excluded := env.excluded;
    for i := 0 to |env.files|
      invariant files == Rejected(env.files[..i], pattern, fnmatch)
      invariant excluded == env.excluded + Selected(env.files[..i], pattern, fnmatch)
    {
      var f := env.files[i];
      assert env.files[..i + 1][..i] == env.files[..i];
      if fnmatch(f.target, pattern) {
        excluded := excluded + [f];
      } else {
        files := files + [f];
      }
    }
    assert env.files[..|env.files|] == env.files;
    r := CopyWithFiles(env, files, excluded);
  }

  /** `Env.include`: one pass over the excluded files, appending each to a
      copy of the active list or to the new excluded list. */
  method Include(env: Env, pattern: string, fnmatch: Matcher) returns (r: Env)
    ensures r == IncludeOf(env, pattern, fnmatch)
  {
    var files := env.files;
    var excluded: seq<File> := [];
    for i := 0 to |env.excluded|
      invariant files == env.files + Selected(env.excluded[..i], pattern, fnmatch)
      invariant excluded == Rejected(env.excluded[..i], pattern, fnmatch)
    {
      var f := env.excluded[i];
      assert env.excluded[..i + 1][..i] == env.excluded[..i];
      if fnmatch(f.target, pattern) {
        files := files + [f];
      } else {
        excluded := excluded + [f];
      }
    }
    assert env.excluded[..|env.excluded|] == env.excluded;
    r := CopyWithFiles(env, files, excluded);
  }

  /** The filters of `pack` applied in order; the first entry whose kind is
      neither `exclude` nor `include` aborts with `VenvPackException`. */
  function Filtered(env: Env, filters: seq<Filter>, fnmatch: Matcher): (r: Result<Env>)
    ensures r.Ok? ==> r.value.context == env.context
    ensures r.Err? ==> r.error.VenvPackError?
    decreases |filters|
  {
    if filters == [] then Ok(env)
    else if filters[0].kind == "exclude" then Filtered(ExcludeOf(env, filters[0].pattern, fnmatch), filters[1..], fnmatch)
    else if filters[0].kind == "include" then Filtered(IncludeOf(env, filters[0].pattern, fnmatch), filters[1..], fnmatch)
    else Err(VenvPackError("Unknown filter of kind " + Repr(filters[0].kind)))
  }

  /** The filter loop of `pack` (`filters=None` is the empty sequence). */
  method ApplyFilters(env: Env, filters: seq<Filter>, fnmatch: Matcher) returns (r: Result<Env>)
    ensures r == Filtered(env, filters, fnmatch)
  {
    var cur := env;
    for i := 0 to |filters|
      invariant Filtered(env, filters, fnmatch) == Filtered(cur, filters[i..], fnmatch)
    {
      var kind, pattern := filters[i].kind, filters[i].pattern;
      assert filters[i..][1..] == filters[i + 1..];
      if kind == "exclude" {
        cur := Exclude(cur, pattern, fnmatch);
      } else if kind == "include" {
        cur := Include(cur, pattern, fnmatch);
      } else {
        return Err(VenvPackError("Unknown filter of kind " + Repr(kind)));
      }
    }
    return Ok(cur);
  }

  // ---------------------------------------------------------------------
  // Properties of the filters

  /** Splitting a list by a pattern loses and duplicates nothing. */
  lemma {:induction false} SplitPreserves(fs: seq<File>, pattern: string, fnmatch: Matcher)
    ensures multiset(Selected(fs, pattern, fnmatch)) + multiset(Rejected(fs, pattern, fnmatch)) == multiset(fs)
    ensures |Selected(fs, pattern, fnmatch)| + |Rejected(fs, pattern, fnmatch)| == |fs|
  {
    if fs != [] {
      var init, last := fs[..|fs| - 1], fs[|fs| - 1];
      SplitPreserves(init, pattern, fnmatch);
      assert fs == init + [last];
      assert multiset(fs) == multiset(init) + multiset{last};
      if fnmatch(last.target, pattern) {
        assert multiset(Selected(fs, pattern, fnmatch)) == multiset(Selected(init, pattern, fnmatch)) + multiset{last};
        assert Rejected(fs, pattern, fnmatch) == Rejected(init, pattern, fnmatch);
      } else {
        assert Selected(fs, pattern, fnmatch) == Selected(init, pattern, fnmatch);
        assert multiset(Rejected(fs, pattern, fnmatch)) == multiset(Rejected(init, pattern, fnmatch)) + multiset{last};
      }
    }
  }

  /** The selected entries are exactly those whose target matches, the
      rejected ones exactly those whose target does not. */
  lemma {:induction false} SplitMembers(fs: seq<File>, pattern: string, fnmatch: Matcher, f: File)
    ensures f in Selected(fs, pattern, fnmatch) <==> f in fs && fnmatch(f.target, pattern)
    ensures f in Rejected(fs, pattern, fnmatch) <==> f in fs && !fnmatch(f.target, pattern)
  {
    if fs != [] {
      var init, last := fs[..|fs| - 1], fs[|fs| - 1];
      SplitMembers(init, pattern, fnmatch, f);
      assert fs == init + [last];
    }
  }

  /** Selecting distributes over concatenation. */
  lemma {:induction false} SelectedAppend(a: seq<File>, b: seq<File>, pattern: string, fnmatch: Matcher)
    ensures Selected(a + b, pattern, fnmatch) == Selected(a, pattern, fnmatch) + Selected(b, pattern, fnmatch)
    decreases |b|
  {
    if b == [] {
      assert a + b == a;
    } else {
      var init, last := b[..|b| - 1], b[|b| - 1];
      assert (a + b)[..|a + b| - 1] == a + init;
      assert (a + b)[|a + b| - 1] == last;
      SelectedAppend(a, init, pattern, fnmatch);
      assert Selected(a + b, pattern, fnmatch)
        == Selected(a + init, pattern, fnmatch) + (if fnmatch(last.target, pattern) then [last] else []);
    }
  }

  /** Rejecting distributes over concatenation. */
  lemma {:induction false} RejectedAppend(a: seq<File>, b: seq<File>, pattern: string, fnmatch: Matcher)
    ensures Rejected(a + b, pattern, fnmatch) == Rejected(a, pattern, fnmatch) + Rejected(b, pattern, fnmatch)
    decreases |b|
  {
    if b == [] {
      assert a + b == a;
    } else {
      var init, last := b[..|b| - 1], b[|b| - 1];
      assert (a + b)[..|a + b| - 1] == a + init;
      assert (a + b)[|a + b| - 1] == last;
      RejectedAppend(a, init, pattern, fnmatch);
      assert Rejected(a + b, pattern, fnmatch)
        == Rejected(a + init, pattern, fnmatch) + (if fnmatch(last.target, pattern) then [] else [last]);
    }
  }

  /** Selecting twice with the same pattern selects nothing new, and what
      was selected has no non-matching part. */
  lemma {:induction false} SelectedTwice(fs: seq<File>, pattern: string, fnmatch: Matcher)
    ensures Selected(Selected(fs, pattern, fnmatch), pattern, fnmatch) == Selected(fs, pattern, fnmatch)
    ensures Rejected(Selected(fs, pattern, fnmatch), pattern, fnmatch) == []
    ensures Selected(Rejected(fs, pattern, fnmatch), pattern, fnmatch) == []
    ensures Rejected(Rejected(fs, pattern, fnmatch), pattern, fnmatch) == Rejected(fs, pattern, fnmatch)
  {
    if fs != [] {
      var init, last := fs[..|fs| - 1], fs[|fs| - 1];
      SelectedTwice(init, pattern, fnmatch);
      var tail := if fnmatch(last.target, pattern) then [last] else [];
      var rtail := if fnmatch(last.target, pattern) then [] else [last];
      SelectedAppend(Selected(init, pattern, fnmatch), tail, pattern, fnmatch);
      RejectedAppend(Selected(init, pattern, fnmatch), tail, pattern, fnmatch);
      SelectedAppend(Rejected(init, pattern, fnmatch), rtail, pattern, fnmatch);
      RejectedAppend(Rejected(init, pattern, fnmatch), rtail, pattern, fnmatch);
    }
  }

  /** `exclude` moves files between the two lists and loses none: the
      active and excluded lists together keep the same multiset, and the
      context is unchanged. */
  lemma ExcludePreservesFiles(env: Env, pattern: string, fnmatch: Matcher)
    ensures var r := ExcludeOf(env, pattern, fnmatch);
      r.context == env.context &&
      multiset(r.files + r.excluded) == multiset(env.files + env.excluded) &&
      (forall f :: f in r.files ==> !fnmatch(f.target, pattern))
  {
    SplitPreserves(env.files, pattern, fnmatch);
    forall f | f in Rejected(env.files, pattern, fnmatch)
      ensures !fnmatch(f.target, pattern)
    {
      SplitMembers(env.files, pattern, fnmatch, f);
    }
  }

  /** `include` moves files between the two lists and loses none; nothing
      left excluded matches the pattern. */
  lemma IncludePreservesFiles(env: Env, pattern: string, fnmatch: Matcher)
    ensures var r := IncludeOf(env, pattern, fnmatch);
      r.context == env.context &&
      multiset(r.files + r.excluded) == multiset(env.files + env.excluded) &&
      (forall f :: f in r.excluded ==> !fnmatch(f.target, pattern))
  {
    SplitPreserves(env.excluded, pattern, fnmatch);
    forall f | f in Rejected(env.excluded, pattern, fnmatch)
      ensures !fnmatch(f.target, pattern)
    {
      SplitMembers(env.excluded, pattern, fnmatch, f);
    }
  }

  /** Re-applying the same `exclude` or `include` changes nothing. */
  lemma FiltersIdempotent(env: Env, pattern: string, fnmatch: Matcher)
    ensures ExcludeOf(ExcludeOf(env, pattern, fnmatch), pattern, fnmatch) == ExcludeOf(env, pattern, fnmatch)
    ensures IncludeOf(IncludeOf(env, pattern, fnmatch), pattern, fnmatch) == IncludeOf(env, pattern, fnmatch)
  {
    SelectedTwice(env.files, pattern, fnmatch);
    SelectedTwice(env.excluded, pattern, fnmatch);
  }

  /** `exclude(P).include(P)`: the active files are the original active
      files plus the previously excluded ones that match P (as a multiset),
      and the excluded list keeps only the previously excluded files that
      do not match. */
  lemma ExcludeIncludeRoundTrip(env: Env, pattern: string, fnmatch: Matcher)
    ensures var r := IncludeOf(ExcludeOf(env, pattern, fnmatch), pattern, fnmatch);
      multiset(r.files) == multiset(env.files) + multiset(Selected(env.excluded, pattern, fnmatch)) &&
      r.excluded == Rejected(env.excluded, pattern, fnmatch)
  {
    var sel := Selected(env.files, pattern, fnmatch);
    SelectedAppend(env.excluded, sel, pattern, fnmatch);
    RejectedAppend(env.excluded, sel, pattern, fnmatch);
    SelectedTwice(env.files, pattern, fnmatch);
    SplitPreserves(env.files, pattern, fnmatch);
  }

  /** On an environment with nothing excluded (as after loading),
      `exclude(P).include(P)` restores the active files up to order and
      leaves nothing excluded. */
  lemma ExcludeIncludeRestores(env: Env, pattern: string, fnmatch: Matcher)
    requires env.excluded == []
    ensures var r := IncludeOf(ExcludeOf(env, pattern, fnmatch), pattern, fnmatch);
      multiset(r.files) == multiset(env.files) && |r.files| == |env.files| && r.excluded == []
  {
    ExcludeIncludeRoundTrip(env, pattern, fnmatch);
    var r := IncludeOf(ExcludeOf(env, pattern, fnmatch), pattern, fnmatch);
    assert |r.files| == |multiset(r.files)|;
  }

  /** When no active file matches both A and B, two successive excludes
      remove exactly the files matching A plus those matching B. */
  lemma ExcludeDisjointCounts(env: Env, a: string, b: string, fnmatch: Matcher)
    requires forall f :: f in env.files ==> !(fnmatch(f.target, a) && fnmatch(f.target, b))
    ensures |ExcludeOf(ExcludeOf(env, a, fnmatch), b, fnmatch).files|
         == |env.files| - |Selected(env.files, a, fnmatch)| - |Selected(env.files, b, fnmatch)|
  {
    var rest := Rejected(env.files, a, fnmatch);
    SplitPreserves(env.files, a, fnmatch);
    SplitPreserves(rest, b, fnmatch);
    SelectedOfRejected(env.files, a, b, fnmatch);
  }

  /** Under disjointness, removing the A-matches first does not change
      which files match B. */
  lemma {:induction false} SelectedOfRejected(fs: seq<File>, a: string, b: string, fnmatch: Matcher)
    requires forall f :: f in fs ==> !(fnmatch(f.target, a) && fnmatch(f.target, b))
    ensures Selected(Rejected(fs, a, fnmatch), b, fnmatch) == Selected(fs, b, fnmatch)
  {
    if fs != [] {
      var init, last := fs[..|fs| - 1], fs[|fs| - 1];
      SelectedOfRejected(init, a, b, fnmatch);
      var tail := if fnmatch(last.target, a) then [] else [last];
      SelectedAppend(Rejected(init, a, fnmatch), tail, pattern := b, fnmatch := fnmatch);
    }
  }

  /** Filters compose: applying `a` then `b` is applying `a + b`. */
  lemma {:induction false} FilteredAppend(env: Env, a: seq<Filter>, b: seq<Filter>, fnmatch: Matcher)
    ensures Filtered(env, a + b, fnmatch) ==
      match Filtered(env, a, fnmatch)
      case Ok(mid) => Filtered(mid, b, fnmatch)
      case Err(e) => Err(e)
    decreases |a|
  {
    if a == [] {
      assert a + b == b;
    } else {
      assert (a + b)[1..] == a[1..] + b;
      var k, p := a[0].kind, a[0].pattern;
      if k == "exclude" {
        FilteredAppend(ExcludeOf(env, p, fnmatch), a[1..], b, fnmatch);
      } else if k == "include" {
        FilteredAppend(IncludeOf(env, p, fnmatch), a[1..], b, fnmatch);
      }
    }
  }

  predicate KnownKind(f: Filter) {
    f.kind == "exclude" || f.kind == "include"
  }

  /** The fold fails exactly when some entry has an unknown kind. */
  lemma {:induction false} FilteredFailsIffUnknownKind(env: Env, filters: seq<Filter>, fnmatch: Matcher)
    ensures Filtered(env, filters, fnmatch).Err? <==> exists i :: 0 <= i < |filters| && !KnownKind(filters[i])
    decreases |filters|
  {
    if filters != [] {
      var k, p := filters[0].kind, filters[0].pattern;
      if k == "exclude" {
        FilteredFailsIffUnknownKind(ExcludeOf(env, p, fnmatch), filters[1..], fnmatch);
      } else if k == "include" {
        FilteredFailsIffUnknownKind(IncludeOf(env, p, fnmatch), filters[1..], fnmatch);
      }
      assert forall i :: 1 <= i < |filters| ==> filters[i] == filters[1..][i - 1];
    }
  }

  /** Whatever the filters, the environment that comes out holds the same
      files as the one that went in, split differently between the active
      and excluded lists. */
  lemma {:induction false} FilteredPreservesFiles(env: Env, filters: seq<Filter>, fnmatch: Matcher)
    ensures var r := Filtered(env, filters, fnmatch);
      r.Ok? ==> multiset(r.value.files + r.value.excluded) == multiset(env.files + env.excluded)
    decreases |filters|
  {
    if filters != [] {
      var k, p := filters[0].kind, filters[0].pattern;
      if k == "exclude" {
        ExcludePreservesFiles(env, p, fnmatch);
        FilteredPreservesFiles(ExcludeOf(env, p, fnmatch), filters[1..], fnmatch);
      } else if k == "include" {
        IncludePreservesFiles(env, p, fnmatch);
        FilteredPreservesFiles(IncludeOf(env, p, fnmatch), filters[1..], fnmatch);
      }
    }
  }

  /** The filter list of the package tests, `exclude A, exclude B,
      include C`, gives the same environment as the chained calls. */
  lemma FilteredChain(env: Env, a: string, b: string, c: string, fnmatch: Matcher)
    ensures Filtered(env, [Filter("exclude", a), Filter("exclude", b), Filter("include", c)], fnmatch)
         == Ok(IncludeOf(ExcludeOf(ExcludeOf(env, a, fnmatch), b, fnmatch), c, fnmatch))
  {
    var fs := [Filter("exclude", a), Filter("exclude", b), Filter("include", c)];
    var e1 := ExcludeOf(env, a, fnmatch);
    var e2 := ExcludeOf(e1, b, fnmatch);
    assert fs[1..] == [Filter("exclude", b), Filter("include", c)];
    assert fs[1..][1..] == [Filter("include", c)];
    assert fs[1..][1..][1..] == [];
    assert Filtered(e2, [Filter("include", c)], fnmatch) == Ok(IncludeOf(e2, c, fnmatch));
    assert Filtered(e1, fs[1..], fnmatch) == Filtered(e2, [Filter("include", c)], fnmatch);
  }
}

=== FILE: formats.dfy ===
/** The archive backends of venv_pack/formats.py: the format-to-mode table
    and backend selection, a tar backend and a zip backend. Each backend
    keeps the entries it has written, in order; compression and the
    on-disk layout belong to `tarfile`/`zipfile` and are not modelled. The
    zip backend builds each entry's name, attributes and size the way
    `zipinfo_from_file` does. */
module Formats {
  import opened Common
  import opened Paths
  import opened Fs

  // ---------------------------------------------------------------------
  // Backend selection

  /** `_tar_mode[format]`: a missing format raises `KeyError`. */
  function TarMode(format: string): (r: Result<string>)
    ensures r.Ok? <==> format in {"tar.gz", "tgz", "tar.bz2", "tbz2", "tar"}
    ensures r.Ok? ==> r.value in {"w:gz", "w:bz2", "w"}
    ensures r.Err? ==> r.error == KeyError(format)
  {
    if format == "tar.gz" || format == "tgz" then Ok("w:gz")
    else if format == "tar.bz2" || format == "tbz2" then Ok("w:bz2")
    else if format == "tar" then Ok("w")
    else Err(KeyError(format))
  }

  /** The backend `archive` builds, with the options it keeps. */
  datatype Backend =
    | ZipBackend(zipSymlinks: bool, zip64: bool)
    | TarBackend(mode: string, compressLevel: int)

  /** `archive(fileobj, format, compress_level, zip_symlinks, zip_64)` */
  function ArchiveBackend(format: string, compressLevel: int, zipSymlinks: bool, zip64: bool): (r: Result<Backend>)
    ensures (r.Ok? && r.value.ZipBackend?) <==> format == "zip"
    ensures format != "zip" ==> (r.Ok? <==> TarMode(format).Ok?)
    ensures r.Ok? && r.value.ZipBackend? ==> r.value == ZipBackend(zipSymlinks, zip64)
    ensures r.Ok? && r.value.TarBackend? ==> r.value.compressLevel == compressLevel
  {
    if format == "zip" then Ok(ZipBackend(zipSymlinks, zip64))
    else match TarMode(format)
      case Ok(mode) => Ok(TarBackend(mode, compressLevel))
      case Err(e) => Err(e)
  }

  /** The `compresslevel` argument `TarArchive.__enter__` passes to
      `tarfile.open`, if any. */
  function TarOpenCompressLevel(mode: string, compressLevel: int): (r: Option<int>)
    ensures r.Some? <==> mode != "w"
    ensures r.Some? ==> r.value == compressLevel
  {
    if mode != "w" then Some(compressLevel) else None
  }

  /** The mode of each tar format, and that only a plain `tar` is opened
      without a compression level. */
  lemma TarModes(format: string, level: int)
    requires format != "zip"
    ensures var r := ArchiveBackend(format, level, false, true);
      (format in {"tar.gz", "tgz"} ==> r == Ok(TarBackend("w:gz", level)))
      && (format in {"tar.bz2", "tbz2"} ==> r == Ok(TarBackend("w:bz2", level)))
      && (format == "tar" ==> r == Ok(TarBackend("w", level)))
      && (r.Ok? ==> (TarOpenCompressLevel(r.value.mode, level).None? <==> format == "tar"))
  {
    assert "w:gz" != "w" && "w:bz2" != "w";
  }

  // ---------------------------------------------------------------------
  // The tar backend

  /** A tar member: added from the file system as is, or from a header
      taken from `source` with the size and content given, or as a link
      whose target is given. */
  datatype TarEntry =
    | Copied(source: Path, name: Path)
    | Data(source: Path, name: Path, size: nat, content: Bytes)
    | Linked(source: Path, name: Path, linkname: Path)

  class TarArchive {
    const mode: string
    const compressLevel: int
    var entries: seq<TarEntry>

    constructor(mode: string, compressLevel: int)
      ensures this.mode == mode && this.compressLevel == compressLevel && entries == []
    {
      this.mode := mode;
      this.compressLevel := compressLevel;
      entries := [];
    }

    /** `TarArchive.add`: one member, not recursing into directories. */
    method Add(source: Path, target: Path)
      modifies this
      ensures entries == old(entries) + [Copied(source, target)]
    {
      entries := entries + [Copied(source, target)];
    }

    /** `TarArchive.add_bytes`: one member whose size is the byte count
        and whose content is exactly the bytes. */
    method AddBytes(source: Path, data: Bytes, target: Path)
      modifies this
      ensures entries == old(entries) + [Data(source, target, |data|, data)]
    {
      entries := entries + [Data(source, target, |data|, data)];
    }

    /** `TarArchive.add_link`: one link member pointing at `link`. */
    method AddLink(source: Path, link: Path, target: Path)
      modifies this
      ensures entries == old(entries) + [Linked(source, target, link)]
    {
      entries := entries + [Linked(source, target, link)];
    }
  }

  // ---------------------------------------------------------------------
  // Zip entry headers

  /** The Unix mode in the high half of `external_attr`. */
  function UnixAttr(mode: bv32): bv32 {
    (mode & 0xFFFF) << 16
  }

  /** The MS-DOS directory flag. */
  const DosDirFlag: bv32 := 0x10

  /** `external_attr` of an entry: the Unix mode, plus the directory flag
      for a directory. */
  function ExternalAttr(mode: bv32, isDir: bool): bv32 {
    UnixAttr(mode) | (if isDir then DosDirFlag else 0)
  }

  /** The high half of the attributes is the low half of the mode, and the
      low half is the directory flag or nothing. */
  lemma ExternalAttrLayout(mode: bv32, isDir: bool)
    ensures ExternalAttr(mode, isDir) >> 16 == mode & 0xFFFF
    ensures ExternalAttr(mode, isDir) & 0xFFFF == (if isDir then DosDirFlag else 0)
  {
  }

  /** A zip entry header: name, `external_attr` and `file_size`. */
  datatype ZipInfo = ZipInfo(name: Path, attr: bv32, size: nat)

  /** A written zip entry; `create_system` is 3 (Unix) for every entry. */
  datatype ZipEntry = ZipEntry(name: Path, createSystem: nat, attr: bv32, size: nat, content: Bytes)

  const UnixSystem: nat := 3

  /** `arcname` without its leading `/` characters. */
  function LStripSlashes(s: Path): (r: Path)
    ensures EndsWith(s, r)
    ensures r == [] || r[0] != '/'
    ensures forall k :: 0 <= k < |s| - |r| ==> s[k] == '/'
  {
    if s != [] && s[0] == '/' then LStripSlashes(s[1..]) else s
  }

  /** `zipinfo_from_file(filename, arcname)`: the header for `filename`,
      named after the normalised `arcname` without leading separators,
      with a trailing `/` for a directory. Stripping an arcname made of
      separators only reaches an empty string and raises `IndexError`. */
  function ZipInfoOf(fs: FileSystem, filename: Path, arcname: Path, normpath: Path -> Path): (r: Result<ZipInfo>)
    ensures r.Err? ==> r.error == OSError(filename) || r.error == IndexError
    ensures r.Ok? ==> r.value.name != [] && r.value.name[0] != '/'
  {
    match Stat(fs, filename)
    case None => Err(OSError(filename))
    case Some(obj) =>
      var name := LStripSlashes(normpath(arcname));
      if name == [] then Err(IndexError)
      else if obj.Directory? then Ok(ZipInfo(name + "/", ExternalAttr(obj.mode, true), 0))
      else Ok(ZipInfo(name, ExternalAttr(obj.mode, false), |obj.content|))
  }

  /** `zipinfo_from_file` fails iff `filename` cannot be stat'ed or the
      arcname is made of separators only. */
  lemma ZipInfoFails(fs: FileSystem, filename: Path, arcname: Path, normpath: Path -> Path)
    ensures ZipInfoOf(fs, filename, arcname, normpath).Err? <==>
      Stat(fs, filename).None? || LStripSlashes(normpath(arcname)) == []
  {
  }

  /** The header's name has no leading separator, and it is the stripped
      arcname, with a `/` appended exactly for a directory. */
  lemma ZipInfoName(fs: FileSystem, filename: Path, arcname: Path, normpath: Path -> Path)
    requires ZipInfoOf(fs, filename, arcname, normpath).Ok?
    ensures var name := ZipInfoOf(fs, filename, arcname, normpath).value.name;
      var stripped := LStripSlashes(normpath(arcname));
      name != [] && name[0] != '/'
      && (Stat(fs, filename).value.Directory? <==> name == stripped + "/")
      && (!Stat(fs, filename).value.Directory? <==> name == stripped)
  {
    var stripped := LStripSlashes(normpath(arcname));
    assert (stripped + "/")[0] == stripped[0];
    assert stripped + "/" != stripped by {
      assert |stripped + "/"| != |stripped|;
    }
  }

  /** The header's attributes carry the Unix mode in their high half and
      the directory flag exactly for a directory; a directory has size
      zero and a file its own size. */
  lemma ZipInfoAttributes(fs: FileSystem, filename: Path, arcname: Path, normpath: Path -> Path)
    requires ZipInfoOf(fs, filename, arcname, normpath).Ok?
    ensures var info := ZipInfoOf(fs, filename, arcname, normpath).value;
      var obj := Stat(fs, filename).value;
      info.attr == ExternalAttr(obj.mode, obj.Directory?)
      && info.size == (if obj.Directory? then 0 else |obj.content|)
  {
  }

  /** `zipinfo_from_file`, with its loop dropping leading separators. */
  method ZipInfoFromFile(fs: FileSystem, filename: Path, arcname: Path, normpath: Path -> Path) returns (r: Result<ZipInfo>)
    ensures r == ZipInfoOf(fs, filename, arcname, normpath)
  {
    var st := Stat(fs, filename);
    if st.None? {
      return Err(OSError(filename));
    }
    var name := normpath(arcname);
    while name != [] && name[0] == '/'
      invariant LStripSlashes(name) == LStripSlashes(normpath(arcname))
      decreases |name|
    {
      name := name[1..];
    }
    if name == [] {
      return Err(IndexError);
    }
    var obj := st.value;
    if obj.Directory? {
      return Ok(ZipInfo(name + "/", ExternalAttr(obj.mode, true), 0));
    }
    return Ok(ZipInfo(name, ExternalAttr(obj.mode, false), |obj.content|));
  }

  // ---------------------------------------------------------------------
  // What the zip backend writes

  /** `ZipFile.write(path, arcname)`: the header of `path` with its
      content (none for a directory). */
  function WriteEntry(fs: FileSystem, path: Path, arcname: Path, normpath: Path -> Path): Result<ZipEntry> {
    match ZipInfoOf(fs, path, arcname, normpath)
    case Err(e) => Err(e)
    case Ok(info) =>
      var obj := Stat(fs, path).value;
      Ok(ZipEntry(info.name, UnixSystem, info.attr, info.size, if obj.RegularFile? then obj.content else []))
  }

  /** Writing `pairs` of `(path, arcname)` in order: the entries written
      and how it ended; the first failing write stops it. */
  function WriteAllOf(fs: FileSystem, pairs: seq<(Path, Path)>, normpath: Path -> Path): (seq<ZipEntry>, Outcome) {
    if pairs == [] then ([], Pass)
    else
      var done := WriteAllOf(fs, pairs[..|pairs| - 1], normpath);
      var (path, arcname) := pairs[|pairs| - 1];
      if done.1.Fail? then done
      else match WriteEntry(fs, path, arcname, normpath)
        case Ok(e) => (done.0 + [e], Pass)
        case Err(err) => (done.0, Fail(err))
  }

  /** The writes of one walk step of a linked directory: each file under
      `target` joined with the step's relative root, or the empty
      directory itself. */
  function StepPairs(step: WalkStep, target: Path): seq<(Path, Path)> {
    var root2 := Join(target, step.rel);
    if step.dirs == [] && step.files == [] then [(step.root, root2)]
    else FilePairs(step.root, root2, step.files)
  }

  /** A file `f` of a step: read under `root`, written under `root2`. */
  function FilePair(root: Path, root2: Path, f: string): (Path, Path) {
    (Join(root, f), Join(root2, f))
  }

  /** `f` applied to each element of `xs`, in order. */
  function Each<T, U>(xs: seq<T>, f: T -> U): (r: seq<U>)
    ensures |r| == |xs|
  {
    if xs == [] then [] else Each(xs[..|xs| - 1], f) + [f(xs[|xs| - 1])]
  }

  /** The file writes of one step, in order. */
  function FilePairs(root: Path, root2: Path, files: seq<string>): seq<(Path, Path)> {
    Each(files, FilePairUnder(root, root2))
  }

  function FilePairUnder(root: Path, root2: Path): string -> (Path, Path) {
    f => FilePair(root, root2, f)
  }

  /** All writes of the walk of a linked directory. */
  function WalkPairs(walk: seq<WalkStep>, target: Path): seq<(Path, Path)> {
    Flatten(walk, StepPairsUnder(target))
  }

  function StepPairsUnder(target: Path): WalkStep -> seq<(Path, Path)> {
    step => StepPairs(step, target)
  }

  /** The sequences `f` gives for the elements of `xs`, concatenated. */
  function Flatten<T, U>(xs: seq<T>, f: T -> seq<U>): seq<U> {
    if xs == [] then [] else Flatten(xs[..|xs| - 1], f) + f(xs[|xs| - 1])
  }

  /** The entry `add_link` writes for a link when links are kept: the
      link's own mode, the directory flag when it resolves to a
      directory, and the link text as content. */
  function LinkEntry(fs: FileSystem, source: Path, link: Path, target: Path): Result<ZipEntry> {
    match LStatMode(fs, source)
    case None => Err(OSError(source))
    case Some(mode) =>
      var data := Encode(link);
      Ok(ZipEntry(target, UnixSystem, ExternalAttr(mode, IsDir(fs, source)), |data|, data))
  }

  /** What `ZipArchive.add(source, target)` writes. */
  function ZipAddOf(fs: FileSystem, source: Path, target: Path, zipSymlinks: bool, normpath: Path -> Path): (r: (seq<ZipEntry>, Outcome))
    ensures !(IsLink(fs, source) && IsDir(fs, source) && !zipSymlinks) ==> |r.0| <= 1 && (r.1.Pass? <==> |r.0| == 1)
    ensures IsLink(fs, source) && zipSymlinks && r.1.Pass? ==> r.0[0].name == target && r.0[0].content == Encode(fs[source].link)
    ensures IsLink(fs, source) && IsDir(fs, source) && !zipSymlinks ==>
      r == WriteAllOf(fs, WalkPairs(Stat(fs, source).value.walk, target), normpath)
    ensures !(IsLink(fs, source) && (zipSymlinks || IsDir(fs, source))) && r.1.Pass? ==>
      WriteEntry(fs, source, target, normpath).Ok? && r.0 == [WriteEntry(fs, source, target, normpath).value]
  {
    if IsLink(fs, source) && zipSymlinks then
      match LinkEntry(fs, source, fs[source].link, target)
      case Ok(e) => ([e], Pass)
      case Err(err) => ([], Fail(err))
    else if IsLink(fs, source) && IsDir(fs, source) then
      WriteAllOf(fs, WalkPairs(Stat(fs, source).value.walk, target), normpath)
    else
      WriteAllSingle(fs, (source, target), normpath);
      WriteAllOf(fs, [(source, target)], normpath)
  }

  /** A single write gives at most one entry, and one exactly when it
      succeeds: the entry of that write. */
  lemma WriteAllSingle(fs: FileSystem, pair: (Path, Path), normpath: Path -> Path)
    ensures var w := WriteAllOf(fs, [pair], normpath);
      |w.0| <= 1 && (w.1.Pass? <==> |w.0| == 1)
      && (w.1.Pass? ==> WriteEntry(fs, pair.0, pair.1, normpath).Ok? && w.0 == [WriteEntry(fs, pair.0, pair.1, normpath).value])
  {
    assert [pair][..0] == [];
    assert WriteAllOf(fs, [], normpath) == ([], Pass);
  }

  class ZipArchive {
    const zipSymlinks: bool
    const zip64: bool
    var entries: seq<ZipEntry>

    constructor(zipSymlinks: bool, zip64: bool)
      ensures this.zipSymlinks == zipSymlinks && this.zip64 == zip64 && entries == []
    {
      this.zipSymlinks := zipSymlinks;
      this.zip64 := zip64;
      entries := [];
    }

    /** `ZipFile.write(path, arcname)` */
    method Write(fs: FileSystem, path: Path, arcname: Path, normpath: Path -> Path) returns (r: Outcome)
      modifies this
      ensures var e := WriteEntry(fs, path, arcname, normpath);
        (e.Ok? ==> r == Pass && entries == old(entries) + [e.value])
        && (e.Err? ==> r == Fail(e.error) && entries == old(entries))
    {
      var info := ZipInfoFromFile(fs, path, arcname, normpath);
      if info.Err? {
        return Fail(info.error);
      }
      var obj := Stat(fs, path).value;
      var content := if obj.RegularFile? then obj.content else [];
      entries := entries + [ZipEntry(info.value.name, UnixSystem, info.value.attr, info.value.size, content)];
      return Pass;
    }

    /** Writes `pairs` in order, stopping at the first failure. */
    method WriteAll(fs: FileSystem, pairs: seq<(Path, Path)>, normpath: Path -> Path) returns (r: Outcome)
      modifies this
      ensures var w := WriteAllOf(fs, pairs, normpath);
        entries == old(entries) + w.0 && r == w.1
    {
      for i := 0 to |pairs|
        invariant WriteAllOf(fs, pairs[..i], normpath).1 == Pass
        invariant entries == old(entries) + WriteAllOf(fs, pairs[..i], normpath).0
      {
        WriteAllStep(fs, pairs, i, normpath);
        var written := Write(fs, pairs[i].0, pairs[i].1, normpath);
        if written.Fail? {
          WriteAllStops(fs, pairs, i + 1, normpath);
          return written;
        }
      }
      assert pairs[..|pairs|] == pairs;
      return Pass;
    }

    /** The entry for a kept link. */
    method WriteLink(fs: FileSystem, source: Path, link: Path, target: Path) returns (r: Outcome)
      modifies this
      ensures var e := LinkEntry(fs, source, link, target);
        (e.Ok? ==> r == Pass && entries == old(entries) + [e.value])
        && (e.Err? ==> r == Fail(e.error) && entries == old(entries))
    {
      var st := LStatMode(fs, source);
      if st.None? {
        return Fail(OSError(source));
      }
      var attr := UnixAttr(st.value);
      if IsDir(fs, source) {
        attr := attr | DosDirFlag;
      }
      var data := Encode(link);
      entries := entries + [ZipEntry(target, UnixSystem, attr, |data|, data)];
      return Pass;
    }

    /** `ZipArchive.add`: a link is kept as a link when links are enabled;
        otherwise a link to a directory is replaced by the files beneath
        it; anything else is written once. */
    method Add(fs: FileSystem, source: Path, target: Path, normpath: Path -> Path) returns (r: Outcome)
      modifies this
      ensures var w := ZipAddOf(fs, source, target, zipSymlinks, normpath);
        entries == old(entries) + w.0 && r == w.1
    {
      var isLink := IsLink(fs, source);
      if isLink {
        if zipSymlinks {
          r := WriteLink(fs, source, fs[source].link, target);
        } else if IsDir(fs, source) {
          var pairs := CollectWalkPairs(Stat(fs, source).value.walk, target);
          r := WriteAll(fs, pairs, normpath);
        } else {
          r := WriteAll(fs, [(source, target)], normpath);
        }
      } else {
        r := WriteAll(fs, [(source, target)], normpath);
      }
    }

    /** `ZipArchive.add_link`: without link support it is exactly `add`. */
    method AddLink(fs: FileSystem, source: Path, link: Path, target: Path, normpath: Path -> Path) returns (r: Outcome)
      modifies this
      ensures !zipSymlinks ==>
        var w := ZipAddOf(fs, source, target, zipSymlinks, normpath);
        entries == old(entries) + w.0 && r == w.1
      ensures zipSymlinks ==>
        var e := LinkEntry(fs, source, link, target);
        (e.Ok? ==> r == Pass && entries == old(entries) + [e.value])
        && (e.Err? ==> r == Fail(e.error) && entries == old(entries))
    {
      if !zipSymlinks {
        r := Add(fs, source, target, normpath);
        return;
      }
      r := WriteLink(fs, source, link, target);
    }

    /** `ZipArchive.add_bytes`: the header of `source` named after
        `target`, with the given bytes as content and size. */
    method AddBytes(fs: FileSystem, source: Path, data: Bytes, target: Path, normpath: Path -> Path) returns (r: Outcome)
      modifies this
      ensures var info := ZipInfoOf(fs, source, target, normpath);
        (info.Ok? ==>
           (r == Pass && entries == old(entries) + [ZipEntry(info.value.name, UnixSystem, info.value.attr, |data|, data)]))
        && (info.Err? ==> r == Fail(info.error) && entries == old(entries))
    {
      var info := ZipInfoFromFile(fs, source, target, normpath);
      if info.Err? {
        return Fail(info.error);
      }
      entries := entries + [ZipEntry(info.value.name, UnixSystem, info.value.attr, |data|, data)];
      return Pass;
    }
  }

  /** The write list of one walk step, built by the loop over its files. */
  method CollectStepPairs(step: WalkStep, target: Path) returns (pairs: seq<(Path, Path)>)
    ensures pairs == StepPairs(step, target)
  {
    var root2 := Join(target, step.rel);
    pairs := [];
    for i := 0 to |step.files|
      invariant pairs == FilePairs(step.root, root2, step.files[..i])
    {
      EachStep(step.files, i, FilePairUnder(step.root, root2));
      pairs := pairs + [FilePair(step.root, root2, step.files[i])];
    }
    assert step.files[..|step.files|] == step.files;
    if step.dirs == [] && step.files == [] {
      pairs := [(step.root, root2)];
    }
  }

  /** The write list of the walk of a linked directory. */
  method CollectWalkPairs(walk: seq<WalkStep>, target: Path) returns (pairs: seq<(Path, Path)>)
    ensures pairs == WalkPairs(walk, target)
  {
    pairs := [];
    for i := 0 to |walk|
      invariant pairs == WalkPairs(walk[..i], target)
    {
      assert walk[..i + 1][..i] == walk[..i];
      assert WalkPairs(walk[..i + 1], target) == WalkPairs(walk[..i], target) + StepPairs(walk[i], target);
      var more := CollectStepPairs(walk[i], target);
      pairs := pairs + more;
    }
    assert walk[..|walk|] == walk;
  }

  // ---------------------------------------------------------------------
  // Properties of the zip backend

  lemma WriteAllStep(fs: FileSystem, pairs: seq<(Path, Path)>, i: nat, normpath: Path -> Path)
    requires i < |pairs|
    ensures WriteAllOf(fs, pairs[..i + 1], normpath) ==
      var done := WriteAllOf(fs, pairs[..i], normpath);
      if done.1.Fail? then done
      else match WriteEntry(fs, pairs[i].0, pairs[i].1, normpath)
        case Ok(e) => (done.0 + [e], Pass)
        case Err(err) => (done.0, Fail(err))
  {
    assert pairs[..i + 1][..i] == pairs[..i];
  }

  /** Once a write fails, the remaining writes are skipped. */
  lemma {:induction false} WriteAllStops(fs: FileSystem, pairs: seq<(Path, Path)>, n: nat, normpath: Path -> Path)
    requires n <= |pairs| && WriteAllOf(fs, pairs[..n], normpath).1.Fail?
    ensures WriteAllOf(fs, pairs, normpath) == WriteAllOf(fs, pairs[..n], normpath)
    decreases |pairs| - n
  {
    if n < |pairs| {
      WriteAllStep(fs, pairs, n, normpath);
      WriteAllStops(fs, pairs, n + 1, normpath);
    } else {
      assert pairs[..n] == pairs;
    }
  }

  /** When every write succeeds there is one entry per write, in order,
      named after its normalised arcname. */
  lemma {:induction false} WriteAllOnePerPair(fs: FileSystem, pairs: seq<(Path, Path)>, normpath: Path -> Path)
    ensures var w := WriteAllOf(fs, pairs, normpath);
      w.1.Pass? ==>
        |w.0| == |pairs|
        && forall i :: 0 <= i < |pairs| ==>
             WriteEntry(fs, pairs[i].0, pairs[i].1, normpath) == Ok(w.0[i])
  {
    if pairs != [] {
      var init := pairs[..|pairs| - 1];
      WriteAllOnePerPair(fs, init, normpath);
      assert forall i :: 0 <= i < |init| ==> init[i] == pairs[i];
    }
  }

  lemma EachStep<T, U>(xs: seq<T>, i: nat, f: T -> U)
    requires i < |xs|
    ensures Each(xs[..i + 1], f) == Each(xs[..i], f) + [f(xs[i])]
  {
    assert xs[..i + 1][..i] == xs[..i];
  }

  /** The elements of `Each(xs, f)` are exactly the images of the
      elements of `xs`. */
  lemma {:induction false} EachMembers<T, U>(xs: seq<T>, f: T -> U, y: U)
    ensures y in Each(xs, f) <==> exists i :: 0 <= i < |xs| && y == f(xs[i])
  {
    if xs != [] {
      var n := |xs| - 1;
      var init := xs[..n];
      EachMembers(init, f, y);
      if y in Each(init, f) {
        var i :| 0 <= i < |init| && y == f(init[i]);
        assert init[i] == xs[i];
      } else if y != f(xs[n]) {
        forall i | 0 <= i < |xs|
          ensures y != f(xs[i])
        {
          if i < n {
            assert init[i] == xs[i];
          }
        }
      }
    }
  }

  /** The file writes of a step: each file under both roots. */
  lemma FilePairsMembers(root: Path, root2: Path, files: seq<string>, p: (Path, Path))
    ensures p in FilePairs(root, root2, files) <==>
      exists i :: 0 <= i < |files| && p == FilePair(root, root2, files[i])
  {
    EachMembers(files, FilePairUnder(root, root2), p);
  }

  /** The elements of `Flatten(xs, f)` are those of the sequences given
      for the elements of `xs`. */
  lemma {:induction false} FlattenMembers<T, U>(xs: seq<T>, f: T -> seq<U>, y: U)
    ensures y in Flatten(xs, f) <==> exists i :: 0 <= i < |xs| && y in f(xs[i])
  {
    if xs != [] {
      var n := |xs| - 1;
      var init := xs[..n];
      FlattenMembers(init, f, y);
      if y in Flatten(init, f) {
        var i :| 0 <= i < |init| && y in f(init[i]);
        assert init[i] == xs[i];
      } else if y !in f(xs[n]) {
        forall i | 0 <= i < |xs|
          ensures y !in f(xs[i])
        {
          if i < n {
            assert init[i] == xs[i];
          }
        }
      }
    }
  }

  /** What the walk of a linked directory writes: each file of a step,
      under `target` joined with the step's relative root, and each empty
      directory itself. */
  lemma WalkPairsMembers(walk: seq<WalkStep>, target: Path, p: (Path, Path))
    ensures p in WalkPairs(walk, target) <==>
      exists j :: 0 <= j < |walk| && p in StepPairs(walk[j], target)
  {
    FlattenMembers(walk, StepPairsUnder(target), p);
  }

  /** The writes of one step: the empty directory itself, or each of its
      files read under the step's root and written under `target` joined
      with the step's relative root. */
  lemma StepPairsMembers(step: WalkStep, target: Path, p: (Path, Path))
    ensures p in StepPairs(step, target) <==>
      if step.dirs == [] && step.files == [] then p == (step.root, Join(target, step.rel))
      else exists i :: 0 <= i < |step.files| && p == FilePair(step.root, Join(target, step.rel), step.files[i])
  {
    if step.dirs != [] || step.files != [] {
      FilePairsMembers(step.root, Join(target, step.rel), step.files, p);
    }
  }

  /** With links kept, adding a link writes exactly one entry, the
      link's own entry, and cannot fail. */
  lemma ZipLinkKept(fs: FileSystem, source: Path, target: Path, normpath: Path -> Path)
    requires IsLink(fs, source)
    ensures LinkEntry(fs, source, fs[source].link, target).Ok?
    ensures ZipAddOf(fs, source, target, true, normpath) == ([LinkEntry(fs, source, fs[source].link, target).value], Pass)
  {
  }

  /** A link's entry: named after the target, holding the link text, with
      the link's own mode and the directory flag iff the link resolves to
      a directory. */
  lemma LinkEntryShape(fs: FileSystem, source: Path, link: Path, target: Path)
    requires IsLink(fs, source)
    ensures LinkEntry(fs, source, link, target).Ok?
    ensures var e := LinkEntry(fs, source, link, target).value;
      e.name == target && e.createSystem == UnixSystem && e.content == Encode(link) && e.size == |e.content|
      && e.attr == ExternalAttr(fs[source].mode, IsDir(fs, source))
  {
  }
}

=== FILE: fs.dfy ===
/** What the core reads from the file system, as plain values: `os.walk`
    listings, `os.lstat`/`os.stat` results, `os.readlink`, and file contents.
    The packer and the archive backends look paths up in a `FileSystem`
    map instead of touching a disk. */
module Fs {
  import opened Common

  /** A sub-directory name reported by `os.walk`, and whether it is a
      symbolic link (`os.path.islink(join(root, d))`). */
  datatype SubDir = SubDir(name: string, isLink: bool)

  /** One `(root, dirs, files)` triple of `os.walk`; `rel` is
      `os.path.relpath(root, top)` for the directory the walk started at. */
  datatype WalkStep = WalkStep(root: Path, rel: Path, dirs: seq<SubDir>, files: seq<string>)

  /** What a path denotes once symbolic links are followed (`os.stat`). A
      directory carries the walk `os.walk(path, followlinks=True)` makes. */
  datatype Object =
    | RegularFile(mode: bv32, content: Bytes)
    | Directory(mode: bv32, walk: seq<WalkStep>)

  /** What `os.lstat` sees at a path: a plain object, or a symbolic link
      with its own mode, its `os.readlink` text and what it resolves to
      (`None` when it dangles). */
  datatype Node =
    | Plain(obj: Object)
    | Symlink(mode: bv32, link: Path, resolved: Option<Object>)

  type FileSystem = map<Path, Node>

  /** `os.path.islink` */
  predicate IsLink(fs: FileSystem, p: Path) {
    p in fs && fs[p].Symlink?
  }

  /** `os.stat(p)`: follows a symbolic link; `None` when that raises. */
  function Stat(fs: FileSystem, p: Path): Option<Object> {
    if p !in fs then None
    else match fs[p]
      case Plain(o) => Some(o)
      case Symlink(_, _, res) => res
  }

  /** `os.path.isdir` (follows links). */
  predicate IsDir(fs: FileSystem, p: Path) {
    Stat(fs, p).Some? && Stat(fs, p).value.Directory?
  }

  /** `os.lstat(p).st_mode`; `None` when `lstat` raises. */
  function LStatMode(fs: FileSystem, p: Path): Option<bv32> {
    if p !in fs then None
    else match fs[p]
      case Plain(o) => Some(o.mode)
      case Symlink(m, _, _) => Some(m)
  }

  /** `open(p, 'rb').read()`: the content of the regular file `p` resolves
      to; opening a directory or a missing path raises. */
  function ReadBytes(fs: FileSystem, p: Path): (r: Result<Bytes>)
    ensures r.Ok? <==> Stat(fs, p).Some? && Stat(fs, p).value.RegularFile?
  {
    match Stat(fs, p)
    case Some(RegularFile(_, content)) => Ok(content)
    case _ => Err(OSError(p))
  }
}

=== FILE: manifest.dfy ===
/** The file list of `load_environment` in venv_pack/core.py: every entry
    of the environment directory is listed, directories are walked (files,
    empty directories and links to directories are kept, other directories
    are only descended into), and the result is filtered by a drop list
    before becoming `File` records. The listing of the prefix is a value:
    a file or link by name, a directory with the walk `os.walk` makes of
    it. */
module Manifest {
  import opened Common
  import opened Paths
  import opened Environment
  import opened Fs
  import opened Discovery
  import opened Editable

  /** One name of `os.listdir(prefix)`: a file or a link (`isfile` or
      `islink`) is listed as is; anything else is walked. */
  datatype TopEntry = Leaf(name: string) | Tree(name: string, walk: seq<WalkStep>)

  /** `xs` mapped through `f` and flattened, in order. */
  function FlatMap<T>(xs: seq<T>, f: T -> seq<Path>): seq<Path> {
    if xs == [] then [] else FlatMap(xs[..|xs| - 1], f) + f(xs[|xs| - 1])
  }

  /** A file of a walk step is listed under the step's relative root. */
  function FileEntry(rel: Path): string -> seq<Path> {
    f => [Join(rel, f)]
  }

  /** A sub-directory is listed only when it is a symbolic link. */
  function LinkEntry(rel: Path): SubDir -> seq<Path> {
    (d: SubDir) => if d.isLink then [Join(rel, d.name)] else []
  }

  /** `relpath(root, prefix)` for a step of the walk started at
      `join(prefix, name)`: the top directory is `name` itself, a
      directory below it is `rel` (relative to the top) under `name`. */
  function RootUnder(name: Path, rel: Path): Path {
    if rel == "." then name else Join(name, rel)
  }

  /** What one `(root, dirs, files)` step adds, `root2` being its root
      relative to the prefix: an empty directory itself, or its files
      followed by its linked sub-directories. */
  function StepPaths(root2: Path, step: WalkStep): seq<Path> {
    if step.dirs == [] && step.files == [] then [root2]
    else FlatMap(step.files, FileEntry(root2)) + FlatMap(step.dirs, LinkEntry(root2))
  }

  /** The steps of the walk of top-level directory `name`, each listed
      under its root relative to the prefix. */
  function StepsUnder(name: Path): WalkStep -> seq<Path> {
    (step: WalkStep) => StepPaths(RootUnder(name, step.rel), step)
  }

  /** What one top-level entry adds. */
  function EntryPaths(e: TopEntry): seq<Path> {
    match e
    case Leaf(name) => [name]
    case Tree(name, walk) => FlatMap(walk, StepsUnder(name))
  }

  /** The list `res` of `load_environment`. */
  function Collected(entries: seq<TopEntry>): seq<Path> {
    FlatMap(entries, EntryPaths)
  }

  /** The activation scripts, which are never archived (`BinDir` joined
      with each script name). */
  const ActivateScripts: set<Path> := {"bin/activate", "bin/activate.csh", "bin/activate.fish"}

  /** The `remove` set: the activation scripts and the absolute path of the
      file that records the original interpreter. */
  function RemoveSet(ctx: Context): (r: set<Path>)
    ensures exists q :: (r == ActivateScripts + {q}
      && EndsWith(q, if ctx.kind == Virtualenv then "orig-prefix.txt" else "pyvenv.cfg"))
  {
    var q := if ctx.kind == Virtualenv then Join(Join(ctx.prefix, ctx.pyLib), "orig-prefix.txt")
             else Join(ctx.prefix, "pyvenv.cfg");
    ActivateScripts + {q}
  }

  /** The drop filter: a listed path is kept unless it is in `remove` or
      is a backup (`~`) or Finder (`.DS_STORE`) file. */
  predicate Kept(p: Path, remove: set<Path>) {
    !(p in remove || EndsWith(p, "~") || EndsWith(p, ".DS_STORE"))
  }

  /** The `files` list: a record per kept path, in listing order. */
  function ManifestOf(prefix: Path, paths: seq<Path>, remove: set<Path>): (r: seq<File>)
    ensures |r| <= |paths|
    ensures (forall p :: p in paths ==> Kept(p, remove)) ==> |r| == |paths|
  {
    if paths == [] then []
    else
      var p := paths[|paths| - 1];
      assert forall x :: x in paths[..|paths| - 1] ==> x in paths;
      ManifestOf(prefix, paths[..|paths| - 1], remove) + (if Kept(p, remove) then [File(Join(prefix, p), p)] else [])
  }

  // ---------------------------------------------------------------------
  // The walk

  lemma FlatMapStep<T>(xs: seq<T>, f: T -> seq<Path>, i: nat)
    requires i < |xs|
    ensures FlatMap(xs[..i + 1], f) == FlatMap(xs[..i], f) + f(xs[i])
  {
    assert xs[..i + 1][..i] == xs[..i];
  }

  /** A path is in the flattened listing iff some element contributes it. */
  lemma {:induction false} FlatMapMembers<T>(xs: seq<T>, f: T -> seq<Path>, p: Path)
    ensures p in FlatMap(xs, f) <==> exists i :: 0 <= i < |xs| && p in f(xs[i])
  {
    if xs != [] {
      var init := xs[..|xs| - 1];
      FlatMapMembers(init, f, p);
      assert forall i :: 0 <= i < |init| ==> init[i] == xs[i];
    }
  }

  /** `res.extend(join(root2, fn2) for fn2 in files)` */
  method CollectFiles(rel: Path, files: seq<string>) returns (res: seq<Path>)
    ensures res == FlatMap(files, FileEntry(rel))
  {
    res := [];
    for i := 0 to |files|
      invariant res == FlatMap(files[..i], FileEntry(rel))
    {
      FlatMapStep(files, FileEntry(rel), i);
      res := res + [Join(rel, files[i])];
    }
    assert files[..|files|] == files;
  }

  /** The loop over the sub-directories of one step: a symbolic link is
      listed, a real directory is left to the walk. */
  method CollectLinks(rel: Path, dirs: seq<SubDir>) returns (res: seq<Path>)
    ensures res == FlatMap(dirs, LinkEntry(rel))
  {
    res := [];
    for i := 0 to |dirs|
      invariant res == FlatMap(dirs[..i], LinkEntry(rel))
    {
      FlatMapStep(dirs, LinkEntry(rel), i);
      if dirs[i].isLink {
        res := res + [Join(rel, dirs[i].name)];
      }
    }
    assert dirs[..|dirs|] == dirs;
  }

  /** One `(root, dirs, files)` step of the walk, `root2` being its root
      relative to the prefix. */
  method CollectStep(root2: Path, step: WalkStep) returns (res: seq<Path>)
    ensures res == StepPaths(root2, step)
  {
    if step.dirs == [] && step.files == [] {
      return [root2];
    }
    var files := CollectFiles(root2, step.files);
    var links := CollectLinks(root2, step.dirs);
    res := files + links;
  }

  /** The `os.walk` loop over top-level directory `name`. */
  method CollectWalk(name: Path, walk: seq<WalkStep>) returns (res: seq<Path>)
    ensures res == FlatMap(walk, StepsUnder(name))
  {
    res := [];
    for i := 0 to |walk|
      invariant res == FlatMap(walk[..i], StepsUnder(name))
    {
      FlatMapStep(walk, StepsUnder(name), i);
      var root2 := RootUnder(name, walk[i].rel);
      var found := CollectStep(root2, walk[i]);
      res := res + found;
    }
    assert walk[..|walk|] == walk;
  }

  /** The loop over the top-level listing. */
  method CollectAll(entries: seq<TopEntry>) returns (res: seq<Path>)
    ensures res == Collected(entries)
  {
    res := [];
    for i := 0 to |entries|
      invariant res == Collected(entries[..i])
    {
      FlatMapStep(entries, EntryPaths, i);
      match entries[i]
      case Leaf(name) =>
        res := res + [name];
      case Tree(name, walk) =>
        var found := CollectWalk(name, walk);
        res := res + found;
    }
    assert entries[..|entries|] == entries;
  }

  /** `load_environment`: detect the environment, refuse editable packages,
      list the environment and drop what must not be archived. `listdir`
      gives the listing of a directory together with its walks. */
  method LoadEnvironment(prefix: Option<Path>, host: Host, disk: Disk, listdir: Path -> seq<TopEntry>)
    returns (r: Result<(Context, seq<File>)>)
    ensures CheckPrefix(prefix, host, disk).Err? ==> r == Err(CheckPrefix(prefix, host, disk).error)
    ensures CheckPrefix(prefix, host, disk).Ok? ==>
      var ctx := CheckPrefix(prefix, host, disk).value;
      var editable := EditableAll(ctx, disk, Glob(disk, PthPattern(ctx)), host.normpath);
      (editable.Err? ==> r == Err(editable.error))
      && (editable.Ok? && editable.value != {} ==>
            exists s :: SortedListing(s, editable.value) && r == Err(VenvPackError(EditableMessage(s))))
      && (editable.Ok? && editable.value == {} ==>
            r == Ok((ctx, ManifestOf(ctx.prefix, Collected(listdir(ctx.prefix)), RemoveSet(ctx)))))
  {
    var checked := CheckPrefix(prefix, host, disk);
    if checked.Err? {
      return Err(checked.error);
    }
    var ctx := checked.value;
    var outcome := CheckNoEditablePackages(ctx, disk, host.normpath);
    if outcome.Fail? {
      return Err(outcome.error);
    }
    var remove := RemoveSet(ctx);
    var res := CollectAll(listdir(ctx.prefix));
    return Ok((ctx, ManifestOf(ctx.prefix, res, remove)));
  }

  /** `Env.__init__`: the loaded environment, with nothing excluded. */
  method NewEnv(prefix: Option<Path>, host: Host, disk: Disk, listdir: Path -> seq<TopEntry>) returns (r: Result<Env>)
    ensures CheckPrefix(prefix, host, disk).Err? ==> r == Err(CheckPrefix(prefix, host, disk).error)
    ensures r.Ok? <==>
      (CheckPrefix(prefix, host, disk).Ok?
       && EditableAll(CheckPrefix(prefix, host, disk).value, disk,
                      Glob(disk, PthPattern(CheckPrefix(prefix, host, disk).value)), host.normpath) == Ok({}))
    ensures r.Ok? ==>
      var ctx := CheckPrefix(prefix, host, disk).value;
      r.value == Env(ctx, ManifestOf(ctx.prefix, Collected(listdir(ctx.prefix)), RemoveSet(ctx)), [])
    ensures CheckPrefix(prefix, host, disk).Ok? ==>
      var ctx := CheckPrefix(prefix, host, disk).value;
      var editable := EditableAll(ctx, disk, Glob(disk, PthPattern(ctx)), host.normpath);
      (editable.Err? ==> r == Err(editable.error))
      && (editable.Ok? && editable.value != {} ==>
            exists s :: SortedListing(s, editable.value) && r == Err(VenvPackError(EditableMessage(s))))
  {
    var loaded := LoadEnvironment(prefix, host, disk, listdir);
    if loaded.Err? {
      return Err(loaded.error);
    }
    var (ctx, files) := loaded.value;
    return Ok(Env(ctx, files, []));
  }

  // ---------------------------------------------------------------------
  // Properties of the listing and of the drop filter

  /** What a walk step lists: an empty directory is listed itself; a
      non-empty one lists each of its files and each linked
      sub-directory, and nothing else. */
  lemma StepListing(root2: Path, step: WalkStep, p: Path)
    ensures p in StepPaths(root2, step) <==>
      (if step.dirs == [] && step.files == [] then p == root2
       else ((exists i :: 0 <= i < |step.files| && p == Join(root2, step.files[i]))
             || (exists i :: 0 <= i < |step.dirs| && step.dirs[i].isLink && p == Join(root2, step.dirs[i].name))))
  {
    FlatMapMembers(step.files, FileEntry(root2), p);
    FlatMapMembers(step.dirs, LinkEntry(root2), p);
  }

  /** A path is listed iff a top-level file or link has that name, or some
      step of the walk of some top-level directory `name` lists it under
      its root relative to the prefix. */
  lemma CollectedListing(entries: seq<TopEntry>, p: Path)
    ensures p in Collected(entries) <==>
      exists i :: 0 <= i < |entries| &&
        match entries[i]
        case Leaf(name) => p == name
        case Tree(name, walk) => exists j :: 0 <= j < |walk| && p in StepPaths(RootUnder(name, walk[j].rel), walk[j])
  {
    FlatMapMembers(entries, EntryPaths, p);
    forall i | 0 <= i < |entries| && entries[i].Tree?
      ensures p in EntryPaths(entries[i]) <==>
        exists j :: 0 <= j < |entries[i].walk| &&
          p in StepPaths(RootUnder(entries[i].name, entries[i].walk[j].rel), entries[i].walk[j])
    {
      FlatMapMembers(entries[i].walk, StepsUnder(entries[i].name), p);
    }
  }

  /** An empty top-level directory is listed by its own name: the step at
      the top of its walk (`rel` is ".") has `relpath(root, prefix)` equal
      to that name. An empty directory below it is listed as `name/rel`. */
  lemma EmptyDirectoryListed(name: Path, walk: seq<WalkStep>, j: nat)
    requires j < |walk| && walk[j].dirs == [] && walk[j].files == []
    ensures walk[j].rel == "." ==> name in EntryPaths(Tree(name, walk))
    ensures walk[j].rel != "." ==> Join(name, walk[j].rel) in EntryPaths(Tree(name, walk))
  {
    FlatMapMembers(walk, StepsUnder(name), RootUnder(name, walk[j].rel));
  }

  /** The drop filter keeps order and exactly the kept paths, each with its
      absolute source. */
  lemma {:induction false} ManifestMembers(prefix: Path, paths: seq<Path>, remove: set<Path>, f: File)
    ensures f in ManifestOf(prefix, paths, remove) <==>
      f.target in paths && Kept(f.target, remove) && f.source == Join(prefix, f.target)
  {
    if paths != [] {
      var init := paths[..|paths| - 1];
      ManifestMembers(prefix, init, remove, f);
      assert paths == init + [paths[|paths| - 1]];
    }
  }

  /** The drop filter distributes over concatenation, so it keeps the
      listing order. */
  lemma {:induction false} ManifestAppend(prefix: Path, a: seq<Path>, b: seq<Path>, remove: set<Path>)
    ensures ManifestOf(prefix, a + b, remove) == ManifestOf(prefix, a, remove) + ManifestOf(prefix, b, remove)
    decreases |b|
  {
    if b == [] {
      assert a + b == a;
    } else {
      assert (a + b)[..|a + b| - 1] == a + b[..|b| - 1];
      ManifestAppend(prefix, a, b[..|b| - 1], remove);
    }
  }

  /** Joining a relative name onto an absolute directory gives an
      absolute path. */
  lemma JoinAbsolute(a: Path, b: Path)
    requires IsAbs(a) && !IsAbs(b)
    ensures IsAbs(Join(a, b))
  {
    assert Join(a, b)[..1] == a[..1];
  }

  /** Joining two relative paths gives a relative path. */
  lemma JoinRelative(a: Path, b: Path)
    requires !IsAbs(a) && !IsAbs(b)
    ensures !IsAbs(Join(a, b))
  {
    if a != [] {
      assert Join(a, b)[..1] == a[..1];
    }
  }

  /** The `remove` set mixes relative and absolute paths, and the listing
      holds relative paths only: for an absolute prefix, a relative path
      is removed iff it is an activation script. */
  lemma AbsoluteRemovalsNeverMatch(ctx: Context, p: Path)
    requires IsAbs(ctx.prefix) && !IsAbs(p)
    ensures p in RemoveSet(ctx) <==> p in ActivateScripts
  {
    assert !IsAbs("orig-prefix.txt") by { assert "orig-prefix.txt"[..1] == "o"; }
    assert !IsAbs("pyvenv.cfg") by { assert "pyvenv.cfg"[..1] == "p"; }
    if ctx.kind == Virtualenv {
      if IsAbs(ctx.pyLib) {
        JoinAbsolute(ctx.pyLib, "orig-prefix.txt");
      } else {
        JoinAbsolute(ctx.prefix, ctx.pyLib);
        JoinAbsolute(Join(ctx.prefix, ctx.pyLib), "orig-prefix.txt");
      }
    } else {
      JoinAbsolute(ctx.prefix, "pyvenv.cfg");
    }
  }

  /** A path ending in `ending` ends in the last character of `ending`. */
  lemma EndsWithLastChar(p: Path, ending: Path)
    requires EndsWith(p, ending) && |ending| > 0
    ensures |p| > 0 && p[|p| - 1] == ending[|ending| - 1]
  {
    assert p[|p| - |ending|..][|ending| - 1] == p[|p| - 1];
  }

  /** A path whose last character is neither `~` nor `E` is not a backup
      or Finder file. */
  lemma NoBackupSuffix(p: Path)
    requires |p| > 0 && p[|p| - 1] != '~' && p[|p| - 1] != 'E'
    ensures !EndsWith(p, "~") && !EndsWith(p, ".DS_STORE")
  {
    var c := p[|p| - 1];
    assert p[|p| - 1..] == [c];
    if |p| >= 9 {
      assert p[|p| - 9..][8] == c;
    }
  }

  /** The activation scripts end in `e` or `h`. */
  lemma NotAnActivateScript(p: Path)
    requires |p| > 0 && p[|p| - 1] != 'e' && p[|p| - 1] != 'h'
    ensures p !in ActivateScripts
  {
    assert "bin/activate"[11] == 'e' && "bin/activate.csh"[15] == 'h' && "bin/activate.fish"[16] == 'h';
  }

  /** Consequently the `pyvenv.cfg` of a `venv` environment survives the
      drop filter and is archived. */
  lemma VenvConfigKept(ctx: Context)
    requires IsAbs(ctx.prefix) && ctx.kind == Venv
    ensures Kept("pyvenv.cfg", RemoveSet(ctx))
  {
    assert !IsAbs("pyvenv.cfg") by { assert "pyvenv.cfg"[..1] == "p"; }
    AbsoluteRemovalsNeverMatch(ctx, "pyvenv.cfg");
    assert "pyvenv.cfg"[9] == 'g';
    NoBackupSuffix("pyvenv.cfg");
    NotAnActivateScript("pyvenv.cfg");
  }

  /** Likewise the `<py_lib>/orig-prefix.txt` of a `virtualenv`
      environment survives the drop filter. */
  lemma VirtualenvOriginKept(ctx: Context)
    requires IsAbs(ctx.prefix) && !IsAbs(ctx.pyLib) && ctx.kind == Virtualenv
    ensures Kept(Join(ctx.pyLib, "orig-prefix.txt"), RemoveSet(ctx))
  {
    var origin := Join(ctx.pyLib, "orig-prefix.txt");
    assert !IsAbs("orig-prefix.txt") by { assert "orig-prefix.txt"[..1] == "o"; }
    JoinRelative(ctx.pyLib, "orig-prefix.txt");
    AbsoluteRemovalsNeverMatch(ctx, origin);
    EndsWithLastChar(origin, "orig-prefix.txt");
    NoBackupSuffix(origin);
    NotAnActivateScript(origin);
  }
}

=== FILE: output_format.dfy ===
/** `Env._output_and_format` of venv_pack/core.py: the archive format is
    taken from the explicit `format` argument, or inferred from the output
    file's extension, or defaults to `tar.gz`; the output path defaults to
    the environment name plus the format's extension. */
module OutputFormat {
  import opened Common
  import opened Paths
  import opened Environment

  /** The formats `pack` accepts besides `infer`. */
  const Formats: set<string> := {"zip", "tar.gz", "tgz", "tar.bz2", "tbz2", "tar"}

  /** Extension to format, as the inference reads it. */
  const ExtensionTable: seq<(string, string)> :=
    [(".zip", "zip"), (".tar.gz", "tar.gz"), (".tgz", "tar.gz"),
     (".tar.bz2", "tar.bz2"), (".tbz2", "tar.bz2"), (".tar", "tar")]

  function OutputAndFormat(env: Env, output: Option<Path>, format: string): (r: Result<(Path, string)>)
    ensures r.Ok? ==> r.value.1 in Formats
    ensures r.Ok? && output.Some? ==> r.value.0 == output.value
    ensures r.Ok? && output.None? ==> r.value.0 == Name(env) + "." + r.value.1
    ensures format != "infer" ==> (r.Ok? <==> format in Formats) && (r.Ok? ==> r.value.1 == format)
    ensures output.None? && format == "infer" ==> r == Ok((Name(env) + "." + "tar.gz", "tar.gz"))
    ensures r.Err? ==> r.error.VenvPackError?
  {
    var chosen :=
      if output.None? && format == "infer" then Ok("tar.gz")
      else if format == "infer" then
        var o := output.value;
        if EndsWith(o, ".zip") then Ok("zip")
        else if EndsWith(o, ".tar.gz") || EndsWith(o, ".tgz") then Ok("tar.gz")
        else if EndsWith(o, ".tar.bz2") || EndsWith(o, ".tbz2") then Ok("tar.bz2")
        else if EndsWith(o, ".tar") then Ok("tar")
        else Err(VenvPackError("Unknown file extension " + Repr(o)))
      else if format !in Formats then Err(VenvPackError("Unknown format " + Repr(format)))
      else Ok(format);
    match chosen
    case Err(e) => Err(e)
    case Ok(f) => Ok((if output.None? then Name(env) + "." + f else output.value, f))
  }

  /** The output checks `Env.pack` makes before writing anything: the
      output path and format, and an existing output is refused unless
      `force` is set. `pathExists` stands for `os.path.exists`. */
  function PackTarget(env: Env, output: Option<Path>, format: string, force: bool, pathExists: Path -> bool): (r: Result<(Path, string)>)
    ensures r.Ok? <==> OutputAndFormat(env, output, format).Ok?
                       && (force || !pathExists(OutputAndFormat(env, output, format).value.0))
    ensures r.Ok? ==> r == OutputAndFormat(env, output, format)
    ensures OutputAndFormat(env, output, format).Ok? && r.Err? ==>
      r.error == VenvPackError("File " + Repr(OutputAndFormat(env, output, format).value.0) + " already exists")
  {
    match OutputAndFormat(env, output, format)
    case Err(e) => Err(e)
    case Ok((path, f)) =>
      if pathExists(path) && !force then Err(VenvPackError("File " + Repr(path) + " already exists"))
      else Ok((path, f))
  }

  /** A suffix fixes the last character. */
  lemma EndsWithLast(s: string, p: string)
    requires |p| > 0 && EndsWith(s, p)
    ensures s[|s| - 1] == p[|p| - 1]
  {
    assert s[|s| - |p|..][|p| - 1] == s[|s| - 1];
  }

  /** With `infer`, an output path ending in an extension of the table
      gets that extension's format, whatever the order of the checks. */
  lemma InferFromExtension(env: Env, o: Path, i: nat)
    requires i < |ExtensionTable| && EndsWith(o, ExtensionTable[i].0)
    ensures OutputAndFormat(env, Some(o), "infer") == Ok((o, ExtensionTable[i].1))
  {
    var ext := ExtensionTable[i].0;
    EndsWithLast(o, ext);
    var last := o[|o| - 1];
    if i == 0 {
      assert last == 'p';
    } else {
      assert !EndsWith(o, ".zip") by { if EndsWith(o, ".zip") { EndsWithLast(o, ".zip"); } }
      if i <= 2 {
        assert last == 'z';
      } else {
        assert !EndsWith(o, ".tar.gz") by { if EndsWith(o, ".tar.gz") { EndsWithLast(o, ".tar.gz"); } }
        assert !EndsWith(o, ".tgz") by { if EndsWith(o, ".tgz") { EndsWithLast(o, ".tgz"); } }
        if i == 5 {
          assert last == 'r';
          assert !EndsWith(o, ".tar.bz2") by { if EndsWith(o, ".tar.bz2") { EndsWithLast(o, ".tar.bz2"); } }
          assert !EndsWith(o, ".tbz2") by { if EndsWith(o, ".tbz2") { EndsWithLast(o, ".tbz2"); } }
        }
      }
    }
  }

  /** With `infer`, an output path that ends in none of the table's
      extensions is refused. */
  lemma InferUnknownExtension(env: Env, o: Path)
    requires forall i :: 0 <= i < |ExtensionTable| ==> !EndsWith(o, ExtensionTable[i].0)
    ensures OutputAndFormat(env, Some(o), "infer").Err?
  {
    assert !EndsWith(o, ExtensionTable[0].0) && !EndsWith(o, ExtensionTable[1].0);
    assert !EndsWith(o, ExtensionTable[2].0) && !EndsWith(o, ExtensionTable[3].0);
    assert !EndsWith(o, ExtensionTable[4].0) && !EndsWith(o, ExtensionTable[5].0);
  }

  /** The default output name of a format is read back as that format (the
      four canonical spellings). */
  lemma DefaultNameRoundTrip(env: Env, f: string)
    requires f in {"zip", "tar.gz", "tar.bz2", "tar"}
    ensures OutputAndFormat(env, None, f) == Ok((Name(env) + "." + f, f))
    ensures OutputAndFormat(env, Some(Name(env) + "." + f), "infer") == Ok((Name(env) + "." + f, f))
  {
    var o := Name(env) + "." + f;
    var i := if f == "zip" then 0 else if f == "tar.gz" then 1 else if f == "tar.bz2" then 3 else 5;
    assert ExtensionTable[i].0 == "." + f;
    assert o[|o| - |"." + f|..] == "." + f;
    InferFromExtension(env, o, i);
  }
}

=== FILE: paths.dfy ===
/** POSIX path and text helpers with the semantics of Python's `os.path`
    (`join`, `dirname`, `basename`, `isabs`) and of `str` (`strip`,
    `rstrip`, `lower`, `split('/')`, `encode('utf-8')`). `normpath` is not
    defined here: the callers receive it as a function parameter. */
module Paths {
  import opened Common

  /** `os.path.isabs` on POSIX. */
  predicate IsAbs(p: Path) {
    StartsWith(p, "/")
  }

  /** `os.path.join(a, b)` on POSIX: an absolute `b` discards `a`, otherwise
      exactly one `/` separates the two unless `a` is empty or already ends
      with one. */
  function Join(a: Path, b: Path): (r: Path)
    ensures !IsAbs(b) ==> StartsWith(r, a)
    ensures EndsWith(r, b)
  {
    if IsAbs(b) then b
    else if a == [] || EndsWith(a, "/") then a + b
    else a + "/" + b
  }

  /** The index just past the last `/` of `p`, 0 when there is none (the
      `rfind('/') + 1` of `os.path.basename` and `os.path.dirname`). */
  function AfterLastSep(p: Path): (i: nat)
    ensures i <= |p|
    ensures i > 0 ==> p[i - 1] == '/'
    ensures forall k :: i <= k < |p| ==> p[k] != '/'
  {
    if p == [] then 0
    else if p[|p| - 1] == '/' then |p|
    else AfterLastSep(p[..|p| - 1])
  }

  /** `os.path.basename`: everything after the last `/`. */
  function Basename(p: Path): (r: Path)
    ensures '/' !in r
    ensures EndsWith(p, r)
  {
    p[AfterLastSep(p)..]
  }

  /** Drops trailing `/` characters (`s.rstrip('/')`). */
  function RStripSlashes(s: Path): (r: Path)
    ensures StartsWith(s, r)
    ensures r == [] || r[|r| - 1] != '/'
  {
    if s != [] && s[|s| - 1] == '/' then RStripSlashes(s[..|s| - 1]) else s
  }

  /** `os.path.dirname`: everything up to the last `/`, with its trailing
      slashes removed unless it consists of slashes only. */
  function Dirname(p: Path): (r: Path)
    ensures StartsWith(p, r)
  {
    var head := p[..AfterLastSep(p)];
    if head != [] && RStripSlashes(head) != [] then RStripSlashes(head) else head
  }

  /** The code points Python's `str.isspace` accepts: what `strip()` and
      `rstrip()` without arguments remove. */
  predicate IsSpace(c: char) {
    var n := c as int;
    (0x09 <= n <= 0x0D) || (0x1C <= n <= 0x20) || n == 0x85 || n == 0xA0
    || n == 0x1680 || (0x2000 <= n <= 0x200A) || n == 0x2028 || n == 0x2029
    || n == 0x202F || n == 0x205F || n == 0x3000
  }

  /** `s.rstrip()` */
  function RStrip(s: string): (r: string)
    ensures StartsWith(s, r)
    ensures r == [] || !IsSpace(r[|r| - 1])
  {
    if s != [] && IsSpace(s[|s| - 1]) then RStrip(s[..|s| - 1]) else s
  }

  /** `rstrip` removes white space only. */
  lemma {:induction false} RStripRemovesSpaces(s: string)
    ensures forall k :: |RStrip(s)| <= k < |s| ==> IsSpace(s[k])
  {
    if s != [] && IsSpace(s[|s| - 1]) {
      RStripRemovesSpaces(s[..|s| - 1]);
    }
  }

  /** `s.lstrip()` */
  function LStrip(s: string): (r: string)
    ensures EndsWith(s, r)
    ensures r == [] || !IsSpace(r[0])
  {
    if s != [] && IsSpace(s[0]) then
      var r := LStrip(s[1..]);
      assert s[1..][|s| - 1 - |r|..] == s[|s| - |r|..];
      r
    else s
  }

  /** `s.strip()` */
  function Strip(s: string): (r: string)
    ensures r == [] || (!IsSpace(r[0]) && !IsSpace(r[|r| - 1]))
  {
    LStrip(RStrip(s))
  }

  /** `s.lower()` restricted to ASCII letters. */
  function LowerAscii(s: string): (r: string)
    ensures |r| == |s|
  {
    if s == [] then []
    else [if 'A' <= s[0] <= 'Z' then (s[0] as int + 32) as char else s[0]] + LowerAscii(s[1..])
  }

  /** The UTF-8 encoding of one code point. */
  function EncodeChar(c: char): (r: Bytes)
    ensures 1 <= |r| <= 4
    ensures c as int < 0x80 ==> r == [c as int as byte]
  {
    var n := c as int;
    if n < 0x80 then [n as byte]
    else if n < 0x800 then [(0xC0 + n / 0x40) as byte, (0x80 + n % 0x40) as byte]
    else if n < 0x1_0000 then
      [(0xE0 + n / 0x1000) as byte, (0x80 + n / 0x40 % 0x40) as byte, (0x80 + n % 0x40) as byte]
    else
      [(0xF0 + n / 0x4_0000) as byte, (0x80 + n / 0x1000 % 0x40) as byte,
       (0x80 + n / 0x40 % 0x40) as byte, (0x80 + n % 0x40) as byte]
  }

  /** `s.encode('utf-8')` */
  function Encode(s: string): (r: Bytes)
    ensures |r| >= |s|
  {
    if s == [] then [] else EncodeChar(s[0]) + Encode(s[1..])
  }

  /** Python's `%r` of a string, without the escaping of quotes and
      control characters. */
  function Repr(s: string): string {
    "'" + s + "'"
  }
}

=== FILE: relocation.dfy ===
/** The relocation engine of venv_pack/core.py: `check_python_prefix`
    turns a new interpreter prefix into link-rewrite rules, and `Packer`
    feeds each environment file to the archive, re-pointing links into the
    old interpreter, rewriting shebangs of `bin` scripts, and finally
    adding the activation scripts and the file that names the
    interpreter. The archive is recorded as the sequence of calls made on
    it. */
module Relocation {
  import opened Common
  import opened Paths
  import opened Environment
  import opened Fs
  import opened Shebang

  /** One `(orig, new)` pair of `rewrites`: a link target starting with
      `orig` has `orig` replaced by `replacement`. */
  datatype Rule = Rule(orig: Path, replacement: Path)

  /** A call on the archive backend. */
  datatype ArchiveCall =
    | Add(source: Path, target: Path)
    | AddBytes(source: Path, data: Bytes, target: Path)
    | AddLink(source: Path, link: Path, target: Path)

  /** The rules for a new interpreter prefix `pp`: a `venv` re-points its
      `python` link to the versioned interpreter under `pp`; a `virtualenv`
      re-points links into the interpreter's library (with a trailing
      slash) and include directories. */
  function RewriteRules(ctx: Context, pp: Path): (r: seq<Rule>)
    ensures |r| == (if ctx.kind == Venv then 1 else 2)
    ensures ctx.kind == Venv ==>
      EndsWith(r[0].orig, "python") && EndsWith(r[0].replacement, Basename(ctx.pyLib))
    ensures ctx.kind == Virtualenv ==>
      EndsWith(r[1].orig, ctx.pyInclude) && EndsWith(r[1].replacement, ctx.pyInclude)
    ensures ctx.kind == Virtualenv && !IsAbs(ctx.pyInclude) ==>
      StartsWith(r[1].orig, ctx.origPrefix) && StartsWith(r[1].replacement, pp)
  {
    if ctx.kind == Venv then
      [Rule(Join(Join(ctx.origPrefix, BinDir), "python"), Join(Join(pp, BinDir), Basename(ctx.pyLib)))]
    else
      [Rule(Join(Join(ctx.origPrefix, ctx.pyLib), ""), Join(Join(pp, ctx.pyLib), "")),
       Rule(Join(ctx.origPrefix, ctx.pyInclude), Join(pp, ctx.pyInclude))]
  }

  /** `check_python_prefix`: no prefix means no relocation; a relative
      prefix is refused; otherwise the normalised prefix and its rules. */
  function CheckPythonPrefix(pythonPrefix: Option<Path>, ctx: Context, normpath: Path -> Path): (r: Result<(Option<Path>, seq<Rule>)>)
    ensures pythonPrefix.None? ==> r == Ok((None, []))
    ensures pythonPrefix.Some? ==> (r.Ok? <==> IsAbs(pythonPrefix.value))
    ensures r.Err? ==> r.error == VenvPackError("python-prefix must be an absolute path")
    ensures r.Ok? && pythonPrefix.Some? ==>
      r.value.0 == Some(normpath(pythonPrefix.value)) && |r.value.1| == (if ctx.kind == Venv then 1 else 2)
    ensures r.Ok? && pythonPrefix.Some? ==> r.value.1 == RewriteRules(ctx, normpath(pythonPrefix.value))
  {
    match pythonPrefix
    case None => Ok((None, []))
    case Some(p) =>
      if !IsAbs(p) then Err(VenvPackError("python-prefix must be an absolute path"))
      else
        var pp := normpath(p);
        Ok((Some(pp), RewriteRules(ctx, pp)))
  }

  /** The first rule whose `orig` starts `link`, as the loop of
      `Packer.add` finds it. */
  function FirstRule(rules: seq<Rule>, link: Path): (r: Option<Rule>)
    ensures r.Some? ==> r.value in rules && StartsWith(link, r.value.orig)
    ensures r.None? ==> forall x :: x in rules ==> !StartsWith(link, x.orig)
  {
    if rules == [] then None
    else if StartsWith(link, rules[0].orig) then Some(rules[0])
    else FirstRule(rules[1..], link)
  }

  /** The one call `Packer.add` makes for `file`, or the error of reading
      it. */
  function AddCall(fs: FileSystem, file: File, rewrites: seq<Rule>, prefix: Path): (r: Result<ArchiveCall>)
    ensures r.Ok? ==> r.value.source == file.source && r.value.target == file.target
    ensures r.Err? ==> r.error == OSError(file.source) && StartsWith(file.target, BinDir)
    ensures r.Ok? && r.value.AddLink? ==>
      IsLink(fs, file.source) && FirstRule(rewrites, fs[file.source].link).Some?
      && (var link := fs[file.source].link;
          r.value.link == ReplaceAll(link, FirstRule(rewrites, link).value.orig, FirstRule(rewrites, link).value.replacement))
  {
    if rewrites != [] && IsLink(fs, file.source) then
      var link := fs[file.source].link;
      match FirstRule(rewrites, link)
      case Some(rule) => Ok(AddLink(file.source, ReplaceAll(link, rule.orig, rule.replacement), file.target))
      case None => Ok(Add(file.source, file.target))
    else if StartsWith(file.target, BinDir) && !(IsDir(fs, file.source) || IsLink(fs, file.source)) then
      match ReadBytes(fs, file.source)
      case Err(e) => Err(e)
      case Ok(data) => Ok(AddBytes(file.source, RewriteShebang(data, prefix).0, file.target))
    else Ok(Add(file.source, file.target))
  }

  /** The `add` calls of `finish` for the activation scripts shipped with
      the package, each installed in `bin`. */
  function ScriptCalls(scriptsDir: Path, scripts: seq<string>): seq<ArchiveCall> {
    if scripts == [] then []
    else ScriptCalls(scriptsDir, scripts[..|scripts| - 1]) + [ScriptCall(Join(scriptsDir, "common"), scripts[|scripts| - 1])]
  }

  /** The script `f` of directory `dirpath` goes to `bin/f`. */
  function ScriptCall(dirpath: Path, f: string): ArchiveCall {
    Add(Join(dirpath, f), Join(BinDir, f))
  }

  /** The last call of `finish`: the file naming the interpreter, copied as
      is, or rewritten for the new interpreter prefix. `files` holds the
      text of the files that are read. */
  function OriginCall(ctx: Context, pythonPrefix: Option<Path>, files: map<Path, string>): (r: Result<ArchiveCall>)
    ensures r.Err? <==> ctx.kind == Venv && pythonPrefix.Some? && Join(ctx.prefix, "pyvenv.cfg") !in files
    ensures r.Err? ==> r.error == OSError(Join(ctx.prefix, "pyvenv.cfg"))
    ensures r.Ok? ==> (r.value.Add? <==> pythonPrefix.None?) && !r.value.AddLink?
    ensures r.Ok? ==> r.value.target == (if ctx.kind == Venv then "pyvenv.cfg" else Join(ctx.pyLib, "orig-prefix.txt"))
    ensures r.Ok? && ctx.kind == Virtualenv && pythonPrefix.Some? ==> r.value.data == Encode(pythonPrefix.value)
    ensures r.Ok? ==> (r.value.source ==
      if ctx.kind == Venv then Join(ctx.prefix, "pyvenv.cfg") else Join(Join(ctx.prefix, ctx.pyLib), "orig-prefix.txt"))
    ensures r.Ok? && ctx.kind == Venv && pythonPrefix.Some? ==>
      var cfg := Join(ctx.prefix, "pyvenv.cfg");
      r.value == AddBytes(cfg, Encode(ReplaceAll(files[cfg], ctx.origPrefix, pythonPrefix.value)), "pyvenv.cfg")
  {
    if ctx.kind == Venv then
      var cfg := Join(ctx.prefix, "pyvenv.cfg");
      match pythonPrefix
      case None => Ok(Add(cfg, "pyvenv.cfg"))
      case Some(pp) =>
        if cfg !in files then Err(OSError(cfg))
        else Ok(AddBytes(cfg, Encode(ReplaceAll(files[cfg], ctx.origPrefix, pp)), "pyvenv.cfg"))
    else
      var txt := Join(Join(ctx.prefix, ctx.pyLib), "orig-prefix.txt");
      var target := Join(ctx.pyLib, "orig-prefix.txt");
      match pythonPrefix
      case None => Ok(Add(txt, target))
      case Some(pp) => Ok(AddBytes(txt, Encode(pp), target))
  }

  /** The calls made by adding `files` in order, and how that ended: the
      first file that cannot be read stops the loop. */
  function AddAllCalls(fs: FileSystem, files: seq<File>, rewrites: seq<Rule>, prefix: Path): (seq<ArchiveCall>, Outcome) {
    if files == [] then ([], Pass)
    else
      var done := AddAllCalls(fs, files[..|files| - 1], rewrites, prefix);
      if done.1.Fail? then done
      else match AddCall(fs, files[|files| - 1], rewrites, prefix)
        case Ok(c) => (done.0 + [c], Pass)
        case Err(e) => (done.0, Fail(e))
  }

  /** `Packer`: the archive it writes to is the record `calls`. */
  class Packer {
    const context: Context
    const prefix: Path
    const pythonPrefix: Option<Path>
    const rewrites: seq<Rule>
    var calls: seq<ArchiveCall>

    constructor(ctx: Context, pythonPrefix: Option<Path>, rewrites: seq<Rule>)
      ensures context == ctx && prefix == ctx.prefix
      ensures this.pythonPrefix == pythonPrefix && this.rewrites == rewrites
      ensures calls == []
    {
      context := ctx;
      prefix := ctx.prefix;
      this.pythonPrefix := pythonPrefix;
      this.rewrites := rewrites;
      calls := [];
    }

    /** `Packer.__init__`: fails as `check_python_prefix` does, and
        otherwise starts on an empty archive. */
    static method Open(ctx: Context, pythonPrefix: Option<Path>, normpath: Path -> Path) returns (r: Result<Packer>)
      ensures var checked := CheckPythonPrefix(pythonPrefix, ctx, normpath);
        (checked.Err? ==> r == Err(checked.error))
        && (checked.Ok? ==>
              (r.Ok? && fresh(r.value) && r.value.context == ctx && r.value.prefix == ctx.prefix
               && r.value.pythonPrefix == checked.value.0 && r.value.rewrites == checked.value.1
               && r.value.calls == []))
    {
      var checked := CheckPythonPrefix(pythonPrefix, ctx, normpath);
      if checked.Err? {
        return Err(checked.error);
      }
      var p := new Packer(ctx, checked.value.0, checked.value.1);
      return Ok(p);
    }

    /** `Packer.add`: exactly one call on the archive per file, unless the
        file to be rewritten cannot be read. */
    method AddFile(fs: FileSystem, file: File) returns (r: Outcome)
      modifies this
      ensures var spec := AddCall(fs, file, rewrites, prefix);
        (spec.Ok? ==> r == Pass && calls == old(calls) + [spec.value])
        && (spec.Err? ==> r == Fail(spec.error) && calls == old(calls))
    {
      if rewrites != [] && IsLink(fs, file.source) {
        var link := fs[file.source].link;
        for i := 0 to |rewrites|
          invariant FirstRule(rewrites, link) == FirstRule(rewrites[i..], link)
        {
          var rule := rewrites[i];
          if StartsWith(link, rule.orig) {
            calls := calls + [AddLink(file.source, ReplaceAll(link, rule.orig, rule.replacement), file.target)];
            return Pass;
          }
          assert rewrites[i..][1..] == rewrites[i + 1..];
        }
        calls := calls + [Add(file.source, file.target)];
      } else if StartsWith(file.target, BinDir) && !(IsDir(fs, file.source) || IsLink(fs, file.source)) {
        var data := ReadBytes(fs, file.source);
        if data.Err? {
          return Fail(data.error);
        }
        var rewritten := RewriteShebang(data.value, prefix);
        calls := calls + [AddBytes(file.source, rewritten.0, file.target)];
      } else {
        calls := calls + [Add(file.source, file.target)];
      }
      return Pass;
    }

    /** `Packer.finish`: the activation scripts, then the file naming the
        interpreter. `scripts` is the listing of the package's `common`
        script directory under `scriptsDir`. */
    method Finish(files: map<Path, string>, scriptsDir: Path, scripts: seq<string>) returns (r: Outcome)
      modifies this
      ensures var origin := OriginCall(context, pythonPrefix, files);
        calls == old(calls) + ScriptCalls(scriptsDir, scripts) + (if origin.Ok? then [origin.value] else [])
        && r == (if origin.Ok? then Pass else Fail(origin.error))
    {
      AddScripts(scriptsDir, scripts);
      var origin := OriginCall(context, pythonPrefix, files);
      if origin.Err? {
        return Fail(origin.error);
      }
      calls := calls + [origin.value];
      return Pass;
    }

    /** The loop of `finish` over the script directory. */
    method AddScripts(scriptsDir: Path, scripts: seq<string>)
      modifies this
      ensures calls == old(calls) + ScriptCalls(scriptsDir, scripts)
    {
      var dirpath := Join(scriptsDir, "common");
      var added: seq<ArchiveCall> := [];
      for i := 0 to |scripts|
        invariant added == ScriptCalls(scriptsDir, scripts[..i])
        invariant calls == old(calls)
      {
        ScriptCallsStep(scriptsDir, scripts, i);
        added := added + [ScriptCall(dirpath, scripts[i])];
      }
      assert scripts[..|scripts|] == scripts;
      calls := calls + added;
    }

    /** The packing loop of `Env.pack`: every file in order, then
        `finish`; the first failure stops it. */
    method PackAll(fs: FileSystem, envFiles: seq<File>, files: map<Path, string>, scriptsDir: Path, scripts: seq<string>)
      returns (r: Outcome)
      modifies this
      ensures var added := AddAllCalls(fs, envFiles, rewrites, prefix);
        var origin := OriginCall(context, pythonPrefix, files);
        (added.1.Fail? ==> r == added.1 && calls == old(calls) + added.0)
        && (added.1.Pass? ==>
              calls == old(calls) + added.0 + ScriptCalls(scriptsDir, scripts) + (if origin.Ok? then [origin.value] else [])
              && r == (if origin.Ok? then Pass else Fail(origin.error)))
    {
      for i := 0 to |envFiles|
        invariant AddAllCalls(fs, envFiles[..i], rewrites, prefix).1 == Pass
        invariant calls == old(calls) + AddAllCalls(fs, envFiles[..i], rewrites, prefix).0
      {
        AddAllStep(fs, envFiles, rewrites, prefix, i);
        r := AddFile(fs, envFiles[i]);
        if r.Fail? {
          AddAllStops(fs, envFiles, rewrites, prefix, i + 1);
          return r;
        }
      }
      assert envFiles[..|envFiles|] == envFiles;
      r := Finish(files, scriptsDir, scripts);
    }
  }

  // ---------------------------------------------------------------------
  // The packing loop

  lemma ScriptCallsStep(scriptsDir: Path, scripts: seq<string>, i: nat)
    requires i < |scripts|
    ensures ScriptCalls(scriptsDir, scripts[..i + 1]) ==
      ScriptCalls(scriptsDir, scripts[..i]) + [ScriptCall(Join(scriptsDir, "common"), scripts[i])]
  {
    assert scripts[..i + 1][..i] == scripts[..i];
  }

  lemma AddAllStep(fs: FileSystem, files: seq<File>, rewrites: seq<Rule>, prefix: Path, i: nat)
    requires i < |files|
    ensures AddAllCalls(fs, files[..i + 1], rewrites, prefix) ==
      var done := AddAllCalls(fs, files[..i], rewrites, prefix);
      if done.1.Fail? then done
      else match AddCall(fs, files[i], rewrites, prefix)
        case Ok(c) => (done.0 + [c], Pass)
        case Err(e) => (done.0, Fail(e))
  {
    assert files[..i + 1][..i] == files[..i];
  }

  /** Once a file fails, the rest of the loop is skipped. */
  lemma {:induction false} AddAllStops(fs: FileSystem, files: seq<File>, rewrites: seq<Rule>, prefix: Path, n: nat)
    requires n <= |files| && AddAllCalls(fs, files[..n], rewrites, prefix).1.Fail?
    ensures AddAllCalls(fs, files, rewrites, prefix) == AddAllCalls(fs, files[..n], rewrites, prefix)
    decreases |files| - n
  {
    if n < |files| {
      AddAllStep(fs, files, rewrites, prefix, n);
      AddAllStops(fs, files, rewrites, prefix, n + 1);
    } else {
      assert files[..n] == files;
    }
  }

  /** When the loop completes, the archive holds one record per file, in
      order, at the file's own source and target. */
  lemma {:induction false} AddAllOnePerFile(fs: FileSystem, files: seq<File>, rewrites: seq<Rule>, prefix: Path)
    ensures var added := AddAllCalls(fs, files, rewrites, prefix);
      added.1.Pass? ==>
        |added.0| == |files|
        && forall i :: 0 <= i < |files| ==> added.0[i].source == files[i].source && added.0[i].target == files[i].target
  {
    if files != [] {
      var init := files[..|files| - 1];
      AddAllOnePerFile(fs, init, rewrites, prefix);
    }
  }

  /** The loop fails iff some file cannot be read, and then with the error
      of the first such file. */
  lemma {:induction false} AddAllFails(fs: FileSystem, files: seq<File>, rewrites: seq<Rule>, prefix: Path)
    ensures var added := AddAllCalls(fs, files, rewrites, prefix);
      (added.1.Fail? <==> exists k :: 0 <= k < |files| && AddCall(fs, files[k], rewrites, prefix).Err?)
      && (added.1.Fail? ==>
            exists k :: (0 <= k < |files| && AddCall(fs, files[k], rewrites, prefix).Err?
                         && added.1 == Fail(AddCall(fs, files[k], rewrites, prefix).error)
                         && (forall j :: 0 <= j < k ==> AddCall(fs, files[j], rewrites, prefix).Ok?)
                         && |added.0| == k))
  {
    if files != [] {
      var init := files[..|files| - 1];
      AddAllFails(fs, init, rewrites, prefix);
      AddAllOnePerFile(fs, init, rewrites, prefix);
      assert forall i :: 0 <= i < |init| ==> init[i] == files[i];
    }
  }

  // ---------------------------------------------------------------------
  // Dispatch of `Packer.add`

  /** Which call `Packer.add` makes: a link is re-pointed iff there are
      rules and one matches its target; a `bin` entry that is a regular
      file is added with its shebang rewritten; anything else is added
      as is. */
  lemma AddDispatch(fs: FileSystem, file: File, rewrites: seq<Rule>, prefix: Path)
    ensures var r := AddCall(fs, file, rewrites, prefix);
      var relink := rewrites != [] && IsLink(fs, file.source);
      var script := !relink && StartsWith(file.target, BinDir) && !IsDir(fs, file.source) && !IsLink(fs, file.source);
      (r.Ok? && r.value.AddLink? <==> relink && FirstRule(rewrites, fs[file.source].link).Some?)
      && (r.Ok? && r.value.AddBytes? <==> script && ReadBytes(fs, file.source).Ok?)
      && (r.Err? <==> script && ReadBytes(fs, file.source).Err?)
      && (script && r.Ok? ==> r.value.data == RewriteShebang(ReadBytes(fs, file.source).value, prefix).0)
      && (relink && FirstRule(rewrites, fs[file.source].link).Some? ==>
            var rule := FirstRule(rewrites, fs[file.source].link).value;
            r == Ok(AddLink(file.source, ReplaceAll(fs[file.source].link, rule.orig, rule.replacement), file.target)))
  {
  }

  /** The first rule that matches wins, whatever the later ones say. */
  lemma {:induction false} FirstRuleIsFirst(rules: seq<Rule>, link: Path, i: nat)
    requires i < |rules| && StartsWith(link, rules[i].orig)
    requires forall j :: 0 <= j < i ==> !StartsWith(link, rules[j].orig)
    ensures FirstRule(rules, link) == Some(rules[i])
  {
    if i > 0 {
      assert !StartsWith(link, rules[0].orig);
      FirstRuleIsFirst(rules[1..], link, i - 1);
    }
  }

  /** A link whose target holds the rule's `orig` only at its start is
      re-pointed to the replacement followed by the rest of the target. */
  lemma RelinkLeading(rule: Rule, link: Path)
    requires |rule.orig| > 0 && StartsWith(link, rule.orig)
    requires forall i :: !OccursAt(link[|rule.orig|..], rule.orig, i)
    ensures ReplaceAll(link, rule.orig, rule.replacement) == rule.replacement + link[|rule.orig|..]
  {
    ReplaceLeading(link, rule.orig, rule.replacement);
  }

  // ---------------------------------------------------------------------
  // Properties of the rules

  /** Joining a relative, non-empty name keeps the directory as a prefix
      and the name as a suffix, twice over. */
  lemma JoinTwice(a: Path, b: Path, c: Path)
    requires !IsAbs(b) && !IsAbs(c)
    ensures StartsWith(Join(Join(a, b), c), a) && EndsWith(Join(Join(a, b), c), c)
  {
    StartsWithTrans(Join(Join(a, b), c), Join(a, b), a);
  }

  /** Joining the empty name ends a non-empty path with a slash. */
  lemma JoinEmptySlash(a: Path)
    requires a != []
    ensures EndsWith(Join(a, ""), "/")
  {
    assert !IsAbs("");
  }

  /** The `venv` rule: the old `python` under the old interpreter prefix
      is re-pointed to the interpreter named after the library version
      under the new one. */
  lemma VenvRuleShape(ctx: Context, pp: Path)
    requires ctx.kind == Venv
    ensures var rules := RewriteRules(ctx, pp);
      |rules| == 1
      && StartsWith(rules[0].orig, ctx.origPrefix) && EndsWith(rules[0].orig, "python")
      && StartsWith(rules[0].replacement, pp) && EndsWith(rules[0].replacement, Basename(ctx.pyLib))
  {
    assert !IsAbs(BinDir) by { assert BinDir[..1] == "b"; }
    assert !IsAbs("python") by { assert "python"[..1] == "p"; }
    var v := Basename(ctx.pyLib);
    assert !IsAbs(v) by { if v != [] { assert v[0] in v; } }
    JoinTwice(ctx.origPrefix, BinDir, "python");
    JoinTwice(pp, BinDir, v);
  }

  /** `os.path.join` of a directory without a trailing slash and a
      relative name puts one `/` between them. */
  lemma JoinPlain(a: Path, b: Path)
    requires a != [] && a[|a| - 1] != '/' && !IsAbs(b)
    ensures Join(a, b) == a + "/" + b
  {
    assert !EndsWith(a, "/") by { assert a[|a| - 1..][0] == a[|a| - 1]; }
  }

  /** `<dir>/bin/<name>` for a directory without a trailing slash. */
  lemma JoinBin(a: Path, name: Path)
    requires a != [] && a[|a| - 1] != '/' && !IsAbs(name)
    ensures Join(Join(a, BinDir), name) == a + "/bin/" + name
  {
    assert !IsAbs(BinDir) by { assert BinDir[..1] == "b"; }
    JoinPlain(a, BinDir);
    var ab := a + "/" + BinDir;
    assert ab[|ab| - 1] == 'n';
    JoinPlain(ab, name);
    assert ab + "/" + name == a + "/bin/" + name;
  }

  /** The `venv` rule exactly: `<orig>/bin/python` is re-pointed to
      `<new>/bin/<basename of py_lib>`, for prefixes without a trailing
      slash (as `os.path.normpath` leaves them). */
  lemma VenvRules(ctx: Context, pp: Path)
    requires ctx.kind == Venv
    requires ctx.origPrefix != [] && ctx.origPrefix[|ctx.origPrefix| - 1] != '/'
    requires pp != [] && pp[|pp| - 1] != '/'
    ensures RewriteRules(ctx, pp) == [Rule(ctx.origPrefix + "/bin/python", pp + "/bin/" + Basename(ctx.pyLib))]
  {
    var v := Basename(ctx.pyLib);
    BinPython(ctx.origPrefix);
    BasenameRelative(ctx.pyLib);
    JoinBin(pp, v);
  }

  /** `<dir>/bin/python` for a directory without a trailing slash. */
  lemma BinPython(a: Path)
    requires a != [] && a[|a| - 1] != '/'
    ensures Join(Join(a, BinDir), "python") == a + "/bin/python"
  {
    assert !IsAbs("python") by { assert "python"[..1] == "p"; }
    JoinBin(a, "python");
    assert "/bin/" + "python" == "/bin/python";
  }

  /** A basename holds no `/`, so it is relative. */
  lemma BasenameRelative(p: Path)
    ensures !IsAbs(Basename(p))
  {
    var v := Basename(p);
    if v != [] { assert v[0] in v; }
  }

  /** The `virtualenv` rules exactly: the library directory with a
      trailing slash, then the include directory, each re-pointed from the
      old interpreter prefix to the new one. */
  lemma VirtualenvRules(ctx: Context, pp: Path)
    requires ctx.kind == Virtualenv
    requires ctx.origPrefix != [] && ctx.origPrefix[|ctx.origPrefix| - 1] != '/'
    requires pp != [] && pp[|pp| - 1] != '/'
    requires ctx.pyLib != [] && !IsAbs(ctx.pyLib) && ctx.pyLib[|ctx.pyLib| - 1] != '/'
    requires !IsAbs(ctx.pyInclude)
    ensures RewriteRules(ctx, pp) ==
      [Rule(ctx.origPrefix + "/" + ctx.pyLib + "/", pp + "/" + ctx.pyLib + "/"),
       Rule(ctx.origPrefix + "/" + ctx.pyInclude, pp + "/" + ctx.pyInclude)]
  {
    var o, lib := ctx.origPrefix, ctx.pyLib;
    assert !IsAbs("");
    JoinPlain(o, lib);
    JoinPlain(pp, lib);
    var ol, pl := o + "/" + lib, pp + "/" + lib;
    assert ol[|ol| - 1] == lib[|lib| - 1] && pl[|pl| - 1] == lib[|lib| - 1];
    JoinPlain(ol, "");
    JoinPlain(pl, "");
    assert ol + "/" + "" == o + "/" + lib + "/";
    assert pl + "/" + "" == pp + "/" + lib + "/";
    JoinPlain(o, ctx.pyInclude);
    JoinPlain(pp, ctx.pyInclude);
  }

  /** The `virtualenv` rules: the library rule ends in a slash on both
      sides, so that it only matches inside the library directory; the
      include rule ends in the include directory; old paths lie under the
      old interpreter prefix and replacements under the new one. */
  lemma VirtualenvRulesShape(ctx: Context, pp: Path)
    requires ctx.kind == Virtualenv
    requires !IsAbs(ctx.pyLib) && !IsAbs(ctx.pyInclude) && ctx.pyLib != []
    ensures var rules := RewriteRules(ctx, pp);
      |rules| == 2
      && StartsWith(rules[0].orig, ctx.origPrefix) && EndsWith(rules[0].orig, "/")
      && StartsWith(rules[0].replacement, pp) && EndsWith(rules[0].replacement, "/")
      && StartsWith(rules[1].orig, ctx.origPrefix) && EndsWith(rules[1].orig, ctx.pyInclude)
      && StartsWith(rules[1].replacement, pp) && EndsWith(rules[1].replacement, ctx.pyInclude)
  {
    assert !IsAbs("");
    JoinTwice(ctx.origPrefix, ctx.pyLib, "");
    JoinTwice(pp, ctx.pyLib, "");
    JoinEmptySlash(Join(ctx.origPrefix, ctx.pyLib));
    JoinEmptySlash(Join(pp, ctx.pyLib));
  }

  /** `replace` re-points every copy of the rule's `orig` in a link
      target, not only the leading one: a target holding it twice gets the
      replacement twice. */
  lemma RelinkEveryCopy(rule: Rule)
    requires |rule.orig| > 0
    ensures ReplaceAll(rule.orig + rule.orig, rule.orig, rule.replacement) == rule.replacement + rule.replacement
  {
    var o, rep := rule.orig, rule.replacement;
    assert ReplaceAll(o, o, rep) == rep by {
      assert o[|o|..] == [];
      ReplaceLeading(o, o, rep);
    }
    assert (o + o)[..|o|] == o && (o + o)[|o|..] == o;
  }

  /** The `venv` rule matches by prefix, so a link to a versioned
      interpreter keeps its version suffix after the replacement, behind
      the versioned name: with the old interpreter in `/usr`, the new one
      in `/opt` and the library `lib/python3.6`, a link to
      `/usr/bin/python3.6` is re-pointed to `/opt/bin/python3.63.6`. */
  lemma VenvRelinkKeepsSuffix(ctx: Context, pp: Path, suffix: Path)
    requires ctx.kind == Venv
    requires forall i :: !OccursAt(suffix, RewriteRules(ctx, pp)[0].orig, i)
    ensures var rule := RewriteRules(ctx, pp)[0];
      var link := rule.orig + suffix;
      FirstRule([rule], link) == Some(rule)
      && ReplaceAll(link, rule.orig, rule.replacement) == Join(Join(pp, BinDir), Basename(ctx.pyLib)) + suffix
  {
    var rule := RewriteRules(ctx, pp)[0];
    var link := rule.orig + suffix;
    assert link[..|rule.orig|] == rule.orig;
    assert link[|rule.orig|..] == suffix;
    RelinkLeading(rule, link);
  }

  /** What `Packer.add` records for a link into a `venv`'s old
      interpreter: a link to `<orig>/bin/python` + suffix, the suffix
      holding no copy of the rule's original, is archived as a link to
      the new versioned interpreter + the same suffix. */
  lemma VenvLinkRecorded(fs: FileSystem, file: File, ctx: Context, pp: Path, prefix: Path, suffix: Path)
    requires ctx.kind == Venv
    requires IsLink(fs, file.source) && fs[file.source].link == RewriteRules(ctx, pp)[0].orig + suffix
    requires forall i :: !OccursAt(suffix, RewriteRules(ctx, pp)[0].orig, i)
    ensures AddCall(fs, file, RewriteRules(ctx, pp), prefix)
      == Ok(AddLink(file.source, Join(Join(pp, BinDir), Basename(ctx.pyLib)) + suffix, file.target))
  {
    VenvRelinkKeepsSuffix(ctx, pp, suffix);
    AddDispatch(fs, file, RewriteRules(ctx, pp), prefix);
  }

  /** The basename of the library directory `lib/python3.6`. */
  lemma BasenameOfLib()
    ensures Basename("lib/python3.6") == "python3.6"
  {
    var lib: Path := "lib/python3.6";
    var i := AfterLastSep(lib);
    assert lib[3] == '/';
    assert forall k :: 0 <= k < |lib| && k != 3 ==> lib[k] != '/';
    assert i == 4;
    assert lib[4..] == "python3.6";
  }

  /** The `venv` rule that `VenvRules` gives for an old interpreter in
      `/usr`, a new one in `/opt` and the library `lib/python3.6`, that is
      `/usr/bin/python` to `/opt/bin/python3.6`: a link to
      `/usr/bin/python3.6` matches it by prefix and is re-pointed to
      `/opt/bin/python3.63.6`. */
  lemma VenvRelinkVersioned()
    ensures var rule := Rule("/usr" + "/bin/python", "/opt" + "/bin/" + Basename("lib/python3.6"));
      FirstRule([rule], "/usr/bin/python3.6") == Some(rule)
      && ReplaceAll("/usr/bin/python3.6", rule.orig, rule.replacement) == "/opt/bin/python3.63.6"
  {
    BasenameOfLib();
    assert "/usr" + "/bin/python" == "/usr/bin/python";
    assert "/opt" + "/bin/" + "python3.6" == "/opt/bin/python3.6";
    var rule := Rule("/usr/bin/python", "/opt/bin/python3.6");
    var link: Path := "/usr/bin/python3.6";
    assert link[..|rule.orig|] == rule.orig;
    assert link[|rule.orig|..] == "3.6";
    assert forall i :: !OccursAt(link[|rule.orig|..], rule.orig, i);
    RelinkLeading(rule, link);
    assert rule.replacement + "3.6" == "/opt/bin/python3.63.6";
  }
}

=== FILE: shebang.dfy ===
/** `rewrite_shebang` of venv_pack/core.py and the pattern `SHEBANG_REGEX`
    it matches, written as a scanner over bytes. A script whose first line
    is `#!` + spaces + an absolute interpreter path inside the environment
    gets that line replaced by `#!/usr/bin/env <interpreter name><options>`,
    so that the packed environment runs wherever it is unpacked. */
module Shebang {
  import opened Common
  import opened Paths

  const Hash: byte := 35       // '#'
  const Bang: byte := 33       // '!'
  const Space: byte := 32      // ' '
  const Slash: byte := 47      // '/'
  const Backslash: byte := 92  // '\\'
  const Newline: byte := 10    // '\n'
  const Return: byte := 13     // '\r'
  const Tab: byte := 9         // '\t'

  /** The bytes that end the executable unless escaped: `[ \n\r\t]`. */
  predicate Stop(b: byte) {
    b == Space || b == Newline || b == Return || b == Tab
  }

  /** The three groups of a match: the whole first line, the executable
      and the options that follow it. */
  datatype ShebangMatch = ShebangMatch(shebang: Bytes, executable: Bytes, options: Bytes)

  /** `(?:[ ]*)` from `i`: the index after the run of spaces. */
  function SpacesEnd(d: Bytes, i: nat): (r: nat)
    requires i <= |d|
    ensures i <= r <= |d|
    ensures forall k :: i <= k < r ==> d[k] == Space
    ensures r == |d| || d[r] != Space
    decreases |d| - i
  {
    if i < |d| && d[i] == Space then SpacesEnd(d, i + 1) else i
  }

  /** `(?:\\ |[^ \n\r\t])*` from `i`, greedy: an escaped space counts as one
      unit, any other byte but the four stop bytes continues the run. */
  function ExecEnd(d: Bytes, i: nat): (r: nat)
    requires i <= |d|
    ensures i <= r <= |d|
    ensures r == |d| || Stop(d[r])
    decreases |d| - i
  {
    if i + 1 < |d| && d[i] == Backslash && d[i + 1] == Space then ExecEnd(d, i + 2)
    else if i < |d| && !Stop(d[i]) then ExecEnd(d, i + 1)
    else i
  }

  /** `(.*)$` from `i` under `re.MULTILINE`: up to the first `\n`. */
  function LineEnd(d: Bytes, i: nat): (r: nat)
    requires i <= |d|
    ensures i <= r <= |d|
    ensures forall k :: i <= k < r ==> d[k] != Newline
    ensures r == |d| || d[r] == Newline
    decreases |d| - i
  {
    if i < |d| && d[i] != Newline then LineEnd(d, i + 1) else i
  }

  /** `re.match(SHEBANG_REGEX, data, re.MULTILINE)` */
  function MatchShebang(d: Bytes): (r: Option<ShebangMatch>)
    ensures r.Some? ==> |d| > 2 && d[0] == Hash && d[1] == Bang
    ensures r.Some? ==> r.value.executable != [] && r.value.executable[0] == Slash
    ensures r.Some? ==> |r.value.executable| + |r.value.options| + 2 <= |r.value.shebang| <= |d|
  {
    if |d| >= 2 && d[0] == Hash && d[1] == Bang then
      var s := SpacesEnd(d, 2);
      if s < |d| && d[s] == Slash then
        var e := ExecEnd(d, s + 1);
        var l := LineEnd(d, e);
        Some(ShebangMatch(d[..l], d[s..e], d[e..l]))
      else None
    else None
  }

  /** The data begins with `#!`, spaces, and `/`: what the pattern needs to
      match at all. */
  predicate ShebangStart(d: Bytes) {
    exists n :: 2 <= n < |d| && d[0] == Hash && d[1] == Bang && d[n] == Slash
      && forall k :: 2 <= k < n ==> d[k] == Space
  }

  /** The run of spaces from `i` ends at the first byte that is not one. */
  lemma {:induction false} SpacesEndAt(d: Bytes, i: nat, n: nat)
    requires i <= n < |d| && d[n] != Space
    requires forall k :: i <= k < n ==> d[k] == Space
    ensures SpacesEnd(d, i) == n
    decreases n - i
  {
    if i < n {
      SpacesEndAt(d, i + 1, n);
    }
  }

  /** A match exists iff the data begins with `#!`, spaces, and `/`. */
  lemma MatchIffShebangStart(d: Bytes)
    ensures MatchShebang(d).Some? <==> ShebangStart(d)
  {
    if ShebangStart(d) {
      var n :| 2 <= n < |d| && d[0] == Hash && d[1] == Bang && d[n] == Slash
        && forall k :: 2 <= k < n ==> d[k] == Space;
      SpacesEndAt(d, 2, n);
    }
  }

  /** Every byte of an executable scanned from `i` is a space or not a
      stop byte, and every space follows a backslash. */
  lemma {:induction false} ExecSpacesEscaped(d: Bytes, i: nat)
    requires i <= |d|
    ensures forall k :: i <= k < ExecEnd(d, i) ==> !Stop(d[k]) || d[k] == Space
    ensures forall k :: i <= k < ExecEnd(d, i) && d[k] == Space ==> k > i && d[k - 1] == Backslash
    decreases |d| - i
  {
    if i + 1 < |d| && d[i] == Backslash && d[i + 1] == Space {
      ExecSpacesEscaped(d, i + 2);
    } else if i < |d| && !Stop(d[i]) {
      ExecSpacesEscaped(d, i + 1);
    }
  }

  /** The shebang is the whole first line of the data. */
  lemma MatchIsFirstLine(d: Bytes)
    requires MatchShebang(d).Some?
    ensures var sh := MatchShebang(d).value.shebang;
      StartsWith(d, sh)
      && (|sh| == |d| || d[|sh|] == Newline)
      && (forall k :: 0 <= k < |sh| ==> sh[k] != Newline)
  {
    var s := SpacesEnd(d, 2);
    var e := ExecEnd(d, s + 1);
    var l := LineEnd(d, e);
    assert MatchShebang(d).value.shebang == d[..l];
    forall k | 0 <= k < l ensures d[k] != Newline {
      if k >= e {
      } else if k >= s + 1 {
        ExecSpacesEscaped(d, s + 1);
      } else if k >= 2 {
      }
    }
  }

  /** The shebang is `#!`, spaces, the executable, then the options. */
  lemma MatchParts(d: Bytes)
    requires MatchShebang(d).Some?
    ensures var m := MatchShebang(d).value;
      var n := |m.shebang| - |m.executable| - |m.options|;
      2 <= n && m.shebang[..2] == [Hash, Bang]
      && (forall k :: 2 <= k < n ==> m.shebang[k] == Space)
      && m.shebang[n..] == m.executable + m.options
  {
    var s := SpacesEnd(d, 2);
    var e := ExecEnd(d, s + 1);
    var l := LineEnd(d, e);
    var m := MatchShebang(d).value;
    assert m.shebang == d[..l] && m.executable == d[s..e] && m.options == d[e..l];
    assert |m.shebang| - |m.executable| - |m.options| == s;
    assert d[..l][..2] == d[..2] == [Hash, Bang];
    assert d[..l][s..] == d[s..l] == d[s..e] + d[e..l];
  }

  /** The executable is absolute and holds no `\n`, `\r` or `\t`; each
      of its spaces is escaped by a backslash; the options, when present,
      begin with a space, `\r` or `\t`: the executable extends as far as it
      could. */
  lemma MatchExecutable(d: Bytes)
    requires MatchShebang(d).Some?
    ensures var m := MatchShebang(d).value;
      m.executable != [] && m.executable[0] == Slash
      && (forall k :: 0 <= k < |m.executable| ==> !Stop(m.executable[k]) || m.executable[k] == Space)
      && (forall k :: 0 <= k < |m.executable| && m.executable[k] == Space ==> k > 0 && m.executable[k - 1] == Backslash)
      && (m.options == [] || Stop(m.options[0]))
  {
    var s := SpacesEnd(d, 2);
    var e := ExecEnd(d, s + 1);
    ExecSpacesEscaped(d, s + 1);
    var exe := d[s..e];
    forall k | 0 <= k < |exe| ensures !Stop(exe[k]) || exe[k] == Space {
      assert exe[k] == d[s + k];
    }
    forall k | 0 <= k < |exe| && exe[k] == Space ensures k > 0 && exe[k - 1] == Backslash {
      assert exe[k] == d[s + k] && k != 0;
    }
  }

  // ---------------------------------------------------------------------
  // rewrite_shebang

  /** `executable.split(b'/')[-1]`: the part after the last `/`. */
  function LastComponent(exe: Bytes): (r: Bytes)
    ensures Slash !in r
    ensures EndsWith(exe, r)
    decreases |exe|
  {
    if exe == [] then []
    else if exe[|exe| - 1] == Slash then []
    else LastComponent(exe[..|exe| - 1]) + [exe[|exe| - 1]]
  }

  /** `b'#!/usr/bin/env '` */
  const EnvPrefix: Bytes := [35, 33, 47, 117, 115, 114, 47, 98, 105, 110, 47, 101, 110, 118, 32]

  /** The replacement first line: `#!/usr/bin/env <name><options>`. */
  function NewShebang(m: ShebangMatch): Bytes {
    EnvPrefix + LastComponent(m.executable) + m.options
  }

  /** `rewrite_shebang(data, target, prefix)`: the possibly rewritten data,
      and whether the file may be packed as is (`fixed`). */
  function RewriteShebang(data: Bytes, prefix: Path): (r: (Bytes, bool))
    ensures MatchShebang(data).None? ==> r == (data, false)
    ensures MatchShebang(data).Some? && Count(data, Encode(prefix)) > 1 ==> r == (data, false)
    ensures MatchShebang(data).Some? && Count(data, Encode(prefix)) <= 1 ==> r.1
    ensures r.0 != data ==> r.1 && StartsWith(MatchShebang(data).value.executable, Encode(prefix))
  {
    var prefixB := Encode(prefix);
    match MatchShebang(data)
    case None => (data, false)
    case Some(m) =>
      if Count(data, prefixB) > 1 then (data, false)
      else if StartsWith(m.executable, prefixB) then (ReplaceAll(data, m.shebang, NewShebang(m)), true)
      else (data, true)
  }

  /** A prefix that occurs at most once cannot occur twice without overlap. */
  lemma NoSecondOccurrence(data: Bytes, p: Bytes, a: int, b: int)
    requires |p| > 0 && Count(data, p) <= 1 && OccursAt(data, p, a) && a + |p| <= b
    ensures !OccursAt(data, p, b)
  {
    if OccursAt(data, p, b) {
      CountTwo(data, p, a, b);
    }
  }

  /** A line holding the only occurrence of `p` in the data occurs in the
      data only at its start. */
  lemma {:induction false} LeadingLineUnique(data: Bytes, sh: Bytes, p: Bytes, a: nat)
    requires |p| > 0 && StartsWith(data, sh) && OccursAt(sh, p, a) && Count(data, p) <= 1
    ensures forall i :: !OccursAt(data[|sh|..], sh, i)
  {
    var rest := data[|sh|..];
    assert OccursAt(data, p, a) by {
      assert data[a..a + |p|] == sh[a..a + |p|];
    }
    forall i | 0 <= i && i + |sh| <= |rest| ensures !OccursAt(rest, sh, i) {
      var b := |sh| + i + a;
      assert OccursAt(rest, sh, i) ==> OccursAt(data, p, b) by {
        if OccursAt(rest, sh, i) {
          assert data[b..b + |p|] == rest[i + a..i + a + |p|];
          assert rest[i + a..i + a + |p|] == rest[i..i + |sh|][a..a + |p|];
        }
      }
      NoSecondOccurrence(data, p, a, b);
    }
  }

  /** When the interpreter lies inside the environment, only the first line
      changes: `replace` finds no second copy of the shebang, since that
      would hold a second copy of the prefix. The rest of the data is kept
      byte for byte. */
  lemma RewriteTouchesFirstLineOnly(data: Bytes, prefix: Path)
    requires MatchShebang(data).Some?
    requires StartsWith(MatchShebang(data).value.executable, Encode(prefix))
    requires Count(data, Encode(prefix)) <= 1
    ensures var m := MatchShebang(data).value;
      RewriteShebang(data, prefix) == (NewShebang(m) + data[|m.shebang|..], true)
  {
    var m := MatchShebang(data).value;
    var p := Encode(prefix);
    var sh := m.shebang;
    MatchIsFirstLine(data);
    MatchParts(data);
    assert |p| > 0;
    var n := |sh| - |m.executable| - |m.options|;
    assert OccursAt(sh, p, n) by {
      assert sh[n..n + |p|] == (m.executable + m.options)[..|p|] == m.executable[..|p|];
    }
    LeadingLineUnique(data, sh, p, n);
    ReplaceLeading(data, sh, NewShebang(m));
  }
}
